=== FILE: README.md ===
# Decision logic of the food-waste inventory system, in Dafny

The system manages a food inventory and warns about products that are close
to expiring. It has three parts:

- an Express/TypeScript inventory service (products, storage locations and stock movements);
- a PHP alerts module that scores expiring products and writes alerts and waste reports;
- a Python recipes module that asks a language model for a recipe built from the expiring products.

Most of the code is database plumbing. This project models the layer of
pure decision logic above the plumbing, as immutable datatypes and pure
functions. Database tables become sequences and maps. Database answers,
the clock and the language-model call become parameters.

The files, one module each:

- `values.dfy`, `text.dfy`, `dates.dfy`, `http.dfy`: shared vocabulary.
  - JSON and PHP values with JavaScript truthiness.
  - Decimal rendering and reading, `trim`/`strip`, `includes`, `find`, `split` and `join`.
  - Whole-day arithmetic truncated toward zero (PHP) and rounded down (JavaScript).
  - Handler outcomes and database answers.
- `scorer.dfy`: `IAService::clasificarPrioridadAlerta`, the three score bands and the tier table.
- `alerta.dfy`, `reporte.dfy`: the PHP `Alerta` and `Reporte` constructors with their `??` defaults, and `Alerta::toArray`.
- `alert_service.dfy`: `AlertaService`.
  - Candidate selection and days remaining.
  - The message buckets and the duplicate guard.
  - The generation run as a transition over (products, alerts).
  - The status update and the active listing (filter plus two-key descending order).
- `report_service.dfy`: `ReporteService`, the period filter, the statistics and the recommendation threshold.
- `product_priority.dfy`: `IAProductoService`, the 7-day threshold, the marking loop and `calcularPrioridad`.
- `stock_movements.dfy`: `MovimientoStockController.create` and `getById`.
- `product_controller.dfy`: `ProductoController.create`/`getById`, the field whitelist and the error classification.
- `storage.dfy`: `AlmacenamientoController.create`/`update` and `AlmacenamientoService.create`/`update`.
- `base_controller.dfy`: the `BaseController` life cycle (`setService`, `initialize`, `isInitialized`, `hasService`) and its generic handlers.
- `validators.dfy`: the request validators of the inventory service, that is the field chains, `validarErrores` and the two composite validators.
- `recipe_text.dfy`: the pure part of `generar_receta_con_ia`, that is the product list, the prompt and the parsing of `NOMBRE:`, `DESCRIPCIÓN:` and `TIEMPO:`.
- `recipe_routes.dfy`: `procesar_generar_receta` and `api_generar_receta`, the comma-separated id parser, the defaults and the error guards.

Two behaviours of the code are worth noting:

- **Expired products are not always critical.** The scorer gives 40 points to a product with zero or fewer days left. With no stock and no value that is a total of 40, which is tier 3 ("ALTA"), not tier 4 (`Scorer.ExpiredNotAlwaysCritical`).
- **Days remaining are counted from the current instant.** The alert service truncates the span from now to the midnight that starts the expiry date. So after midnight, a product that expires tomorrow counts zero days and gets the "already expired" message (`AlertService.TomorrowReportedAsExpired`).

## Model

| member | source | states |
|---|---|---|
| Scorer.TimePoints | modulo-alertas/services/IAService.php:11-15 | 40/35/25/15/5/0 points, each band given as an if-and-only-if on its inclusive upper bound (≤0, 1, 2..3, 4..7, 8..14, >14) |
| Scorer.StockPoints | modulo-alertas/services/IAService.php:18-20 | 15/10/5/0 points exactly on the strict bands >50, (20,50], (5,20], ≤5 |
| Scorer.ValuePoints | modulo-alertas/services/IAService.php:23-26 | 10/5/2/0 points exactly on the strict bands >500, (100,500], (50,100], ≤50 of stock times price |
| Scorer.Score | modulo-alertas/services/IAService.php:8-26 | the total score always lies in 0..65 |
| Scorer.TierOf | modulo-alertas/services/IAService.php:29-53 | the tier is in 1..4 and equals 4/3/2/1 exactly when the score is ≥50, in [35,50), in [20,35), <20 |
| Scorer.TierInfo | modulo-alertas/services/IAService.php:30-52 | the fixed table row of a tier carries that tier as its priority |
| Scorer.ClasificarPrioridadAlerta | modulo-alertas/services/IAService.php:7-54 | the result is the table row of the tier of the score, with priority in 1..4 |
| Scorer.TierTextsDistinct | modulo-alertas/services/IAService.php:30-52 | different tiers have different labels and different recommendations |
| Scorer.WorkedExamples | modulo-alertas/services/IAService.php:11-53 | (0, 60, 10) scores 65 and is tier 4; (10, 3, 1) scores 5 and is tier 1; three days add exactly 25 |
| Scorer.ExpiredAtLeastHigh | modulo-alertas/services/IAService.php:11-40 | with zero or fewer days the score is ≥40 and the tier ≥3 |
| Scorer.ExpiredNotAlwaysCritical | modulo-alertas/services/IAService.php:11-40 | zero days with no stock and no value scores 40, which is tier 3, not 4 |
| Scorer.DistantExpiryAtMostMedium | modulo-alertas/services/IAService.php:15-46 | beyond 14 days the score is ≤25 and the tier ≤2 |
| Scorer.TierNonIncreasingInDays | modulo-alertas/services/IAService.php:11-26 | more days never raise the tier |
| Scorer.TierNonDecreasingInStock | modulo-alertas/services/IAService.php:17-26 | with a non-negative price, more stock never lowers the tier |
| AlertaModel.New | modulo-alertas/models/Alerta.php:13-23 | each given field is kept; missing ones default to null, '' or 'activa', and the creation time to the clock |
| AlertaModel.ToArray | modulo-alertas/models/Alerta.php:25-37 | constructing from the array gives the same alert back, at any clock reading |
| AlertaModel.DefaultsOfEmpty | modulo-alertas/models/Alerta.php:14-22 | an alert built from nothing has null ids and dates, empty texts, state 'activa' and creation time now |
| AlertaModel.ToArrayRoundTrip | modulo-alertas/models/Alerta.php:13-37 | `new Alerta(a.toArray())->toArray() == a.toArray()` for every constructed alert |
| AlertaModel.ToArrayInjective | modulo-alertas/models/Alerta.php:25-37 | different alerts give different arrays |
| ReporteModel.New | modulo-alertas/models/Reporte.php:13-23 | each given field is kept; missing ones default to null, '', '{}', 0, 0.0 and the clock |
| ReporteModel.Fields | modulo-alertas/models/Reporte.php:14-22 | constructing from a report's fields gives the same report, at any clock reading |
| ReporteModel.DefaultsOfEmpty | modulo-alertas/models/Reporte.php:14-22 | a report built from nothing holds exactly the constructor's `??` defaults: null id, '' texts, '{}' data, 0 alerts, 0.0 kg and the clock |
| ReporteModel.RebuildIsIdentity | modulo-alertas/models/Reporte.php:14-22 | rebuilding a constructed report from its own fields changes nothing, because `??` keeps non-null values |
| AlertService.Candidates | modulo-alertas/services/AlertaService.php:35-40 | a product is selected exactly when its expiry lies in [today, today+14] and its state is activo or proximo_vencer |
| AlertService.CalcularDiasRestantes | modulo-alertas/services/AlertaService.php:152-157 | the count is ≥1 exactly when expiry-midnight is at least a day ahead, and ≤-1 exactly when a day or more has passed |
| AlertService.CandidateDaysInHorizon | modulo-alertas/services/AlertaService.php:152-157 | for a candidate the count lies in 0..14: the calendar difference at midnight, one less later in the day |
| AlertService.TomorrowReportedAsExpired | modulo-alertas/services/AlertaService.php:152-157 | after midnight, a product expiring tomorrow counts 0 days, gets the URGENTE message and 40 time points |
| AlertService.GenerarMensajeAlerta | modulo-alertas/services/AlertaService.php:140-150 | URGENTE exactly for ≤0 days, CRÍTICO exactly for 1, "- Monitorear" exactly for >3; the quoted name and "vence en N días" appear |
| AlertService.CountActive | modulo-alertas/services/AlertaService.php:127-138 | the count is positive exactly when some alert of that product and type is active |
| AlertService.NuevaAlerta | modulo-alertas/services/AlertaService.php:56-74 | tipo 'vencimiento', level = scorer tier, expiry = product's, clasificacion_ia = label + " - " + recommendation, message by days |
| AlertService.Inserted | modulo-alertas/services/AlertaService.php:48-82 | at most one row per candidate, numbered with consecutive ids |
| AlertService.WithTruthyId | modulo-alertas/services/AlertaService.php:76-81 | the batch holds exactly the inserted rows whose returned id is truthy |
| AlertService.GenerarAlertasInteligentes | modulo-alertas/services/AlertaService.php:33-85 | products unchanged; old alerts kept as a prefix; at most one new alert per candidate; batch ≤ new rows, each with a non-zero id |
| AlertService.GenerarAlertasConFallo | modulo-alertas/services/AlertaService.php:42-84 | the batch is returned iff no query throws, and is then the full run's; after a throw the products are unchanged, the table lies between the old table and the full run's (both as prefixes), holds at most `k` new rows and exactly `k` when the full run inserts more; a throw before any INSERT changes nothing |
| AlertService.InsertedRowsShape | modulo-alertas/services/AlertaService.php:48-82 | every inserted row is the alert built for a candidate that had no active alert before the run |
| AlertService.CandidatesCovered | modulo-alertas/services/AlertaService.php:48-82 | after the loop every candidate has an active 'vencimiento' alert |
| AlertService.CoveredInsertsNothing | modulo-alertas/services/AlertaService.php:52-54 | a loop over candidates that all have an active alert inserts nothing |
| AlertService.RunOnCoveredIsEmpty | modulo-alertas/services/AlertaService.php:52-54 | a run in which every candidate is covered leaves the state unchanged and returns an empty batch |
| AlertService.SecondRunCreatesNothing | modulo-alertas/services/AlertaService.php:48-84 | a second run on the same day, with no state change in between, creates nothing and returns an empty batch |
| AlertService.AppendKeepsUnique | modulo-alertas/services/AlertaService.php:52-76 | adding an active alert for an uncovered product keeps at most one active alert per (product, type) |
| AlertService.GenerationKeepsUniqueActive | modulo-alertas/services/AlertaService.php:48-82 | the loop preserves "at most one active alert per (product, type)" |
| AlertService.GenerationSound | modulo-alertas/services/AlertaService.php:33-85 | the run preserves that invariant, and each added alert belongs to a candidate that had no active alert |
| AlertService.ThrownRunSound | modulo-alertas/services/AlertaService.php:42-82 | a run cut short by a throwing query also preserves that invariant, and each row it leaves belongs to a candidate that had no active alert |
| AlertService.ActualizarAlerta | modulo-alertas/services/AlertaService.php:87-102 | true iff no database error; on error nothing changes; otherwise only `estado` of the rows with that id changes |
| AlertService.UpdateIdempotent | modulo-alertas/services/AlertaService.php:92-94 | repeating the same update changes nothing more |
| AlertService.UpdateIgnoresCommentAndUser | modulo-alertas/services/AlertaService.php:87-102 | the comment and the user have no effect |
| AlertService.ReactivationCanDuplicate | modulo-alertas/services/AlertaService.php:87-102 | setting a resolved alert back to 'activa' can leave two active alerts for one product |
| AlertService.ListedBeforeTotal | modulo-alertas/services/AlertaService.php:25 | of any two alerts, one may be listed before the other |
| AlertService.ListedBeforeTransitive | modulo-alertas/services/AlertaService.php:25 | the listing order is transitive |
| AlertService.InsertOrdered | modulo-alertas/services/AlertaService.php:25 | inserting into an ordered listing keeps it ordered and adds exactly that alert |
| AlertService.SortListing | modulo-alertas/services/AlertaService.php:25 | the result is ordered by level, then creation time, both descending, and is a permutation of the input |
| AlertService.ActiveOnly | modulo-alertas/services/AlertaService.php:24 | each 'activa' row is kept with its multiplicity; every other row is dropped |
| AlertService.ObtenerAlertasActivas | modulo-alertas/services/AlertaService.php:12-31 | exactly the 'activa' rows, with multiplicity, ordered by level desc then creation time desc |
| ReportService.JoinAlerta | modulo-alertas/services/ReporteService.php:26-28 | the left join gives at least one row per alert, and a row with null product columns when no product matches |
| ReportService.MatchRows | modulo-alertas/services/ReporteService.php:26-28 | a joined row exists for every matching product and only for matching products |
| ReportService.ObtenerAlertasResueltas | modulo-alertas/services/ReporteService.php:24-37 | the rows are exactly those of alerts that are 'resuelta' and created in [inicio, fin], both bounds inclusive |
| ReportService.CalcularEstadisticas | modulo-alertas/services/ReporteService.php:39-55 | saved products = number of rows; money = Σ price×stock; kg = 0.5×Σ stock, with missing values read as 0 |
| ReportService.SumsNonNegative | modulo-alertas/services/ReporteService.php:46-47 | with non-negative prices and stocks, both sums are non-negative |
| ReportService.GenerarRecomendaciones | modulo-alertas/services/ReporteService.php:57-69 | one 'exito' entry naming the count exactly when more than 10 products were saved, none otherwise |
| ReportService.GenerarReporte | modulo-alertas/services/ReporteService.php:11-22 | the report is the statistics of the period's rows and their recommendations, whatever the report type |
| ReportService.EmptyPeriod | modulo-alertas/services/ReporteService.php:39-68 | with no resolved alert in the period, the rows are empty and there is no recommendation |
| ReportService.ThresholdIsStrict | modulo-alertas/services/ReporteService.php:60 | 10 saved products earn no recommendation; 11 earn one |
| ReportService.MatchRowsAtMostOne | modulo-alertas/services/ReporteService.php:26-28 | with unique product ids, an alert joins at most one product |
| ReportService.CountInPeriod | modulo-alertas/services/ReporteService.php:29-31 | the number of resolved alerts in the period is at most the number of alerts |
| ReportService.SavedCountIsResolvedCount | modulo-alertas/services/ReporteService.php:44-45 | with unique product ids, the saved count equals the number of resolved alerts in the period |
| ProductPriority.DiasRestantes | src/services/IAProductoService.ts:14-16 | the count d brackets the millisecond span: d days ≤ span < d+1 days (floor); so ≤7 exactly when expiry is less than 8 days ahead, ≥0 exactly when it is not past |
| ProductPriority.FloorThresholds | src/services/IAProductoService.ts:14-18 | a day count rounded down passes the 7-day threshold exactly when the span is under 8 days |
| ProductPriority.FloorBelow | src/services/IAProductoService.ts:14-16 | a floored day count is below k exactly when the span is below k whole days |
| ProductPriority.CalcularPrioridad | src/services/IAProductoService.ts:27-32 | 5 exactly for ≤2 days, 4 exactly for 3..4, 3 exactly beyond, so always in {3,4,5} |
| ProductPriority.PrioridadNonIncreasing | src/services/IAProductoService.ts:27-32 | more days never raise the priority |
| ProductPriority.PrioridadIgnoresCategoria | src/services/IAProductoService.ts:27 | the category does not affect the priority |
| ProductPriority.Marcar | src/services/IAProductoService.ts:18-23 | a product less than 8 days from expiry is flagged and gets the priority of its floored days: 5 below 3 days, 4 from 3 to 5 days, 3 from 5 to 8 days; any other product is left untouched |
| ProductPriority.MarcarIdempotent | src/services/IAProductoService.ts:18-23 | marking twice at the same instant is marking once |
| ProductPriority.ExpiredGetsTopPriority | src/services/IAProductoService.ts:14-31 | an expired product is always flagged, with priority 5 |
| ProductPriority.ClasificarProductosProximosAVencer | src/services/IAProductoService.ts:5-25 | the first `hechos` products are marked, the rest keep their stored rows; the saved ids are those of the due products among them, in order; the run fails exactly when a save throws before all due products are saved, and then the saved ids are the first ones of a full run |
| ProductPriority.RecorrerProductos | src/services/IAProductoService.ts:13-24 | the loop marks the products in order and saves the due ones, stopping at the first save that throws; then that product is due and exactly `fallaEn` saves succeeded |
| ProductPriority.SavedIds | src/services/IAProductoService.ts:18-23 | an id is saved only for a product due soon, and no more ids than products |
| ProductPriority.SavedIdsComplete | src/services/IAProductoService.ts:18-23 | every product due soon has its id saved |
| ProductPriority.SavedIdsPrefix | src/services/IAProductoService.ts:13-24 | the ids saved from a prefix of the table are a prefix of those saved from the whole table |
| ProductPriority.SavedIdsDistinct | src/services/IAProductoService.ts:18-23 | with distinct product ids, no id is saved twice |
| ProductPriority.FailedSave | src/services/IAProductoService.ts:13-24 | when the save at a due product throws, the ids saved so far are a proper prefix of a full run's |
| ProductPriority.SavedIdsAppend | src/services/IAProductoService.ts:13-24 | one more product adds its id exactly when it is due |
| StockMovements.NuevoStock | src/controllers/MovimientoStockController.ts:134-136 | 'entrada' adds the quantity; every other type subtracts it |
| StockMovements.Failed | src/controllers/MovimientoStockController.ts:145-150 | the 500 body carries the error's message for an `Error` instance, and 'An unknown error occurred' otherwise |
| StockMovements.Create | src/controllers/MovimientoStockController.ts:89-152 | never 404: a missing product is the lookup's `.single()` error, answered 500; 400 iff the product exists and the outbound guard fails; neither changes anything; 201 iff nothing fails, recording the movement and applying the new stock |
| StockMovements.MissingProductIs500 | src/services/MovimientoStockService.ts:70-79 | a movement for a missing product is answered 500 with the lookup error, never 404, and changes nothing |
| StockMovements.StockCanGoNegative | src/controllers/MovimientoStockController.ts:108-136 | the guard reads `cantidad` and the update reads `cantidad_stock`, so an outbound movement can drive stock to -2 |
| StockMovements.UpdateFailureLeavesMovement | src/controllers/MovimientoStockController.ts:124-142 | a failing stock update answers 500 but leaves the movement recorded and the stock as it was |
| StockMovements.EntradaThenSalidaRestores | src/controllers/MovimientoStockController.ts:134-136 | an inbound movement followed by an outbound one of the same quantity restores the stock |
| StockMovements.GetById | src/controllers/MovimientoStockController.ts:62-77 | 200 exactly when the query succeeds and a movement has the id, returning such a movement; an absent id is the `.single()` error and is answered 500, never 404 |
| StockMovements.MissingMovimientoIs500 | src/services/MovimientoStockService.ts:17-26 | fetching an id no movement has gives 500 with the lookup error |
| StockMovements.FindMovimiento | src/controllers/MovimientoStockController.ts:68-72 | the lookup finds nothing exactly when no movement has the id |
| StockMovements.CreatedIsFound | src/controllers/MovimientoStockController.ts:62-144 | a movement created with a fresh id is found again by `getById` |
| StockMovements.FindAfterFresh | src/controllers/MovimientoStockController.ts:68-72 | after appending a movement with an id above all others, looking that id up finds it |
| ProductController.MapProducto | src/controllers/ProductoController.ts:59-78 | the record holds exactly the ten listed fields the body defines, each with the body's value |
| ProductController.ExtraKeysDropped | src/controllers/ProductoController.ts:59-70 | a key outside the ten never changes the record |
| ProductController.MapProductoIdempotent | src/controllers/ProductoController.ts:72-78 | mapping an already mapped record changes nothing |
| ProductController.ClassifyDbFailure | src/controllers/ProductoController.ts:83-88 | an Error mentioning a unique-key violation becomes 400 'El código de barras ya está en uso'; anything else is rethrown |
| ProductController.OuterCatch | src/controllers/ProductoController.ts:89-95 | an ApiError propagates unchanged; anything else becomes 500 'Error al crear producto' |
| ProductController.Create | src/controllers/ProductoController.ts:49-96 | validation errors give 400; the mapped record is sent iff initialized, valid and a service exists; 201 iff the insert succeeds |
| ProductController.GetById | src/controllers/ProductoController.ts:125-138 | it answers exactly when the row is found; otherwise 500 'Error al obtener producto' |
| ProductController.MissingProductIs500 | src/controllers/ProductoController.ts:130-137 | a missing product surfaces as 500, never as 404 |
| ProductController.DuplicateBarcodeIs400 | src/controllers/ProductoController.ts:84-86 | a unique-key violation gives 400 after the mapped record was sent |
| Storage.StripEstado | src/services/AlmacenamientoService.ts:57-60 | the copy has every key of the input except 'estado', each with its value |
| Storage.StripIdempotent | src/services/AlmacenamientoService.ts:58-60 | stripping twice is stripping once |
| Storage.StripWithoutEstado | src/services/AlmacenamientoService.ts:58-60 | an input without 'estado' passes through unchanged |
| Storage.WrapCreate | src/services/AlmacenamientoService.ts:70 | the wrapped message contains the database message and its details |
| Storage.ServiceCreate | src/services/AlmacenamientoService.ts:54-77 | the stripped copy is sent; a failure is an Error whose message contains the database message |
| Storage.ServiceUpdate | src/services/AlmacenamientoService.ts:79-103 | the stripped copy is sent; a failure is rethrown as it came |
| Storage.CreateCatch | src/controllers/AlmacenamientoController.ts:107-118 | 400 exactly for an Error mentioning a unique-key or a check-constraint violation; otherwise 500 |
| Storage.UpdateCatch | src/controllers/AlmacenamientoController.ts:146-152 | 400 exactly for an Error mentioning a unique-key violation; otherwise 500 |
| Storage.NoViolationWithoutK | src/controllers/AlmacenamientoController.ts:110-115 | a message without a 'k' matches neither constraint message |
| Storage.FaltanMatchesNothing | src/controllers/AlmacenamientoController.ts:90-117 | the missing-fields message matches neither constraint message, so it surfaces as 500 |
| Storage.CapacidadInvalidaMatchesNothing | src/controllers/AlmacenamientoController.ts:95-117 | the bad-capacity message matches neither constraint message, so it surfaces as 500 |
| Storage.Create | src/controllers/AlmacenamientoController.ts:85-119 | something is sent iff initialized with three truthy fields and a positive numeric capacity; only those three fields are sent; an invalid body gives 500; 201 iff the insert succeeds; a failing insert is answered through `CreateCatch` of the wrapped message: 400 for a duplicate name or a check-constraint violation, 500 otherwise |
| Storage.ZeroCapacityIs500 | src/controllers/AlmacenamientoController.ts:89-92 | capacity 0 is falsy, fails the presence check and is reported as 500 |
| Storage.EstadoNeverSent | src/controllers/AlmacenamientoController.ts:99-105 | an 'estado' in the body never reaches the database |
| Storage.PartialRecord | src/controllers/AlmacenamientoController.ts:130-141 | the update record holds exactly those of the three fields the body defines, with their values |
| Storage.Update | src/controllers/AlmacenamientoController.ts:121-153 | a missing row gives 500, never 404; something is sent iff the row exists; 200 iff the update succeeds; only duplicates give 400 |
| Storage.EmptyUpdateSendsNothing | src/controllers/AlmacenamientoController.ts:131-141 | an empty body sends an empty record |
| BaseController.IsInitialized | src/controllers/BaseController.ts:59-61 | true exactly when the flag is set and a service is present |
| BaseController.HasService | src/controllers/BaseController.ts:66-68 | true exactly when a service is present |
| BaseController.SetService | src/controllers/BaseController.ts:28-34 | it throws and changes nothing iff a service is already assigned; otherwise it assigns the service and sets the flag |
| BaseController.Initialize | src/controllers/BaseController.ts:38-54 | a no-op once initialized; any failure becomes 500 'Error al inicializar …'; success sets the flag; consistency is preserved |
| BaseController.InitializedHasService | src/controllers/BaseController.ts:59-68 | `isInitialized` implies `hasService` |
| BaseController.SetServiceTwice | src/controllers/BaseController.ts:28-34 | a second `setService` throws and keeps the first service |
| BaseController.FailedStartStaysInitialized | src/controllers/BaseController.ts:38-54 | a start-up that fails after the subclass assigned the service leaves the flag up, so a second `initialize` is a no-op |
| BaseController.SkipAlwaysFails | src/controllers/BaseController.ts:41-53 | a subclass step that assigns no service always ends in 500 and leaves the controller fresh |
| BaseController.Reported | src/controllers/BaseController.ts:92-98 | an Error reports its message; anything else reports 'An unknown error occurred' |
| BaseController.GetAll | src/controllers/BaseController.ts:85-99 | without a service it throws 500 'Servicio no inicializado'; otherwise 200 with the items iff the query succeeds, else 500 |
| BaseController.GetById | src/controllers/BaseController.ts:101-119 | without a service it throws 500; a missing row is caught and answered 500 'Recurso no encontrado' |
| BaseController.Create | src/controllers/BaseController.ts:121-135 | without a service it throws 500; otherwise 201 with the row iff the insert succeeds, else 500 |
| BaseController.HandlersGuardOnInit | src/controllers/BaseController.ts:101-119 | in every reachable state `getById` answers exactly when the controller is initialized |
| Validators.Check | src/middleware/validators.ts:10 | a check yields nothing when it passes and exactly its message otherwise |
| Validators.NombreErrors | src/middleware/validators.ts:8-11 | no error exactly when the trimmed name has 2..100 characters; 'requerido' exactly when it is empty |
| Validators.OptionalText | src/middleware/validators.ts:16-19 | no error exactly when the field is absent, or a string within the limit |
| Validators.DescripcionErrors | src/middleware/validators.ts:16-19 | no error exactly when descripcion is absent or a string of ≤500 characters |
| Validators.PrecioErrors | src/middleware/validators.ts:24-26 | no error exactly when precio is a float text not below zero |
| Validators.StockErrors | src/middleware/validators.ts:31-33 | no error exactly when stock is an integer text not below zero |
| Validators.CategoriaErrors | src/middleware/validators.ts:38-41 | no error exactly when categoria is a string of 2..50 characters |
| Validators.ProveedorIdErrors | src/middleware/validators.ts:46-48 | no error exactly when proveedorId is an integer text |
| Validators.ValidarErrores | src/middleware/validators.ts:53-62 | it answers 400 with `ok: false` and the recorded errors' paths and messages, in order, exactly when an error was recorded; otherwise it passes on |
| Validators.ProductoValidator | src/middleware/validators.ts:67-75 | the request passes exactly when all six field constraints hold; otherwise 400 |
| Validators.ProveedorValidator | src/middleware/validators.ts:80-98 | the request passes exactly when the name, phone, e-mail and address constraints hold; otherwise 400 |
| Validators.IntTextIsFloatText | src/middleware/validators.ts:24-33 | every valid stock text is also a valid price text |
| Validators.ShowNatPassesNumberChecks | src/middleware/validators.ts:24-33 | a rendered natural number passes both number checks |
| Validators.MinusZeroIsStock | src/middleware/validators.ts:31-33 | '-0' is a valid stock |
| Validators.ExponentIsPriceNotStock | src/middleware/validators.ts:24-33 | a digit, an exponent mark and a digit ('1e3') is a valid price but not a valid stock |
| Validators.MinusOneRejected | src/middleware/validators.ts:24-33 | '-1' is neither a valid stock nor a valid price |
| Validators.PaddedShortNameRejected | src/middleware/validators.ts:8-11 | blanks around a one-letter name do not count: only the length error is reported |
| Validators.MissingNameTwoErrors | src/middleware/validators.ts:8-11 | a missing name reports both of its messages, in chain order |
| RecipeText.Entry | modulo-recetas/services/openai_service.py:20 | a product entry starts with the product's name |
| RecipeText.Entries | modulo-recetas/services/openai_service.py:18-20 | one entry per product, in order |
| RecipeText.ProductosTexto | modulo-recetas/services/openai_service.py:18-22 | the joined list contains every product's entry and is empty for no products |
| RecipeText.PromptLines | modulo-recetas/services/openai_service.py:25-52 | the template lines carry the product list, the meal type and the servings at fixed positions |
| RecipeText.Prompt | modulo-recetas/services/openai_service.py:25-52 | the prompt contains the product list, the meal-type line and the servings line |
| RecipeText.SkipSpaces | modulo-recetas/services/openai_service.py:75 | it stops at the first non-space at or after the start |
| RecipeText.LineEnd | modulo-recetas/services/openai_service.py:75 | it stops at the first line break at or after the start |
| RecipeText.DigitsEnd | modulo-recetas/services/openai_service.py:85 | it stops at the first non-digit at or after the start |
| RecipeText.MarkerLine | modulo-recetas/services/openai_service.py:75-82 | a value is found exactly when the marker occurs; it is on one line and has no surrounding whitespace |
| RecipeText.LineValue | modulo-recetas/services/openai_service.py:77 | the value is on one line and has no surrounding whitespace |
| RecipeText.TiempoFrom | modulo-recetas/services/openai_service.py:85-87 | a time is found only when 'TIEMPO:' occurs |
| RecipeText.ParseRespuesta | modulo-recetas/services/openai_service.py:70-95 | the raw text and the prompt are kept; a missing marker keeps its default; a found name or description is on one line |
| RecipeText.GenerarRecetaConIa | modulo-recetas/services/openai_service.py:13-98 | a model failure becomes an error prefixed 'Error al generar receta con OpenAI: '; otherwise the full text is the answer |
| RecipeText.GeneratedPromptListsProducts | modulo-recetas/services/openai_service.py:18-52 | the prompt of a generated recipe lists every product and names the meal type and servings |
| RecipeText.MarkerLineRoundTrip | modulo-recetas/services/openai_service.py:75-77 | a marker, any whitespace and a one-line value read back as that value |
| RecipeText.EmptyValueTakesNextLine | modulo-recetas/services/openai_service.py:75-77 | with nothing after the marker, `\s*` crosses the line break and the next line's value is taken |
| RecipeText.NombreDescripcionRoundTrip | modulo-recetas/services/openai_service.py:74-82 | an answer that opens with the NOMBRE and DESCRIPCIÓN lines reads back both values |
| RecipeText.TiempoRoundTrip | modulo-recetas/services/openai_service.py:85-87 | 'TIEMPO:', any whitespace and a rendered number read back as that number |
| RecipeText.DigitsRead | modulo-recetas/services/openai_service.py:87 | the digits of a rendered number, followed by no digit, read back as the number |
| RecipeRoutes.PyInt | modulo-recetas/main.py:90 | text without a digit is rejected; a run of digits reads as its value |
| RecipeRoutes.SignedDigits | modulo-recetas/main.py:90 | digits, optionally with '+' or '-' in front, read as the signed value |
| RecipeRoutes.PyIntOfShowInt | modulo-recetas/main.py:90 | a rendered integer reads back as itself |
| RecipeRoutes.NonEmpty | modulo-recetas/main.py:90 | exactly the non-empty pieces are kept, in order |
| RecipeRoutes.ParseAll | modulo-recetas/main.py:90 | it succeeds exactly when every piece reads as an integer, giving those integers in order |
| RecipeRoutes.ParseIds | modulo-recetas/main.py:90 | a parsed list is no longer than the text |
| RecipeRoutes.PiecesBound | modulo-recetas/main.py:90 | there are no more non-empty pieces than characters |
| RecipeRoutes.ParseIdsRoundTrip | modulo-recetas/main.py:90 | any id list rendered with commas parses back to itself |
| RecipeRoutes.ParseIdsDropsEmpty | modulo-recetas/main.py:90 | "1,,2" parses to [1, 2] |
| RecipeRoutes.ParseIdsEmpty | modulo-recetas/main.py:90-93 | an empty field parses to the empty list |
| RecipeRoutes.ParseIdsRejectsWord | modulo-recetas/main.py:90 | a piece that is not a number makes the parse fail |
| RecipeRoutes.Matching | modulo-recetas/main.py:96-97 | exactly the products whose id is requested, and never more rows than the table (the order is not promised by the query) |
| RecipeRoutes.TipoNombre | modulo-recetas/main.py:103-107 | the looked-up name when a truthy id is given and found; otherwise 'cualquiera' |
| RecipeRoutes.JsonIntList | modulo-recetas/main.py:138 | a bracketed list that contains every id |
| RecipeRoutes.Relaciones | modulo-recetas/main.py:129-134 | one relation per requested id, in order, with quantity 1 |
| RecipeRoutes.RecetaDe | modulo-recetas/main.py:114-123 | the row carries the parsed name, description and time, the full text as instructions, the prompt, and the AI flag |
| RecipeRoutes.Store | modulo-recetas/main.py:114-134 | the recipe is appended with the next id; one relation per requested id is appended; nothing else changes |
| RecipeRoutes.ProcesarGenerarReceta | modulo-recetas/main.py:79-148 | an unparsable field raises; an empty list gives 400; 404 iff no product matches; 500 iff the model fails, with the prefixed detail; the redirect names the new id and records the recommendation |
| RecipeRoutes.ApiGenerarReceta | modulo-recetas/main.py:158-212 | 404 iff no product matches; when some product matches, success iff the model answers and, when it fails, exactly the 500 body 'Error generando receta: ' followed by the prefixed model error; success stores the recipe with no meal type and returns it with the raw text and the matched products |
| RecipeRoutes.RedirectIff | modulo-recetas/main.py:92-145 | the form route redirects exactly when the ids parse to a non-empty list, some product matches and the model answers |
| RecipeRoutes.UnmatchedIdsStillRelated | modulo-recetas/main.py:129-134 | every requested id gets its relation row, even one that matches no product |
| RecipeRoutes.FormAgreesWithApi | modulo-recetas/main.py:79-212 | without meal type and servings, both routes store the same recipe and relations and succeed together |
| Text.Trim | src/middleware/validators.ts:9 | the result has no blank at either end and occurs in the input |
| Text.TrimIdempotent | src/middleware/validators.ts:9 | trimming twice is trimming once |
| Text.TrimPadded | src/middleware/validators.ts:9 | trimming whitespace-padded text gives the text back |
| Text.Split | modulo-recetas/main.py:90 | the pieces contain no separator and join back to the input |
| Text.SplitJoin | modulo-recetas/main.py:90 | splitting a joined list of separator-free parts gives the parts back |
| Text.JoinContainsPart | modulo-recetas/services/openai_service.py:22 | every part occurs in the joined text |
| Text.ShowNat | modulo-alertas/services/AlertaService.php:146 | a rendered number is a non-empty digit run that starts with '0' only for zero |
| Text.DigitsValueOfShowNat | modulo-recetas/services/openai_service.py:87 | reading a rendered number gives the number |
| Text.ShowNatInjective | modulo-alertas/services/AlertaService.php:146 | different numbers render differently |
| Text.Find | modulo-recetas/services/openai_service.py:75 | a position is found exactly when the text occurs, and it is the first occurrence |
| Text.ContainsTransitive | src/services/AlmacenamientoService.ts:70 | text containing a message that contains a fragment contains the fragment |
| Dates.DayOf | modulo-alertas/services/AlertaService.php:37 | an instant lies within the day it falls in |
| Dates.WholeDaysTowardZero | modulo-alertas/services/AlertaService.php:155-156 | the whole-day count is the span divided by the day length, truncated toward zero on both signs |
| Dates.WholeDaysFloor | src/services/IAProductoService.ts:14-16 | the whole-day count is the span divided by the day length, rounded down |
| Dates.TruncationVersusFloor | modulo-alertas/services/AlertaService.php:155-156 | the two roundings agree except on negative spans that are not whole days, where floor is one less |
| Values.Traverse | modulo-recetas/main.py:90 | it succeeds exactly when every element converts, giving the converted elements in order |
| Values.DefinedKeys | src/controllers/ProductoController.ts:73-78 | exactly the keys whose value is not undefined |

## Left out

- Database, network and language-model calls. They are replaced by in-memory tables and by parameters that carry the answers of the calls that are modelled:
  - `DbResult` and `Lookup` for database answers;
  - `Fault` for the failing step of a stock movement;
  - `falla` for the query that throws during alert generation, and `fallaEn` for the save that throws while marking products;
  - `AiAnswer` for the model's text or error.
- The clock. It is a parameter: an instant in seconds for the PHP module and in milliseconds for the TypeScript service. Day boundaries fall on multiples of 86 400 seconds. Time zones and daylight saving are not modelled.
- Floating point. Prices, stock, money and the 0.5 kg factor are exact `real`s, with no IEEE rounding. NaN is not modelled.
- Concurrency. Each operation is one sequential transition. Two interleavings are not modelled:
  - the check-then-insert race of alert generation;
  - the read-then-write stock update.
- Logging (`console.log`, `console.error`) and response headers.
- The e-mail check (`isEmail`, `normalizeEmail`) is library behaviour. Its verdict is the `emailOk` parameter of `Validators.ProveedorValidator`.
- Character classes are ASCII only, for two reasons:
  - Python's `int()` and `\d` also accept other Unicode digits and underscores between digits;
  - `\s`, `strip()` and `trim()` also remove Unicode whitespace.
- Text.IsSpace: it is space, tab, line feed, carriage return, vertical tab and form feed, which is the ASCII part of JavaScript's `trim()`. Python's `\s`, `str.strip()` and `int()` also treat the ASCII separators `\x1c`–`\x1f` as whitespace. So `RecipeText.SkipSpaces`, `RecipeText.LineValue`, `RecipeText.MarkerLine` and `RecipeRoutes.PyInt` differ from Python on text holding those four characters: Python reads `int("\x1c5")` as 5, the model rejects it.
- `src/middleware/errorHandler.ts`. It writes a response without returning, so its behaviour depends on Express internals. A thrown error is modelled as `Throw` with its status.
- Handlers that only pass a call through to the database are not modelled:
  - `update`, `getAll`, `delete`, `getPorVencer`, `getByProveedor` and `getByCategoria` of `ProductoController`;
  - `getAll`, `getById` and `delete` of `AlmacenamientoController`;
  - `getByProducto` of `MovimientoStockController`;
  - `update` and `delete` of `BaseController`.
- Database failures in the recipe routes (the insert or the final select raising). Only the model-call failure is modelled as the 500 path.
- AlertService.GenerarAlertasInteligentes: the connection is in exception mode (modulo-alertas/config/database.php:18) and `index.php` catches nothing, so a failing query ends the run with an uncaught exception. That path is `AlertService.GenerarAlertasConFallo`. The error page PHP then writes is not modelled, nor the sequence value a failed INSERT may use up. The same uncaught failure of the listing query (`AlertService.ObtenerAlertasActivas`) and of the report queries (`ReportService.ObtenerAlertasResueltas`, `ReportService.GenerarReporte`) is not modelled: those members assume the queries answer.
- StockMovements.Create: assumes `cantidad` arrives as a number. The movement route has no validator and the app also parses urlencoded bodies, whose values are strings; with a string `cantidad`, 'entrada' computes `cantidad_stock + cantidad` as string concatenation (10 and "5" give "105"), while 'salida' still subtracts numerically. `StockMovements.NuevoStock` and `StockMovements.EntradaThenSalidaRestores` hold for numeric bodies only.
- Validators.ValidarErrores: each error entry keeps only `path` and `msg`. The `type`, `value` (the sanitized value, such as the trimmed name) and `location` fields that `errors.array()` also puts in the 400 body are not modelled.
- RecipeRoutes.Matching: returns the matching rows in table order. The query has no `.order(...)`, so the database decides the order; the product list of the prompt (`RecipeText.ProductosTexto`) and the `productos_utilizados` answer follow that order, which the model fixes as table order.
- RecipeRoutes.ParseIds: its contract only bounds the length of the list. The values are stated by `RecipeRoutes.ParseIdsRoundTrip`, `RecipeRoutes.ParseAll` and the three examples.
- RecipeRoutes.ProcesarGenerarReceta: an unparsable id field raises `ValueError` before any guard. The model answers it as `Unhandled` and leaves the framework's error page out.
- ProductPriority.ClasificarProductosProximosAVencer: assumes `fecha_caducidad` arrives as a `Date`, as the entity declares (src/entities/Producto.ts:18-19), and models it as its millisecond instant. TypeORM reads a `date` column as a 'YYYY-MM-DD' string by default, and then `fecha_caducidad.getTime()` throws a TypeError on the first product, so nothing is marked or saved. That path is not modelled.
- ProductPriority.RecorrerProductos: rests on the same `Date` assumption for `fecha_caducidad.getTime()`; on a string column the first iteration throws before any save.
- RecipeRoutes.ApiGenerarReceta: a JSON `null` for a key is modelled like a missing key, although `body.get` returns `None` for it and not the default.
- AlertService.Inserted: the INSERT writes only six columns and leaves `estado` and `fecha_creacion` to column defaults that are not part of this model. The model assumes those defaults are `'activa'` and the insert instant, which are the values of the PHP object. `AlertService.CandidatesCovered`, `AlertService.SecondRunCreatesNothing`, `AlertService.GenerationKeepsUniqueActive` and the listing order rest on this assumption.
- StockMovements.GetById: assumes movement ids are unique (the primary key). With two rows for one id, `.single()` would fail, whereas the model returns the first.
- StockMovements.Create: the `details` field (the error's stack) of the 500 body is not modelled.
- AlertService.ObtenerAlertasActivas: the joined product and priority columns are not modelled. The order among alerts with equal level and creation time is left to the database, so the contract states only the order and the permutation.
- ReportService.ObtenerAlertasResueltas: does not fix the row order, which the query leaves to the database.
- RecipeText.ParseRespuesta: its contract states the defaults and the one-line shape. The exact values are stated by `RecipeText.NombreDescripcionRoundTrip`, `RecipeText.MarkerLineRoundTrip` and `RecipeText.TiempoRoundTrip` for answers of the documented format, not for arbitrary text.
- RecipeText.TiempoFrom: its contract states only that the marker occurs. The value read is stated by `RecipeText.TiempoRoundTrip`.
- RecipeRoutes.JsonIntList: states containment of every id and the brackets, not the exact `json.dumps` spacing.
- The generated `fecha_creacion` and `created_at` strings (`date('Y-m-d H:i:s')`) are modelled as the clock instant, not as formatted text.

=== FILE: alert_service.dfy ===
/** The alert service of the alerts module: expiry-alert generation over the
    products, the status update and the listing of active alerts. The
    database is an in-memory value and the clock a parameter (`now`, an
    instant in seconds); each operation returns the new database state. */
module AlertService {
  import opened Values
  import opened Text
  import opened Dates
  import opened Scorer
  import opened AlertaModel

  /** A row of `productos` as the alerts module reads it. */
  datatype Producto = Producto(
    id: int,
    nombre: string,
    fechaCaducidad: Day,
    cantidadStock: real,
    precioUnitario: Option<real>,
    estado: string)

  /** The two tables the service touches. `nextId` is the id the database
      gives the next inserted alert. */
  datatype Db = Db(productos: seq<Producto>, alertas: seq<Alerta>, nextId: int)

  /** The outcome of one generation run: the new state and the returned batch. */
  datatype Run = Run(db: Db, batch: seq<Alerta>)

  const TipoVencimiento := "vencimiento"
  const HorizonDays := 14

  // ------------------------------------------------------------ candidates

  /** The product query: expiry within [today, today + 14] and state
      `activo` or `proximo_vencer`. */
  predicate IsCandidate(p: Producto, today: Day) {
    && today <= p.fechaCaducidad <= today + HorizonDays
    && (p.estado == "activo" || p.estado == "proximo_vencer")
  }

  function Candidates(ps: seq<Producto>, today: Day): (r: seq<Producto>)
    ensures forall p :: p in r <==> p in ps && IsCandidate(p, today)
    ensures |r| <= |ps|
  {
    if |ps| == 0 then []
    else (if IsCandidate(ps[0], today) then [ps[0]] else []) + Candidates(ps[1..], today)
  }

  // ------------------------------------------------------------ days left

  /** `calcularDiasRestantes`: signed whole days from now to the midnight
      that starts the expiry date, truncated toward zero. */
  function CalcularDiasRestantes(fechaCaducidad: Day, now: int): (d: int)
    ensures d >= 1 <==> StartOfDay(fechaCaducidad) - now >= SecondsPerDay
    ensures d <= -1 <==> now - StartOfDay(fechaCaducidad) >= SecondsPerDay
    ensures d == WholeDaysTowardZero(StartOfDay(fechaCaducidad) - now, SecondsPerDay)
  {
    WholeDaysTowardZero(StartOfDay(fechaCaducidad) - now, SecondsPerDay)
  }

  /** For a candidate product the count lies in 0..14: it is the number of
      calendar days to expiry, or one less once the current day has begun. */
  lemma CandidateDaysInHorizon(p: Producto, now: int)
    requires IsCandidate(p, DayOf(now))
    ensures var d := CalcularDiasRestantes(p.fechaCaducidad, now);
      && 0 <= d <= HorizonDays
      && (now == StartOfDay(DayOf(now)) || p.fechaCaducidad == DayOf(now) ==> d == p.fechaCaducidad - DayOf(now))
      && (now != StartOfDay(DayOf(now)) && p.fechaCaducidad > DayOf(now) ==> d == p.fechaCaducidad - DayOf(now) - 1)
  {
    var today := DayOf(now);
    var k := p.fechaCaducidad - today;
    var diff := StartOfDay(p.fechaCaducidad) - now;
    var off := now - StartOfDay(today);
    assert StartOfDay(p.fechaCaducidad) == StartOfDay(today) + k * SecondsPerDay;
    assert diff == k * SecondsPerDay - off;
    assert 0 <= off < SecondsPerDay;
    if off == 0 {
      DivUnique(diff, SecondsPerDay, k);
    } else if k > 0 {
      DivUnique(diff, SecondsPerDay, k - 1);
    } else {
      assert -SecondsPerDay < diff <= 0;
    }
  }

  // ------------------------------------------------------------ message

  const Urgente := "¡URGENTE! "
  const Critico := "¡CRÍTICO! "
  const Monitorear := " - Monitorear"

  /** `generarMensajeAlerta`: four buckets by days left. */
  function GenerarMensajeAlerta(nombre: string, dias: int): (m: string)
    ensures StartsWith(m, "¡URGENTE!") <==> dias <= 0
    ensures StartsWith(m, "¡CRÍTICO!") <==> dias == 1
    ensures EndsWith(m, Monitorear) <==> dias > 3
    ensures OccursAt(m, "El producto '" + nombre + "'", if dias <= 1 then |Urgente| else 0)
    ensures dias >= 2 ==> Contains(m, "' vence en " + ShowNat(dias) + " días")
  {
    var quoted := "El producto '" + nombre + "'";
    if dias <= 0 then
      var m := Urgente + quoted + " ya ha vencido";
      assert m[..|quoted| + 10][10..] == quoted;
      assert m[|m| - 1] == 'o';
      m
    else if dias <= 1 then
      var m := Critico + quoted + " vence mañana";
      assert m[..|quoted| + 10][10..] == quoted;
      assert m[1] == 'C' && m[|m| - 1] == 'a';
      m
    else
      var when := "' vence en " + ShowNat(dias) + " días";
      var m := "El producto '" + nombre + when;
      assert m[0] == 'E';
      assert OccursAt(m, when, |nombre| + 13);
      assert m[..|quoted|] == quoted;
      if dias <= 3 then
        assert m[|m| - 1] == when[|when| - 1] == 's';
        m
      else
        var m' := m + Monitorear;
        assert m'[..|m|] == m;
        assert m'[0] == 'E';
        assert OccursAt(m', when, |nombre| + 13);
        m'
  }

  // ------------------------------------------------------------ duplicate guard

  predicate IsActiveOf(a: Alerta, productoId: int, tipo: string) {
    a.productoId == Some(productoId) && a.tipoAlerta == tipo && a.estado == EstadoActiva
  }

  /** `SELECT COUNT(*) ... WHERE producto_id = ? AND tipo_alerta = ? AND estado = 'activa'`. */
  function CountActive(alertas: seq<Alerta>, productoId: int, tipo: string): (n: nat)
    ensures n > 0 <==> exists a :: a in alertas && IsActiveOf(a, productoId, tipo)
    ensures n <= |alertas|
  {
    if |alertas| == 0 then 0
    else (if IsActiveOf(alertas[0], productoId, tipo) then 1 else 0) + CountActive(alertas[1..], productoId, tipo)
  }

  /** `existeAlertaActiva`. */
  predicate ExisteAlertaActiva(alertas: seq<Alerta>, productoId: int, tipo: string) {
    CountActive(alertas, productoId, tipo) > 0
  }

  /** At most one active alert per (product, alert type): the invariant the
      duplicate guard is there to keep. */
  ghost predicate UniqueActive(alertas: seq<Alerta>) {
    forall i, j ::
      0 <= i < |alertas| && 0 <= j < |alertas|
      && alertas[i].estado == EstadoActiva && alertas[j].estado == EstadoActiva
      && alertas[i].productoId == alertas[j].productoId
      && alertas[i].tipoAlerta == alertas[j].tipoAlerta
      ==> i == j
  }

  // ------------------------------------------------------------ generation

  /** The alert object built for a product before it is inserted. */
  function NuevaAlerta(p: Producto, now: int): (a: Alerta)
    ensures a.id.None? && a.productoId == Some(p.id)
    ensures a.tipoAlerta == TipoVencimiento && a.estado == EstadoActiva && a.fechaCreacion == now
    ensures a.fechaVencimiento == Some(p.fechaCaducidad)
    ensures var c := ClasificarPrioridadAlerta(CalcularDiasRestantes(p.fechaCaducidad, now), p.cantidadStock, p.precioUnitario.GetOr(0.0));
      && a.nivelPrioridadId == Some(c.prioridad)
      && a.clasificacionIa == c.clasificacion + " - " + c.recomendacion
    ensures a.mensaje == GenerarMensajeAlerta(p.nombre, CalcularDiasRestantes(p.fechaCaducidad, now))
  {
    var dias := CalcularDiasRestantes(p.fechaCaducidad, now);
    var c := ClasificarPrioridadAlerta(dias, p.cantidadStock, p.precioUnitario.GetOr(0.0));
    New(AlertaData(
      None,
      Some(p.id),
      Some(TipoVencimiento),
      Some(GenerarMensajeAlerta(p.nombre, dias)),
      Some(c.prioridad),
      None,
      Some(p.fechaCaducidad),
      None,
      Some(c.clasificacion + " - " + c.recomendacion)), now)
  }

  /** The rows the loop of `generarAlertasInteligentes` inserts, in order,
      each with the id the database hands out. Each candidate is skipped when
      the table, as it stands at that point, holds an active `vencimiento`
      alert for it. */
  function Inserted(cands: seq<Producto>, alertas: seq<Alerta>, nextId: int, now: int): (rows: seq<Alerta>)
    ensures |rows| <= |cands|
    ensures forall k :: 0 <= k < |rows| ==> rows[k].id == Some(nextId + k)
    decreases |cands|
  {
    if |cands| == 0 then []
    else if ExisteAlertaActiva(alertas, cands[0].id, TipoVencimiento) then
      Inserted(cands[1..], alertas, nextId, now)
    else
      var row := NuevaAlerta(cands[0], now).(id := Some(nextId));
      [row] + Inserted(cands[1..], alertas + [row], nextId + 1, now)
  }

  /** The inserted rows whose returned id is truthy (non-zero), in order. */
  function WithTruthyId(rows: seq<Alerta>): (r: seq<Alerta>)
    ensures |r| <= |rows|
    ensures forall a :: a in r <==> a in rows && a.id.Some? && a.id.value != 0
  {
    if |rows| == 0 then []
    else (if rows[0].id.Some? && rows[0].id.value != 0 then [rows[0]] else []) + WithTruthyId(rows[1..])
  }

  /** `generarAlertasInteligentes`: the new state and the batch of created
      alerts it returns (each as `toArray` lists it). */
  function GenerarAlertasInteligentes(db: Db, now: int): (r: Run)
    ensures r.db.productos == db.productos
    ensures |db.alertas| <= |r.db.alertas| <= |db.alertas| + |Candidates(db.productos, DayOf(now))|
    ensures r.db.alertas[..|db.alertas|] == db.alertas
    ensures |r.batch| <= |r.db.alertas| - |db.alertas|
    ensures forall a :: a in r.batch ==> a in r.db.alertas[|db.alertas|..] && a.id.Some? && a.id.value != 0
  {
    var rows := Inserted(Candidates(db.productos, DayOf(now)), db.alertas, db.nextId, now);
    var after := db.alertas + rows;
    assert after[..|db.alertas|] == db.alertas;
    assert after[|db.alertas|..] == rows;
    Run(db.(alertas := after, nextId := db.nextId + |rows|), WithTruthyId(rows))
  }

  /** How a generation run ends when a database call may throw: the batch is
      returned, or an exception escapes with the table as it stands. */
  datatype Outcome = Returned(run: Run) | Threw(db: Db)

  /** `generarAlertasInteligentes` with the connection in exception mode:
      `falla` is `Some(k)` when a query (the product SELECT, a COUNT or an
      INSERT) throws once `k` INSERTs have completed, `None` when none does.
      Nothing catches the exception, so the rows already inserted stay and
      no batch is returned. */
  function GenerarAlertasConFallo(db: Db, now: int, falla: Option<nat>): (o: Outcome)
    ensures o.Returned? <==> falla.None?
    ensures o.Returned? ==> o.run == GenerarAlertasInteligentes(db, now)
    ensures o.Threw? ==> o.db.productos == db.productos
    ensures o.Threw? ==> db.alertas <= o.db.alertas <= GenerarAlertasInteligentes(db, now).db.alertas
    ensures o.Threw? ==> |o.db.alertas| <= |db.alertas| + falla.value
    ensures o.Threw? && |o.db.alertas| < |GenerarAlertasInteligentes(db, now).db.alertas|
      ==> |o.db.alertas| == |db.alertas| + falla.value
    ensures falla == Some(0) ==> o.db == db
  {
    var full := GenerarAlertasInteligentes(db, now);
    if falla.None? then Returned(full)
    else
      var rows := full.db.alertas[|db.alertas|..];
      assert full.db.alertas == db.alertas + rows;
      var k := if falla.value < |rows| then falla.value else |rows|;
      assert db.alertas + rows[..k] == full.db.alertas[..|db.alertas| + k];
      Threw(db.(alertas := db.alertas + rows[..k], nextId := db.nextId + k))
  }

  lemma ExisteMonotone(s: seq<Alerta>, t: seq<Alerta>, pid: int, tipo: string)
    requires ExisteAlertaActiva(s, pid, tipo)
    ensures ExisteAlertaActiva(s + t, pid, tipo)
  {
    var a :| a in s && IsActiveOf(a, pid, tipo);
    assert a in s + t;
  }

  /** A row the run inserted: a candidate's alert, for a product that had no
      active `vencimiento` alert when the run started. */
  ghost predicate CreatedFor(row: Alerta, cands: seq<Producto>, before: seq<Alerta>, now: int) {
    exists p :: p in cands && row == NuevaAlerta(p, now).(id := row.id)
      && !ExisteAlertaActiva(before, p.id, TipoVencimiento)
  }

  /** A row created for the later candidates, against a table that has
      grown since, was created for the whole list against the original table. */
  lemma CreatedForExtend(row: Alerta, cands: seq<Producto>, before: seq<Alerta>, extra: seq<Alerta>, now: int)
    requires |cands| > 0 && CreatedFor(row, cands[1..], before + extra, now)
    ensures CreatedFor(row, cands, before, now)
  {
    var q :| q in cands[1..] && row == NuevaAlerta(q, now).(id := row.id)
      && !ExisteAlertaActiva(before + extra, q.id, TipoVencimiento);
    assert q in cands;
    if ExisteAlertaActiva(before, q.id, TipoVencimiento) {
      ExisteMonotone(before, extra, q.id, TipoVencimiento);
    }
  }

  lemma CreatedForHead(cands: seq<Producto>, alertas: seq<Alerta>, nextId: int, now: int)
    requires |cands| > 0 && !ExisteAlertaActiva(alertas, cands[0].id, TipoVencimiento)
    ensures CreatedFor(NuevaAlerta(cands[0], now).(id := Some(nextId)), cands, alertas, now)
  {
    var row := NuevaAlerta(cands[0], now).(id := Some(nextId));
    assert cands[0] in cands;
    assert row == NuevaAlerta(cands[0], now).(id := row.id);
  }

  /** Every inserted row is the alert of a candidate that had no active
      `vencimiento` alert when the run started. */
  lemma {:induction false} InsertedRowsShape(cands: seq<Producto>, alertas: seq<Alerta>, nextId: int, now: int)
    ensures forall row :: row in Inserted(cands, alertas, nextId, now) ==> CreatedFor(row, cands, alertas, now)
    decreases |cands|
  {
    if |cands| > 0 {
      var p := cands[0];
      var rows := Inserted(cands, alertas, nextId, now);
      if ExisteAlertaActiva(alertas, p.id, TipoVencimiento) {
        var rest := Inserted(cands[1..], alertas, nextId, now);
        InsertedRowsShape(cands[1..], alertas, nextId, now);
        assert rows == rest;
        assert alertas + [] == alertas;
        forall x | x in rows
          ensures CreatedFor(x, cands, alertas, now)
        {
          assert CreatedFor(x, cands[1..], alertas + [], now);
          CreatedForExtend(x, cands, alertas, [], now);
        }
      } else {
        var row := NuevaAlerta(p, now).(id := Some(nextId));
        var rest := Inserted(cands[1..], alertas + [row], nextId + 1, now);
        assert rows == [row] + rest;
        InsertedRowsShape(cands[1..], alertas + [row], nextId + 1, now);
        forall x | x in rows
          ensures CreatedFor(x, cands, alertas, now)
        {
          if x == row {
            CreatedForHead(cands, alertas, nextId, now);
          } else {
            assert x in rest;
            CreatedForExtend(x, cands, alertas, [row], now);
          }
        }
      }
    }
  }

  /** One step of the loop: a covered candidate is skipped ... */
  lemma InsertedSkip(cands: seq<Producto>, alertas: seq<Alerta>, nextId: int, now: int)
    requires |cands| > 0 && ExisteAlertaActiva(alertas, cands[0].id, TipoVencimiento)
    ensures Inserted(cands, alertas, nextId, now) == Inserted(cands[1..], alertas, nextId, now)
  {
  }

  /** ... and an uncovered one gets its alert, which the rest of the loop sees. */
  lemma InsertedTake(cands: seq<Producto>, alertas: seq<Alerta>, nextId: int, now: int)
    requires |cands| > 0 && !ExisteAlertaActiva(alertas, cands[0].id, TipoVencimiento)
    ensures var row := NuevaAlerta(cands[0], now).(id := Some(nextId));
      alertas + Inserted(cands, alertas, nextId, now)
      == (alertas + [row]) + Inserted(cands[1..], alertas + [row], nextId + 1, now)
  {
    var row := NuevaAlerta(cands[0], now).(id := Some(nextId));
    var rest := Inserted(cands[1..], alertas + [row], nextId + 1, now);
    assert Inserted(cands, alertas, nextId, now) == [row] + rest;
    assert alertas + ([row] + rest) == (alertas + [row]) + rest;
  }

  /** Every element of a list other than its head is in its tail. */
  lemma InTail<T>(s: seq<T>, x: T)
    requires x in s && x != s[0]
    ensures x in s[1..]
  {
    var i :| 0 <= i < |s| && s[i] == x;
    assert s[1..][i - 1] == x;
  }

  /** After the loop every candidate has an active `vencimiento` alert. */
  lemma {:induction false} CandidatesCovered(cands: seq<Producto>, alertas: seq<Alerta>, nextId: int, now: int)
    ensures var after := alertas + Inserted(cands, alertas, nextId, now);
      forall p :: p in cands ==> ExisteAlertaActiva(after, p.id, TipoVencimiento)
    decreases |cands|
  {
    if |cands| > 0 {
      var p := cands[0];
      var after := alertas + Inserted(cands, alertas, nextId, now);
      var row := NuevaAlerta(p, now).(id := Some(nextId));
      if ExisteAlertaActiva(alertas, p.id, TipoVencimiento) {
        InsertedSkip(cands, alertas, nextId, now);
        CandidatesCovered(cands[1..], alertas, nextId, now);
        ExisteMonotone(alertas, Inserted(cands, alertas, nextId, now), p.id, TipoVencimiento);
      } else {
        var rest := Inserted(cands[1..], alertas + [row], nextId + 1, now);
        InsertedTake(cands, alertas, nextId, now);
        CandidatesCovered(cands[1..], alertas + [row], nextId + 1, now);
        assert row in alertas + [row] && IsActiveOf(row, p.id, TipoVencimiento);
        ExisteMonotone(alertas + [row], rest, p.id, TipoVencimiento);
      }
      forall q | q in cands ensures ExisteAlertaActiva(after, q.id, TipoVencimiento) {
        if q != p { InTail(cands, q); }
      }
    }
  }

  /** A loop over candidates that all have an active alert inserts nothing. */
  lemma {:induction false} CoveredInsertsNothing(cands: seq<Producto>, alertas: seq<Alerta>, nextId: int, now: int)
    requires forall p :: p in cands ==> ExisteAlertaActiva(alertas, p.id, TipoVencimiento)
    ensures Inserted(cands, alertas, nextId, now) == []
    decreases |cands|
  {
    if |cands| > 0 {
      assert cands[0] in cands;
      CoveredInsertsNothing(cands[1..], alertas, nextId, now);
    }
  }

  /** Idempotence: a second run on the same day, with no status change in
      between, creates nothing and returns an empty batch. */
  lemma SecondRunCreatesNothing(db: Db, now: int, later: int)
    requires DayOf(later) == DayOf(now)
    ensures var first := GenerarAlertasInteligentes(db, now);
      GenerarAlertasInteligentes(first.db, later) == Run(first.db, [])
  {
    var cands := Candidates(db.productos, DayOf(now));
    var first := GenerarAlertasInteligentes(db, now);
    CandidatesCovered(cands, db.alertas, db.nextId, now);
    assert first.db.alertas == db.alertas + Inserted(cands, db.alertas, db.nextId, now);
    RunOnCoveredIsEmpty(first.db, later);
  }

  /** A run in which every candidate already has an active alert changes
      nothing. */
  lemma RunOnCoveredIsEmpty(db: Db, now: int)
    requires forall p :: p in Candidates(db.productos, DayOf(now)) ==> ExisteAlertaActiva(db.alertas, p.id, TipoVencimiento)
    ensures GenerarAlertasInteligentes(db, now) == Run(db, [])
  {
    CoveredInsertsNothing(Candidates(db.productos, DayOf(now)), db.alertas, db.nextId, now);
    assert db.alertas + [] == db.alertas;
  }

  /** Appending an active alert for a (product, type) pair that has none
      keeps at most one active alert per pair. */
  lemma AppendKeepsUnique(s: seq<Alerta>, row: Alerta, pid: int)
    requires UniqueActive(s)
    requires row.productoId == Some(pid) && row.tipoAlerta == TipoVencimiento
    requires !ExisteAlertaActiva(s, pid, TipoVencimiento)
    ensures UniqueActive(s + [row])
  {
    var t := s + [row];
    forall i | 0 <= i < |s| ensures !IsActiveOf(s[i], pid, TipoVencimiento) {
      assert s[i] in s;
    }
    forall i, j |
      0 <= i < |t| && 0 <= j < |t|
      && t[i].estado == EstadoActiva && t[j].estado == EstadoActiva
      && t[i].productoId == t[j].productoId && t[i].tipoAlerta == t[j].tipoAlerta
      ensures i == j
    {
    }
  }

  /** Generation never creates a second active alert for a product: it keeps
      the at-most-one-active invariant. */
  lemma {:induction false} GenerationKeepsUniqueActive(cands: seq<Producto>, alertas: seq<Alerta>, nextId: int, now: int)
    requires UniqueActive(alertas)
    ensures UniqueActive(alertas + Inserted(cands, alertas, nextId, now))
    decreases |cands|
  {
    if |cands| == 0 {
      assert alertas + [] == alertas;
    } else {
      var p := cands[0];
      if ExisteAlertaActiva(alertas, p.id, TipoVencimiento) {
        InsertedSkip(cands, alertas, nextId, now);
        GenerationKeepsUniqueActive(cands[1..], alertas, nextId, now);
      } else {
        var row := NuevaAlerta(p, now).(id := Some(nextId));
        AppendKeepsUnique(alertas, row, p.id);
        GenerationKeepsUniqueActive(cands[1..], alertas + [row], nextId + 1, now);
        InsertedTake(cands, alertas, nextId, now);
      }
    }
  }

  /** The whole run keeps the invariant, and each alert it adds belongs to
      a candidate of the day that had no active alert. */
  lemma GenerationSound(db: Db, now: int)
    ensures var r := GenerarAlertasInteligentes(db, now);
      && (UniqueActive(db.alertas) ==> UniqueActive(r.db.alertas))
      && forall row :: row in r.db.alertas[|db.alertas|..] ==>
           CreatedFor(row, Candidates(db.productos, DayOf(now)), db.alertas, now)
  {
    var cands := Candidates(db.productos, DayOf(now));
    var rows := Inserted(cands, db.alertas, db.nextId, now);
    var r := GenerarAlertasInteligentes(db, now);
    assert r.db.alertas == db.alertas + rows;
    assert r.db.alertas[|db.alertas|..] == rows;
    InsertedRowsShape(cands, db.alertas, db.nextId, now);
    if UniqueActive(db.alertas) {
      GenerationKeepsUniqueActive(cands, db.alertas, db.nextId, now);
    }
  }

  /** A prefix of a table without duplicate active alerts has none either. */
  lemma PrefixKeepsUnique(alertas: seq<Alerta>, k: nat)
    requires k <= |alertas| && UniqueActive(alertas)
    ensures UniqueActive(alertas[..k])
  {
    var pre := alertas[..k];
    forall i, j | 0 <= i < |pre| && 0 <= j < |pre|
      && pre[i].estado == EstadoActiva && pre[j].estado == EstadoActiva
      && pre[i].productoId == pre[j].productoId
      && pre[i].tipoAlerta == pre[j].tipoAlerta
      ensures i == j
    {
      assert pre[i] == alertas[i] && pre[j] == alertas[j];
    }
  }

  /** Rows past `b` in a prefix of a table are rows past `b` in the table. */
  lemma PrefixTail(pre: seq<Alerta>, full: seq<Alerta>, b: nat)
    requires b <= |pre| <= |full| && pre == full[..|pre|]
    ensures forall row :: row in pre[b..] ==> row in full[b..]
  {
    forall row | row in pre[b..] ensures row in full[b..] {
      var i :| 0 <= i < |pre| - b && pre[b..][i] == row;
      assert full[b..][i] == row;
    }
  }

  /** A run cut short by a throwing query still keeps the invariant, and each
      row it left behind belongs to a candidate that had no active alert. */
  lemma ThrownRunSound(db: Db, now: int, k: nat)
    ensures var o := GenerarAlertasConFallo(db, now, Some(k));
      && (UniqueActive(db.alertas) ==> UniqueActive(o.db.alertas))
      && forall row :: row in o.db.alertas[|db.alertas|..] ==>
           CreatedFor(row, Candidates(db.productos, DayOf(now)), db.alertas, now)
  {
    var pre := GenerarAlertasConFallo(db, now, Some(k)).db.alertas;
    var full := GenerarAlertasInteligentes(db, now).db.alertas;
    GenerationSound(db, now);
    assert pre == full[..|pre|];
    PrefixTail(pre, full, |db.alertas|);
    if UniqueActive(db.alertas) {
      PrefixKeepsUnique(full, |pre|);
    }
  }

  /** A product expiring tomorrow, seen after midnight, counts zero days and
      is reported as already expired with the highest time weight. */
  lemma TomorrowReportedAsExpired(p: Producto, now: int)
    requires p.fechaCaducidad == DayOf(now) + 1 && now != StartOfDay(DayOf(now))
    ensures CalcularDiasRestantes(p.fechaCaducidad, now) == 0
    ensures StartsWith(NuevaAlerta(p, now).mensaje, "¡URGENTE!")
    ensures TimePoints(CalcularDiasRestantes(p.fechaCaducidad, now)) == 40
  {
    var today := DayOf(now);
    var diff := StartOfDay(p.fechaCaducidad) - now;
    assert StartOfDay(p.fechaCaducidad) == StartOfDay(today) + SecondsPerDay;
    assert 0 < diff < SecondsPerDay;
  }

  // ------------------------------------------------------------ status update

  /** `actualizarAlerta`: sets `estado` of the rows with that id; a database
      error (`dbError`) rolls back and yields false. The comment and user are
      accepted and ignored. */
  function ActualizarAlerta(alertas: seq<Alerta>, alertaId: int, estado: string,
                            comentario: string, usuario: string, dbError: bool): (r: (seq<Alerta>, bool))
    ensures r.1 <==> !dbError
    ensures !r.1 ==> r.0 == alertas
    ensures |r.0| == |alertas|
    ensures forall i :: 0 <= i < |alertas| ==> r.0[i].(estado := alertas[i].estado) == alertas[i]
    ensures forall i :: 0 <= i < |alertas| && alertas[i].id != Some(alertaId) ==> r.0[i] == alertas[i]
    ensures r.1 ==> forall i :: 0 <= i < |alertas| && alertas[i].id == Some(alertaId) ==> r.0[i].estado == estado
  {
    if dbError then (alertas, false)
    else
      (seq(|alertas|, i requires 0 <= i < |alertas| =>
         if alertas[i].id == Some(alertaId) then alertas[i].(estado := estado) else alertas[i]), true)
  }

  /** Repeating an update changes nothing more. */
  lemma UpdateIdempotent(alertas: seq<Alerta>, alertaId: int, estado: string, c: string, u: string)
    ensures var once := ActualizarAlerta(alertas, alertaId, estado, c, u, false).0;
      ActualizarAlerta(once, alertaId, estado, c, u, false).0 == once
  {
  }

  /** The comment and the user have no effect. */
  lemma UpdateIgnoresCommentAndUser(alertas: seq<Alerta>, alertaId: int, estado: string,
                                    c1: string, u1: string, c2: string, u2: string, dbError: bool)
    ensures ActualizarAlerta(alertas, alertaId, estado, c1, u1, dbError)
         == ActualizarAlerta(alertas, alertaId, estado, c2, u2, dbError)
  {
  }

  /** The update can break the invariant that generation keeps: setting a
      resolved alert back to `activa` next to an active one for the same
      product leaves two active alerts for it. */
  lemma ReactivationCanDuplicate()
    ensures var a1 := Alerta(Some(1), Some(7), TipoVencimiento, "", Some(2), 0, None, "resuelta", "");
      var a2 := Alerta(Some(2), Some(7), TipoVencimiento, "", Some(2), 0, None, EstadoActiva, "");
      UniqueActive([a1, a2]) && !UniqueActive(ActualizarAlerta([a1, a2], 1, EstadoActiva, "", "sistema", false).0)
  {
    var a1 := Alerta(Some(1), Some(7), TipoVencimiento, "", Some(2), 0, None, "resuelta", "");
    var a2 := Alerta(Some(2), Some(7), TipoVencimiento, "", Some(2), 0, None, EstadoActiva, "");
    var after := ActualizarAlerta([a1, a2], 1, EstadoActiva, "", "sistema", false).0;
    assert after[0].estado == EstadoActiva && after[1] == a2;
  }

  // ------------------------------------------------------------ active listing

  /** `ORDER BY nivel_prioridad_id DESC` (nulls first, as PostgreSQL sorts
      them in descending order): is level `x` strictly ahead of level `y`? */
  predicate NivelAhead(x: Option<int>, y: Option<int>) {
    match (x, y)
    case (None, Some(_)) => true
    case (Some(a), Some(b)) => a > b
    case _ => false
  }

  /** `a` may be listed before `b`: higher level first, then newer first. */
  predicate ListedBefore(a: Alerta, b: Alerta) {
    NivelAhead(a.nivelPrioridadId, b.nivelPrioridadId)
    || (a.nivelPrioridadId == b.nivelPrioridadId && a.fechaCreacion >= b.fechaCreacion)
  }

  predicate Ordered(s: seq<Alerta>) {
    forall i, j :: 0 <= i < j < |s| ==> ListedBefore(s[i], s[j])
  }

  lemma ListedBeforeTotal(a: Alerta, b: Alerta)
    ensures ListedBefore(a, b) || ListedBefore(b, a)
  {
  }

  lemma ListedBeforeTransitive(a: Alerta, b: Alerta, c: Alerta)
    requires ListedBefore(a, b) && ListedBefore(b, c)
    ensures ListedBefore(a, c)
  {
  }

  function InsertOrdered(x: Alerta, s: seq<Alerta>): (r: seq<Alerta>)
    requires Ordered(s)
    ensures Ordered(r)
    ensures multiset(r) == multiset(s) + multiset{x}
    decreases |s|
  {
    if |s| == 0 then [x]
    else if ListedBefore(x, s[0]) then
      AheadOfAll(x, s);
      ConsOrdered(x, s);
      [x] + s
    else
      var rest := InsertOrdered(x, s[1..]);
      ListedBeforeTotal(x, s[0]);
      assert s == [s[0]] + s[1..];
      HeadAheadOfRest(s, x, rest);
      ConsOrdered(s[0], rest);
      [s[0]] + rest
  }

  /** An alert listed before the head of an ordered listing is listed
      before all of it. */
  lemma AheadOfAll(x: Alerta, s: seq<Alerta>)
    requires Ordered(s) && |s| > 0 && ListedBefore(x, s[0])
    ensures forall y :: y in s ==> ListedBefore(x, y)
  {
    forall y | y in s ensures ListedBefore(x, y) {
      var j :| 0 <= j < |s| && s[j] == y;
      if j > 0 { ListedBeforeTransitive(x, s[0], s[j]); }
    }
  }

  /** The head of an ordered listing is listed before everything an
      insertion into its tail yields. */
  lemma HeadAheadOfRest(s: seq<Alerta>, x: Alerta, rest: seq<Alerta>)
    requires Ordered(s) && |s| > 0 && ListedBefore(s[0], x)
    requires multiset(rest) == multiset(s[1..]) + multiset{x}
    ensures forall y :: y in rest ==> ListedBefore(s[0], y)
  {
    forall y | y in rest ensures ListedBefore(s[0], y) {
      assert y in multiset(rest);
      if y != x {
        assert y in multiset(s[1..]);
        var j :| 0 <= j < |s[1..]| && s[1..][j] == y;
        assert s[j + 1] == y;
      }
    }
  }

  /** Putting an alert listed before everything in front keeps the order. */
  lemma ConsOrdered(h: Alerta, rest: seq<Alerta>)
    requires Ordered(rest) && forall y :: y in rest ==> ListedBefore(h, y)
    ensures Ordered([h] + rest)
  {
    var r := [h] + rest;
    forall i, j | 0 <= i < j < |r| ensures ListedBefore(r[i], r[j]) {
      if i == 0 { assert r[j] == rest[j - 1] && rest[j - 1] in rest; }
      else { assert r[i] == rest[i - 1] && r[j] == rest[j - 1]; }
    }
  }

  function SortListing(s: seq<Alerta>): (r: seq<Alerta>)
    ensures Ordered(r)
    ensures multiset(r) == multiset(s)
    decreases |s|
  {
    if |s| == 0 then []
    else
      assert s == [s[0]] + s[1..];
      InsertOrdered(s[0], SortListing(s[1..]))
  }

  function ActiveOnly(s: seq<Alerta>): (r: seq<Alerta>)
    ensures forall a :: multiset(r)[a] == if a.estado == EstadoActiva then multiset(s)[a] else 0
    decreases |s|
  {
    if |s| == 0 then []
    else
      assert s == [s[0]] + s[1..];
      (if s[0].estado == EstadoActiva then [s[0]] else []) + ActiveOnly(s[1..])
  }

  /** `obtenerAlertasActivas`: exactly the `activa` rows (with their
      multiplicity), highest level first and, within a level, newest first. */
  function ObtenerAlertasActivas(alertas: seq<Alerta>): (r: seq<Alerta>)
    ensures forall a :: multiset(r)[a] == if a.estado == EstadoActiva then multiset(alertas)[a] else 0
    ensures forall a :: a in r <==> a in alertas && a.estado == EstadoActiva
    ensures Ordered(r)
  {
    var r := SortListing(ActiveOnly(alertas));
    assert forall a :: a in r <==> multiset(r)[a] > 0;
    assert forall a :: a in alertas <==> multiset(alertas)[a] > 0;
    r
  }
}

=== FILE: alerta.dfy ===
/** The `Alerta` model object of the alerts module: its constructor, which
    fills every missing or null entry of the given array with a default, and
    `toArray`, which lists its nine fields. */
module AlertaModel {
  import opened Values
  import opened Dates

  /** An alert. `fechaCreacion` is an instant in seconds; `fechaVencimiento`
      is the calendar date of the product's expiry. */
  datatype Alerta = Alerta(
    id: Option<int>,
    productoId: Option<int>,
    tipoAlerta: string,
    mensaje: string,
    nivelPrioridadId: Option<int>,
    fechaCreacion: int,
    fechaVencimiento: Option<Day>,
    estado: string,
    clasificacionIa: string)

  /** The associative array handed to the constructor or produced by
      `toArray`: one entry per field, `None` when the key is missing or its
      value is null (the two cases `??` does not tell apart). */
  datatype AlertaData = AlertaData(
    id: Option<int>,
    productoId: Option<int>,
    tipoAlerta: Option<string>,
    mensaje: Option<string>,
    nivelPrioridadId: Option<int>,
    fechaCreacion: Option<int>,
    fechaVencimiento: Option<Day>,
    estado: Option<string>,
    clasificacionIa: Option<string>)

  /** `new Alerta()` with no arguments: the empty array. */
  const NoData := AlertaData(None, None, None, None, None, None, None, None, None)

  const EstadoActiva := "activa"

  /** `new Alerta($data)`; `now` is the clock reading used for `date(...)`. */
  function New(data: AlertaData, now: int): (a: Alerta)
    ensures a.id == data.id && a.productoId == data.productoId
    ensures a.nivelPrioridadId == data.nivelPrioridadId && a.fechaVencimiento == data.fechaVencimiento
    ensures data.tipoAlerta.Some? ==> a.tipoAlerta == data.tipoAlerta.value
    ensures data.tipoAlerta.None? ==> a.tipoAlerta == ""
    ensures data.mensaje.Some? ==> a.mensaje == data.mensaje.value
    ensures data.mensaje.None? ==> a.mensaje == ""
    ensures data.fechaCreacion.Some? ==> a.fechaCreacion == data.fechaCreacion.value
    ensures data.fechaCreacion.None? ==> a.fechaCreacion == now
    ensures data.estado.Some? ==> a.estado == data.estado.value
    ensures data.estado.None? ==> a.estado == EstadoActiva
    ensures data.clasificacionIa.Some? ==> a.clasificacionIa == data.clasificacionIa.value
    ensures data.clasificacionIa.None? ==> a.clasificacionIa == ""
  {
    Alerta(
      data.id,
      data.productoId,
      data.tipoAlerta.GetOr(""),
      data.mensaje.GetOr(""),
      data.nivelPrioridadId,
      data.fechaCreacion.GetOr(now),
      data.fechaVencimiento,
      data.estado.GetOr(EstadoActiva),
      data.clasificacionIa.GetOr(""))
  }

  /** `$alerta->toArray()`: building an alert back from it, at any clock
      reading, gives the same alert. */
  function ToArray(a: Alerta): (d: AlertaData)
    ensures forall now :: New(d, now) == a
  {
    AlertaData(
      a.id,
      a.productoId,
      Some(a.tipoAlerta),
      Some(a.mensaje),
      a.nivelPrioridadId,
      Some(a.fechaCreacion),
      a.fechaVencimiento,
      Some(a.estado),
      Some(a.clasificacionIa))
  }

  /** An alert built from nothing: null identifiers and dates, empty texts,
      state `activa`, created now. */
  lemma DefaultsOfEmpty(now: int)
    ensures New(NoData, now) == Alerta(None, None, "", "", None, now, None, EstadoActiva, "")
  {
  }

  /** `new Alerta($a->toArray())->toArray() == $a->toArray()` for every
      constructed alert, whatever the clock says the second time. */
  lemma ToArrayRoundTrip(data: AlertaData, now: int, later: int)
    ensures ToArray(New(ToArray(New(data, now)), later)) == ToArray(New(data, now))
  {
  }

  /** `toArray` loses nothing: different alerts give different arrays. */
  lemma ToArrayInjective(a: Alerta, b: Alerta)
    requires ToArray(a) == ToArray(b)
    ensures a == b
  {
    assert New(ToArray(a), 0) == a;
  }
}

=== FILE: base_controller.dfy ===
/** The controller base class of the inventory service: its start-up state
    machine (`setService`, `initialize`, `isInitialized`, `hasService`) and
    the generic handlers that guard on the service. What a subclass's
    `initializeService` does, and whether the service's own start-up
    succeeds, are parameters. */
module BaseController {
  import opened Values
  import opened Http

  /** A controller's state: its service (if assigned) and the flag. */
  datatype Ctrl<S> = Ctrl(service: Option<S>, initialized: bool)

  /** A freshly constructed controller. */
  function Fresh<S>(): Ctrl<S> { Ctrl(None, false) }

  /** What the subclass's `initializeService` does: build a service and
      pass it to `setService`, throw before assigning one, or return
      without assigning one. */
  datatype Step<S> = Provide(service: S) | FailBeforeAssign | Skip

  const YaAsignado := "El servicio ya está asignado"
  const NoService := "Servicio no inicializado"
  const RecursoNoEncontrado := "Recurso no encontrado"
  const UnknownError := "An unknown error occurred"

  /** The message `initialize` throws with, for a controller class name. */
  function InitError(name: string): string {
    "Error al inicializar " + name
  }

  function IsInitialized<S>(c: Ctrl<S>): (b: bool)
    ensures b <==> c.initialized && c.service.Some?
  {
    c.initialized && c.service.Some?
  }

  function HasService<S>(c: Ctrl<S>): (b: bool)
    ensures b <==> c.service.Some?
  {
    c.service.Some?
  }

  /** The states a controller can reach: the flag is up exactly when a
      service is assigned. */
  predicate Consistent<S>(c: Ctrl<S>) {
    c.initialized <==> c.service.Some?
  }

  /** `setService`: refused once a service is assigned. */
  function SetService<S>(c: Ctrl<S>, s: S): (r: (Ctrl<S>, Option<Thrown>))
    ensures r.1.Some? <==> c.service.Some?
    ensures r.1.Some? ==> r == (c, Some(PlainError(YaAsignado)))
    ensures r.1.None? ==> r.0 == Ctrl(Some(s), true) && IsInitialized(r.0)
  {
    if c.service.Some? then (c, Some(PlainError(YaAsignado)))
    else (Ctrl(Some(s), true), None)
  }

  /** `initialize`: a no-op once initialized; otherwise runs the subclass
      step, requires a service afterwards and starts it again. Whatever
      fails is rethrown as a 500 naming the controller class. */
  function Initialize<S>(c: Ctrl<S>, name: string, step: Step<S>, startFails: bool): (r: (Ctrl<S>, Option<Thrown>))
    ensures c.initialized ==> r == (c, None)
    ensures r.1.Some? ==> r.1.value == ApiError(500, InitError(name))
    ensures r.1.None? ==> r.0.initialized
    ensures Consistent(c) && r.1.None? ==> IsInitialized(r.0)
    ensures c.service.Some? ==> r.0.service == c.service
    ensures Consistent(c) ==> Consistent(r.0)
  {
    if c.initialized then (c, None)
    else
      var (c1, stepFailed) := match step
        case Provide(s) => var (c', e) := SetService(c, s); (c', e.Some?)
        case FailBeforeAssign => (c, true)
        case Skip => (c, false);
      if stepFailed || c1.service.None? || startFails then (c1, Some(ApiError(500, InitError(name))))
      else (c1.(initialized := true), None)
  }

  /** `isInitialized` implies `hasService`. */
  lemma InitializedHasService<S>(c: Ctrl<S>)
    requires IsInitialized(c)
    ensures HasService(c)
  {
  }

  /** Assigning a second service fails and changes nothing. */
  lemma SetServiceTwice<S>(s1: S, s2: S)
    ensures var (c, e) := SetService(Fresh<S>(), s1);
      e.None? && SetService(c, s2) == (c, Some(PlainError(YaAsignado)))
  {
  }

  /** A start-up that fails after the subclass assigned the service still
      leaves the controller initialized (`setService` raised the flag), so
      the next `initialize` returns at once without retrying. */
  lemma FailedStartStaysInitialized<S>(s: S, name: string, step2: Step<S>, fails2: bool)
    ensures var (c, e) := Initialize(Fresh<S>(), name, Provide(s), true);
      && e == Some(ApiError(500, InitError(name)))
      && IsInitialized(c)
      && Initialize(c, name, step2, fails2) == (c, None)
  {
  }

  /** A subclass step that assigns nothing always fails. */
  lemma SkipAlwaysFails<S>(name: string, startFails: bool)
    ensures Initialize(Fresh<S>(), name, Skip, startFails) == (Fresh<S>(), Some(ApiError(500, InitError(name))))
  {
  }

  // ------------------------------------------------------------ generic handlers

  /** The JSON a generic handler writes. */
  datatype Json = Items(items: seq<Obj>) | Item(item: Obj) | ErrorJson(error: string)

  /** What a list query answers. */
  datatype ListAnswer = ListOk(items: seq<Obj>) | ListFails(message: string, isError: bool)

  /** The message a generic handler reports for a caught value. */
  function Reported(message: string, isError: bool): (m: string)
    ensures isError ==> m == message
    ensures !isError ==> m == UnknownError
  {
    if isError then message else UnknownError
  }

  /** `getAll`. */
  function GetAll<S>(c: Ctrl<S>, answer: ListAnswer): (r: Outcome<Json>)
    ensures !HasService(c) ==> r == Throw(ApiError(500, NoService))
    ensures HasService(c) ==> r.Respond? && r.status in {200, 500}
    ensures r.Respond? ==> (r.status == 200 <==> answer.ListOk?)
    ensures r.Respond? && answer.ListOk? ==> r.body == Items(answer.items)
  {
    if c.service.None? then Throw(ApiError(500, NoService))
    else
      match answer
      case ListOk(items) => Respond(200, Items(items))
      case ListFails(m, e) => Respond(500, ErrorJson(Reported(m, e)))
  }

  /** `getById`: a missing row throws a 404 that the handler's own `catch`
      answers with 500. */
  function GetById<S>(c: Ctrl<S>, lookup: Lookup): (r: Outcome<Json>)
    ensures !HasService(c) ==> r == Throw(ApiError(500, NoService))
    ensures HasService(c) ==> r.Respond? && r.status in {200, 500}
    ensures r.Respond? ==> (r.status == 200 <==> lookup.Found?)
    ensures r.Respond? && lookup.Missing? ==> r == Respond(500, ErrorJson(RecursoNoEncontrado))
  {
    if c.service.None? then Throw(ApiError(500, NoService))
    else
      match lookup
      case Found(row) => Respond(200, Item(row))
      case Missing => Respond(500, ErrorJson(RecursoNoEncontrado))
      case LookupFails(m, e) => Respond(500, ErrorJson(Reported(m, e)))
  }

  /** `create`: the body goes to the service unchanged. */
  function Create<S>(c: Ctrl<S>, body: Obj, db: DbResult): (r: Outcome<Json>)
    ensures !HasService(c) ==> r == Throw(ApiError(500, NoService))
    ensures HasService(c) ==> r.Respond? && r.status in {201, 500}
    ensures r.Respond? ==> (r.status == 201 <==> db.DbOk?)
    ensures r.Respond? && db.DbOk? ==> r.body == Item(db.row)
  {
    if c.service.None? then Throw(ApiError(500, NoService))
    else
      match db
      case DbOk(row) => Respond(201, Item(row))
      case DbFail(m, e) => Respond(500, ErrorJson(Reported(m, e)))
  }

  /** In every reachable state the generic handlers answer (never throw)
      exactly when the controller is initialized. */
  lemma HandlersGuardOnInit<S>(c: Ctrl<S>, lookup: Lookup)
    requires Consistent(c)
    ensures GetById(c, lookup).Respond? <==> IsInitialized(c)
  {
  }
}

=== FILE: dates.dfy ===
/** Calendar arithmetic. A calendar date is a day number (days since an
    arbitrary epoch, midnight of that day); an instant is a count of seconds
    or of milliseconds since the same epoch. Time zones and daylight saving
    are not modelled: every day is exactly 86 400 seconds long. */
module Dates {

  type Day = int

  const SecondsPerDay: int := 86400
  const MillisPerDay: int := 86400000

  /** The instant (in seconds) at which a calendar date begins. */
  function StartOfDay(d: Day): int {
    d * SecondsPerDay
  }

  /** The calendar date an instant (in seconds) falls in. */
  function DayOf(t: int): (d: Day)
    ensures StartOfDay(d) <= t < StartOfDay(d + 1)
  {
    t / SecondsPerDay
  }

  /** Whole days in a signed span of `diff` units of `unit` each, truncated
      toward zero: the magnitude is the number of complete days in |diff| and
      the sign is that of `diff`. This is what PHP's `DateTime::diff` reports
      as `days`, signed by its `invert` flag. */
  function WholeDaysTowardZero(diff: int, unit: int): (r: int)
    requires unit > 0
    ensures diff >= 0 ==> 0 <= r && r * unit <= diff < (r + 1) * unit
    ensures diff < 0 ==> r <= 0 && -r * unit <= -diff < (-r + 1) * unit
  {
    var a := if diff < 0 then -diff else diff;
    var q := a / unit;
    TowardZeroBounds(diff, unit, a, q);
    if diff < 0 then -q else q
  }

  lemma TowardZeroBounds(diff: int, unit: int, a: int, q: int)
    requires unit > 0 && a == (if diff < 0 then -diff else diff) && q == a / unit
    ensures diff >= 0 ==> 0 <= q && q * unit <= diff < (q + 1) * unit
    ensures diff < 0 ==> 0 <= q && q * unit <= -diff < (q + 1) * unit
  {
    DivBounds(a, unit);
  }

  /** Whole days in a signed span, rounded down (`Math.floor(diff / unit)`). */
  function WholeDaysFloor(diff: int, unit: int): (r: int)
    requires unit > 0
    ensures r * unit <= diff < (r + 1) * unit
  {
    DivBounds(diff, unit);
    diff / unit
  }

  /** Euclidean division brackets its dividend. */
  lemma DivBounds(a: int, u: int)
    requires u > 0
    ensures (a / u) * u <= a < (a / u + 1) * u
  {
    assert a == (a / u) * u + a % u;
    assert (a / u + 1) * u == (a / u) * u + u;
  }

  /** The two roundings agree on spans that are not negative and on whole
      days; on any other negative span rounding down gives one day less. */
  lemma TruncationVersusFloor(diff: int, unit: int)
    requires unit > 0
    ensures diff >= 0 || diff % unit == 0 ==> WholeDaysFloor(diff, unit) == WholeDaysTowardZero(diff, unit)
    ensures diff < 0 && diff % unit != 0 ==> WholeDaysFloor(diff, unit) == WholeDaysTowardZero(diff, unit) - 1
  {
    var f := WholeDaysFloor(diff, unit);
    if diff < 0 {
      if diff % unit == 0 {
        assert f * unit == diff;
        DivUnique(-diff, unit, -f);
      } else {
        assert f * unit < diff;
        DivUnique(-diff, unit, -f - 1);
      }
    }
  }

  lemma DivUnique(a: int, u: int, q: int)
    requires u > 0 && q * u <= a < (q + 1) * u
    ensures a / u == q
  {
    var q' := a / u;
    assert q' * u <= a < (q' + 1) * u;
    if q' < q {
      MulMonotone(q' + 1, q, u);
      assert false;
    }
    if q' > q {
      MulMonotone(q + 1, q', u);
      assert false;
    }
  }

  lemma MulMonotone(a: int, b: int, u: int)
    requires a <= b && u > 0
    ensures a * u <= b * u
  {
    assert b * u - a * u == (b - a) * u;
  }
}

=== FILE: http.dfy ===
/** What an Express handler of the inventory service can do: write a
    response, or throw an error for the error middleware to turn into one;
    and what the database layer below it can answer. */
module Http {
  import opened Values

  /** An error thrown by a handler. `ApiError` carries the HTTP status the
      middleware answers with; any other `Error` has only a message. */
  datatype Thrown = ApiError(status: int, message: string) | PlainError(message: string)

  /** A handler's result: a response written with a status and a JSON body,
      or an error thrown. */
  datatype Outcome<T> = Respond(status: int, body: T) | Throw(error: Thrown) {
    predicate Throws(status: int) {
      Throw? && error.ApiError? && error.status == status
    }
  }

  /** The answer of one database call: the row, or an error with its
      message. `isError` tells whether the thrown value is an `Error`
      instance (`instanceof Error`); a bare error object is not. */
  datatype DbResult = DbOk(row: Obj) | DbFail(message: string, isError: bool)

  /** What a lookup by id answers: the row, nothing, or an error. */
  datatype Lookup = Found(row: Obj) | Missing | LookupFails(message: string, isError: bool)

  /** The message fragment PostgreSQL uses for a unique-key violation. */
  const DuplicateKey := "duplicate key value " + "violates unique constraint"

  /** The message fragment PostgreSQL uses for a check-constraint violation. */
  const CheckViolation := "violates check constraint"
}

=== FILE: product_controller.dfy ===
/** The product handlers of the inventory service: `create` (validation,
    field whitelist, removal of undefined fields, error classification) and
    `getById`. The validator chain's verdict, the controller's start-up and
    the database answers are parameters. */
module ProductController {
  import opened Values
  import opened Text
  import opened Http

  /** The ten body fields a new product may carry. */
  const ProductoKeys: set<string> := {
    "nombre", "codigo_barras", "categoria_id", "proveedor_id", "precio_unitario",
    "fecha_caducidad", "cantidad_stock", "almacenamiento_id", "estado", "clasificacion_ia"}

  const DatosInvalidos := "Datos inválidos"
  const CodigoEnUso := "El código de barras ya está en uso"
  const ErrorCrear := "Error al crear producto"
  const ErrorObtener := "Error al obtener producto"
  const NoEncontrado := "Producto no encontrado"

  /** What `create` hands to the database (if anything) and what it does. */
  datatype Call = Call(sent: Option<Obj>, outcome: Outcome<Obj>)

  /** The record built from the body: the ten fields copied, then every
      undefined one deleted. */
  function MapProducto(body: Obj): (rec: Obj)
    ensures forall k :: k in rec <==> k in ProductoKeys && Get(body, k) != Undefined
    ensures forall k :: k in rec ==> rec[k] == Get(body, k)
  {
    map k | k in ProductoKeys && k in body && body[k] != Undefined :: body[k]
  }

  /** Keys outside the ten never reach the record. */
  lemma ExtraKeysDropped(body: Obj, k: string, v: Value)
    requires k !in ProductoKeys
    ensures MapProducto(body[k := v]) == MapProducto(body)
  {
  }

  /** Mapping a record already mapped changes nothing. */
  lemma MapProductoIdempotent(body: Obj)
    ensures MapProducto(MapProducto(body)) == MapProducto(body)
  {
  }

  /** The catch around the database call: a unique-key violation becomes
      400, anything else is rethrown as it is. */
  function ClassifyDbFailure(message: string, isError: bool): (t: Thrown)
    ensures t.ApiError? <==> isError && Contains(message, DuplicateKey)
    ensures t.ApiError? ==> t == ApiError(400, CodigoEnUso)
  {
    if isError && Contains(message, DuplicateKey) then ApiError(400, CodigoEnUso)
    else PlainError(message)
  }

  /** The outer catch: an `ApiError` propagates, anything else becomes 500. */
  function OuterCatch(t: Thrown): (u: Thrown)
    ensures u.ApiError?
    ensures t.ApiError? ==> u == t
    ensures t.PlainError? ==> u == ApiError(500, ErrorCrear)
  {
    if t.ApiError? then t else ApiError(500, ErrorCrear)
  }

  /** `create`. `initError` is what `initialize()` throws, if anything; it
      runs outside the `try`. Without a service the `service!` call throws a
      `TypeError`, which the outer catch turns into 500. */
  function Create(initError: Option<Thrown>, hasService: bool, validationFails: bool, body: Obj, db: DbResult): (r: Call)
    ensures initError.Some? ==> r == Call(None, Throw(initError.value))
    ensures initError.None? && validationFails ==> r == Call(None, Throw(ApiError(400, DatosInvalidos)))
    ensures r.sent.Some? <==> initError.None? && !validationFails && hasService
    ensures r.sent.Some? ==> r.sent.value == MapProducto(body)
    ensures r.outcome.Respond? <==> r.sent.Some? && db.DbOk?
    ensures r.outcome.Respond? ==> r.outcome == Respond(201, db.row)
    ensures initError.None? ==>
      (r.outcome == Throw(ApiError(400, CodigoEnUso)) <==>
       r.sent.Some? && db.DbFail? && db.isError && Contains(db.message, DuplicateKey))
    ensures initError.None? && !validationFails && r.outcome.Throw? ==>
      r.outcome.Throws(400) || r.outcome == Throw(ApiError(500, ErrorCrear))
  {
    if initError.Some? then Call(None, Throw(initError.value))
    else if validationFails then Call(None, Throw(OuterCatch(ApiError(400, DatosInvalidos))))
    else if !hasService then Call(None, Throw(OuterCatch(PlainError("Cannot read properties of null"))))
    else
      var rec := MapProducto(body);
      match db
      case DbOk(row) => Call(Some(rec), Respond(201, row))
      case DbFail(msg, isError) => Call(Some(rec), Throw(OuterCatch(ClassifyDbFailure(msg, isError))))
  }

  /** `getById`: the not-found `ApiError` (404) is caught by the handler's
      own `catch` and replaced by a 500, like every other failure. */
  function GetById(initError: Option<Thrown>, lookup: Lookup): (r: Outcome<Obj>)
    ensures initError.Some? ==> r == Throw(initError.value)
    ensures initError.None? ==> (r.Respond? <==> lookup.Found?)
    ensures initError.None? && r.Throw? ==> r == Throw(ApiError(500, ErrorObtener))
    ensures r.Respond? ==> r.status == 200 && r.body == lookup.row
  {
    if initError.Some? then Throw(initError.value)
    else
      var inner: Outcome<Obj> := match lookup
        case Found(row) => Respond(200, row)
        case Missing => Throw(ApiError(404, NoEncontrado))
        case LookupFails(m, _) => Throw(PlainError(m));
      if inner.Throw? then Throw(ApiError(500, ErrorObtener)) else inner
  }

  /** A product that does not exist is reported as a server error, never
      as 404. */
  lemma MissingProductIs500()
    ensures GetById(None, Missing) == Throw(ApiError(500, ErrorObtener))
    ensures !GetById(None, Missing).Throws(404)
  {
  }

  /** A unique-key violation from the database yields 400, and the record
      sent holds exactly the defined whitelisted fields. */
  lemma DuplicateBarcodeIs400(body: Obj, prefix: string)
    ensures var r := Create(None, true, false, body, DbFail(prefix + DuplicateKey, true));
      r.outcome == Throw(ApiError(400, CodigoEnUso)) && r.sent == Some(MapProducto(body))
  {
    assert OccursAt(prefix + DuplicateKey, DuplicateKey, |prefix|);
  }
}

=== FILE: product_priority.dfy ===
/** The inventory-side expiry prioritiser: every product whose expiry is
    at most seven whole days away (rounded down, expired ones included) is
    marked as about to expire and given a priority 3..5. */
module ProductPriority {
  import opened Values
  import opened Dates

  /** The inventory product as the prioritiser reads and writes it;
      `fechaCaducidad` is an instant in milliseconds. */
  datatype Producto = Producto(
    id: int,
    fechaCaducidad: int,
    categoria: string,
    proximoVencer: bool,
    nivelPrioridad: Option<int>)

  const UmbralDias := 7

  /** Days to expiry, rounded down (`Math.floor` of the millisecond span). */
  function DiasRestantes(fechaCaducidad: int, hoy: int): (d: int)
    ensures d * MillisPerDay <= fechaCaducidad - hoy < (d + 1) * MillisPerDay
    ensures d <= UmbralDias <==> fechaCaducidad - hoy < (UmbralDias + 1) * MillisPerDay
    ensures d >= 0 <==> fechaCaducidad >= hoy
  {
    var d := WholeDaysFloor(fechaCaducidad - hoy, MillisPerDay);
    FloorThresholds(fechaCaducidad - hoy, d);
    d
  }

  lemma FloorThresholds(diff: int, d: int)
    requires d * MillisPerDay <= diff < (d + 1) * MillisPerDay
    ensures d <= UmbralDias <==> diff < (UmbralDias + 1) * MillisPerDay
    ensures d >= 0 <==> diff >= 0
  {
    FloorBelow(diff, d, UmbralDias + 1);
    FloorBelow(diff, d, 0);
  }

  /** A day count rounded down is below `k` exactly when the span is below
      `k` whole days. */
  lemma FloorBelow(diff: int, d: int, k: int)
    requires d * MillisPerDay <= diff < (d + 1) * MillisPerDay
    ensures d < k <==> diff < k * MillisPerDay
  {
    if d < k {
      MulMonotone(d + 1, k, MillisPerDay);
    } else {
      MulMonotone(k, d, MillisPerDay);
    }
  }

  /** `calcularPrioridad`: 5 up to two days, 4 up to four, 3 beyond. */
  function CalcularPrioridad(dias: int, categoria: string): (p: int)
    ensures 3 <= p <= 5
    ensures p == 5 <==> dias <= 2
    ensures p == 4 <==> 3 <= dias <= 4
    ensures p == 3 <==> dias > 4
  {
    if dias <= 2 then 5
    else if dias <= 4 then 4
    else 3
  }

  /** The later the expiry, the lower (or equal) the priority. */
  lemma PrioridadNonIncreasing(d1: int, d2: int, c: string)
    requires d1 <= d2
    ensures CalcularPrioridad(d2, c) <= CalcularPrioridad(d1, c)
  {
  }

  /** The category is accepted and ignored. */
  lemma PrioridadIgnoresCategoria(dias: int, c1: string, c2: string)
    ensures CalcularPrioridad(dias, c1) == CalcularPrioridad(dias, c2)
  {
  }

  predicate DueSoon(p: Producto, hoy: int) {
    DiasRestantes(p.fechaCaducidad, hoy) <= UmbralDias
  }

  /** One iteration of the loop: a product due soon is marked and
      prioritised; any other product is left as it is. In terms of the
      millisecond span to expiry, a marked product gets 5 below three
      days, 4 from three to five days and 3 from five to eight days. */
  function Marcar(p: Producto, hoy: int): (q: Producto)
    ensures q.id == p.id && q.fechaCaducidad == p.fechaCaducidad && q.categoria == p.categoria
    ensures q.proximoVencer <==> p.proximoVencer || p.fechaCaducidad - hoy < 8 * MillisPerDay
    ensures p.fechaCaducidad - hoy >= 8 * MillisPerDay ==> q == p
    ensures DueSoon(p, hoy) ==>
      q.nivelPrioridad == Some(CalcularPrioridad(DiasRestantes(p.fechaCaducidad, hoy), p.categoria))
    ensures p.fechaCaducidad - hoy < 8 * MillisPerDay ==>
      && q.nivelPrioridad.Some?
      && (q.nivelPrioridad.value == 5 <==> p.fechaCaducidad - hoy < 3 * MillisPerDay)
      && (q.nivelPrioridad.value == 4 <==> 3 * MillisPerDay <= p.fechaCaducidad - hoy < 5 * MillisPerDay)
      && (q.nivelPrioridad.value == 3 <==> 5 * MillisPerDay <= p.fechaCaducidad - hoy)
  {
    var d := DiasRestantes(p.fechaCaducidad, hoy);
    FloorBelow(p.fechaCaducidad - hoy, d, 3);
    FloorBelow(p.fechaCaducidad - hoy, d, 5);
    if d <= UmbralDias then
      p.(proximoVencer := true, nivelPrioridad := Some(CalcularPrioridad(d, p.categoria)))
    else p
  }

  /** Marking twice on the same instant is marking once. */
  lemma MarcarIdempotent(p: Producto, hoy: int)
    ensures Marcar(Marcar(p, hoy), hoy) == Marcar(p, hoy)
  {
  }

  /** An expired product is always marked, with the top priority. */
  lemma ExpiredGetsTopPriority(p: Producto, hoy: int)
    requires p.fechaCaducidad < hoy
    ensures Marcar(p, hoy).proximoVencer && Marcar(p, hoy).nivelPrioridad == Some(5)
  {
  }

  /** `clasificarProductosProximosAVencer` over the whole table, with the
      table after the run and the ids of the saved products, in table order.
      `fallaEn` is the number of saves that succeed before one throws
      (`None`: none throws). A throwing save ends the loop and rejects the
      call (`fallo`); the first `hechos` products were handled, the earlier
      saves stay, and the product whose save threw keeps its stored row. */
  method ClasificarProductosProximosAVencer(productos: seq<Producto>, hoy: int, fallaEn: Option<nat>)
    returns (tabla: seq<Producto>, guardados: seq<int>, hechos: nat, fallo: bool)
    ensures |tabla| == |productos| && hechos <= |productos|
    ensures forall i :: 0 <= i < hechos ==> tabla[i] == Marcar(productos[i], hoy)
    ensures forall i :: hechos <= i < |productos| ==> tabla[i] == productos[i]
    ensures guardados == SavedIds(productos[..hechos], hoy)
    ensures fallo <==> fallaEn.Some? && fallaEn.value < |SavedIds(productos, hoy)|
    ensures !fallo ==> hechos == |productos| && guardados == SavedIds(productos, hoy)
    ensures fallo ==>
      && hechos < |productos| && DueSoon(productos[hechos], hoy)
      && guardados == SavedIds(productos, hoy)[..fallaEn.value]
  {
    var marcados;
    marcados, guardados, fallo := RecorrerProductos(productos, hoy, fallaEn);
    hechos := |marcados|;
    tabla := marcados + productos[hechos..];
    assert forall k :: 0 <= k < hechos ==> tabla[k] == marcados[k];
    assert forall k :: hechos <= k < |productos| ==> tabla[k] == productos[hechos..][k - hechos] == productos[k];
    if fallo {
      FailedSave(productos, hechos, hoy);
    } else {
      assert productos[..hechos] == productos;
    }
  }

  /** The `for` loop: the marked products in table order and the ids saved,
      up to the end of the table or to the save that throws (`fallo`). */
  method RecorrerProductos(productos: seq<Producto>, hoy: int, fallaEn: Option<nat>)
    returns (marcados: seq<Producto>, guardados: seq<int>, fallo: bool)
    ensures |marcados| <= |productos|
    ensures forall k :: 0 <= k < |marcados| ==> marcados[k] == Marcar(productos[k], hoy)
    ensures guardados == SavedIds(productos[..|marcados|], hoy)
    ensures fallo ==>
      |marcados| < |productos| && DueSoon(productos[|marcados|], hoy) && fallaEn == Some(|guardados|)
    ensures !fallo ==> |marcados| == |productos| && (fallaEn.Some? ==> |guardados| <= fallaEn.value)
  {
    marcados := [];
    guardados := [];
    fallo := false;
    var i := 0;
    while i < |productos|
      invariant 0 <= i <= |productos| && |marcados| == i
      invariant forall k :: 0 <= k < i ==> marcados[k] == Marcar(productos[k], hoy)
      invariant guardados == SavedIds(productos[..i], hoy)
      invariant fallaEn.Some? ==> |guardados| <= fallaEn.value
    {
      var p := productos[i];
      var vence := DueSoon(p, hoy);
      if vence && fallaEn == Some(|guardados|) {
        fallo := true;
        break;
      }
      assert productos[..i + 1] == productos[..i] + [p];
      SavedIdsAppend(productos[..i], p, hoy);
      marcados := marcados + [Marcar(p, hoy)];
      if vence {
        guardados := guardados + [p.id];
      }
      i := i + 1;
    }
  }

  /** When the save of the due product at position `i` throws, the ids
      saved so far are the first ones of the whole run, and there was at
      least one more to save. */
  lemma FailedSave(ps: seq<Producto>, i: nat, hoy: int)
    requires i < |ps| && DueSoon(ps[i], hoy)
    ensures |SavedIds(ps[..i], hoy)| < |SavedIds(ps, hoy)|
    ensures SavedIds(ps[..i], hoy) == SavedIds(ps, hoy)[..|SavedIds(ps[..i], hoy)|]
  {
    assert ps[..i + 1] == ps[..i] + [ps[i]];
    SavedIdsAppend(ps[..i], ps[i], hoy);
    SavedIdsPrefix(ps, i + 1, hoy);
  }

  /** Reference: the ids of the products due soon, in order. */
  function SavedIds(ps: seq<Producto>, hoy: int): (ids: seq<int>)
    ensures |ids| <= |ps|
    ensures forall x :: x in ids ==> exists p :: p in ps && p.id == x && DueSoon(p, hoy)
    decreases |ps|
  {
    if |ps| == 0 then []
    else
      var init := ps[..|ps| - 1];
      var last := ps[|ps| - 1];
      var rest := SavedIds(init, hoy);
      assert forall p :: p in init ==> p in ps;
      rest + (if DueSoon(last, hoy) then [last.id] else [])
  }

  /** Every product due soon has its id saved. */
  lemma {:induction false} SavedIdsComplete(ps: seq<Producto>, hoy: int)
    ensures forall i :: 0 <= i < |ps| && DueSoon(ps[i], hoy) ==> ps[i].id in SavedIds(ps, hoy)
    decreases |ps|
  {
    if |ps| > 0 {
      var init := ps[..|ps| - 1];
      SavedIdsComplete(init, hoy);
      assert ps == init + [ps[|ps| - 1]];
      SavedIdsAppend(init, ps[|ps| - 1], hoy);
      assert forall i :: 0 <= i < |ps| - 1 ==> ps[i] == init[i];
    }
  }

  /** The ids saved from a prefix of the table are a prefix of those saved
      from the whole table. */
  lemma {:induction false} SavedIdsPrefix(ps: seq<Producto>, j: nat, hoy: int)
    requires j <= |ps|
    ensures SavedIds(ps[..j], hoy) <= SavedIds(ps, hoy)
    decreases |ps| - j
  {
    if j == |ps| {
      assert ps[..j] == ps;
    } else {
      assert ps[..j + 1] == ps[..j] + [ps[j]];
      SavedIdsAppend(ps[..j], ps[j], hoy);
      SavedIdsPrefix(ps, j + 1, hoy);
    }
  }

  /** With distinct product ids, no id is saved twice. */
  lemma {:induction false} SavedIdsDistinct(ps: seq<Producto>, hoy: int)
    requires forall i, j :: 0 <= i < j < |ps| ==> ps[i].id != ps[j].id
    ensures forall i, j :: 0 <= i < j < |SavedIds(ps, hoy)| ==> SavedIds(ps, hoy)[i] != SavedIds(ps, hoy)[j]
    decreases |ps|
  {
    if |ps| > 0 {
      var init := ps[..|ps| - 1];
      var last := ps[|ps| - 1];
      SavedIdsDistinct(init, hoy);
      assert ps == init + [last];
      SavedIdsAppend(init, last, hoy);
      var rest := SavedIds(init, hoy);
      var ids := SavedIds(ps, hoy);
      forall x | x in rest
        ensures x != last.id
      {
        var p :| p in init && p.id == x && DueSoon(p, hoy);
        var k :| 0 <= k < |init| && init[k] == p;
        assert ps[k] == p;
      }
      forall i, j | 0 <= i < j < |ids|
        ensures ids[i] != ids[j]
      {
        assert ids[i] == rest[i];
        if j >= |rest| {
          assert rest[i] in rest;
        }
      }
    }
  }

  lemma SavedIdsAppend(ps: seq<Producto>, p: Producto, hoy: int)
    ensures SavedIds(ps + [p], hoy) == SavedIds(ps, hoy) + (if DueSoon(p, hoy) then [p.id] else [])
  {
    assert (ps + [p])[..|ps|] == ps;
  }
}

=== FILE: recipe_routes.dfy ===
/** The two recipe-generation routes of the recipes module: the form route,
    which parses a comma-separated id list, and the JSON route. Both look the
    products up, ask the model for a recipe and store it with one relation
    row per requested id; the form route also records the request. The
    tables are in-memory sequences and the model's answer is a parameter. */
module RecipeRoutes {
  import opened Values
  import opened Text
  import opened RecipeText

  datatype RecetaRow = RecetaRow(
    id: int,
    nombre: string,
    descripcion: string,
    instrucciones: string,
    tiempoPreparacion: nat,
    porciones: int,
    tipoComidaId: Option<int>,
    generadaPorIa: bool,
    promptIa: string)

  datatype Relacion = Relacion(recetaId: int, productoId: int, cantidadNecesaria: int)

  datatype Recomendacion = Recomendacion(productosInput: string, recetaGeneradaId: int, confianzaScore: real, modeloUsado: string)

  /** The tables the routes read and write. `tipos` maps a meal-type id to
      its name; `nextRecetaId` is the id the next inserted recipe receives. */
  datatype Db = Db(
    productos: seq<ProductoRow>,
    tipos: map<int, string>,
    recetas: seq<RecetaRow>,
    relaciones: seq<Relacion>,
    recomendaciones: seq<Recomendacion>,
    nextRecetaId: int)

  /** What a route answers: a 303 redirect, the JSON of the API route, an
      `HTTPException`, or an exception nobody catches (a 500 from the
      framework). */
  datatype Reply =
    | Redirect(url: string)
    | RecetaJson(receta: RecetaRow, textoGenerado: string, productosUtilizados: seq<ProductoRow>)
    | HttpError(status: int, detail: string)
    | Unhandled

  /** The JSON body of the API route; `None` for a missing key. */
  datatype ApiBody = ApiBody(productosIds: Option<seq<int>>, tipoComida: Option<string>, porciones: Option<int>)

  const PorcionesPorDefecto := 4
  const TipoPorDefecto := "cualquiera"
  const SinProductos := "Debe seleccionar al menos un producto"
  const NoEncontrados := "No se encontraron los productos " + "seleccionados"
  const ErrorGenerando := "Error generando receta: "
  const Confianza := 0.85
  const Modelo := "gpt-4o"

  // ------------------------------------------------------------ id list

  /** Python's `int(text)` on a decimal literal: surrounding whitespace and
      one sign allowed, ASCII digits only; `None` where it raises. */
  function PyInt(s: string): (r: Option<int>)
    ensures (forall k :: 0 <= k < |s| ==> !IsDigit(s[k])) ==> r.None?
    ensures |s| > 0 && AllDigits(s) ==> r == Some(DigitsValue(s))
  {
    var t := Trim(s);
    var r := SignedDigits(t);
    assert r.Some? ==> exists k :: 0 <= k < |s| && IsDigit(s[k]) by {
      if r.Some? {
        var c := if IsDigit(t[0]) then t[0] else t[1];
        assert c in t;
        ContainedChars(s, t, c);
      }
    }
    assert |s| > 0 && AllDigits(s) ==> t == s by {
      if |s| > 0 && AllDigits(s) { TrimOfTrimmed(s); }
    }
    r
  }

  /** An optional sign followed by at least one digit. */
  function SignedDigits(t: string): (r: Option<int>)
    ensures r.Some? ==> |t| > 0 && (IsDigit(t[0]) || (|t| > 1 && IsDigit(t[1])))
    ensures |t| > 0 && AllDigits(t) ==> r == Some(DigitsValue(t))
    ensures |t| > 1 && t[0] == '-' && AllDigits(t[1..]) ==> r == Some(-(DigitsValue(t[1..]) as int))
  {
    if |t| > 0 && AllDigits(t) then Some(DigitsValue(t))
    else if |t| > 1 && (t[0] == '-' || t[0] == '+') && AllDigits(t[1..]) then
      assert IsDigit(t[1..][0]);
      Some(if t[0] == '-' then -(DigitsValue(t[1..]) as int) else DigitsValue(t[1..]))
    else None
  }

  /** Reading back a rendered integer gives the integer. */
  lemma PyIntOfShowInt(i: int)
    ensures PyInt(ShowInt(i)) == Some(i)
  {
    var s := ShowInt(i);
    TrimOfTrimmed(s);
    assert PyInt(s) == SignedDigits(s);
    if i >= 0 {
      DigitsValueOfShowNat(i);
    } else {
      DigitsValueOfShowNat(-i);
      assert !AllDigits(s) by { assert !IsDigit(s[0]); }
    }
  }

  /** The pieces that are not empty (`if id`), in order. */
  function NonEmpty(pieces: seq<string>): (r: seq<string>)
    ensures forall x :: x in r <==> x in pieces && x != ""
    ensures (forall i :: 0 <= i < |pieces| ==> pieces[i] != "") ==> r == pieces
    decreases |pieces|
  {
    if |pieces| == 0 then []
    else if pieces[0] == "" then NonEmpty(pieces[1..])
    else
      assert pieces == [pieces[0]] + pieces[1..];
      [pieces[0]] + NonEmpty(pieces[1..])
  }

  /** `int` applied to every piece; `None` as soon as one raises. */
  function ParseAll(pieces: seq<string>): (r: Option<seq<int>>)
    ensures r.Some? <==> forall i :: 0 <= i < |pieces| ==> PyInt(pieces[i]).Some?
    ensures r.Some? ==> |r.value| == |pieces|
    ensures r.Some? ==> forall i :: 0 <= i < |pieces| ==> PyInt(pieces[i]) == Some(r.value[i])
  {
    Traverse(PyInt, pieces)
  }

  /** `[int(id) for id in productos_ids.split(",") if id]`. */
  function ParseIds(s: string): (r: Option<seq<int>>)
    ensures r.Some? ==> |r.value| <= |s|
  {
    var pieces := NonEmpty(Split(s, ','));
    PiecesBound(s, Split(s, ','), pieces);
    ParseAll(pieces)
  }

  /** Each non-empty piece takes at least one character of the text. */
  lemma PiecesBound(s: string, parts: seq<string>, pieces: seq<string>)
    requires parts == Split(s, ',') && pieces == NonEmpty(parts)
    ensures |pieces| <= |s|
  {
    NonEmptyLength(parts);
    JoinLength(parts, ",");
  }

  function Weight(parts: seq<string>): nat
    decreases |parts|
  {
    if |parts| == 0 then 0 else (if parts[0] == "" then 0 else 1) + Weight(parts[1..])
  }

  lemma {:induction false} NonEmptyLength(parts: seq<string>)
    ensures |NonEmpty(parts)| == Weight(parts)
    decreases |parts|
  {
    if |parts| > 0 {
      NonEmptyLength(parts[1..]);
    }
  }

  lemma {:induction false} JoinLength(parts: seq<string>, sep: string)
    ensures Weight(parts) <= |Join(parts, sep)|
    decreases |parts|
  {
    if |parts| > 1 {
      JoinLength(parts[1..], sep);
    }
  }

  function ShowAll(ids: seq<int>): (ts: seq<string>)
    ensures |ts| == |ids|
    ensures forall i :: 0 <= i < |ids| ==> ts[i] == ShowInt(ids[i])
  {
    seq(|ids|, i requires 0 <= i < |ids| => ShowInt(ids[i]))
  }

  /** An id list rendered with commas parses back to itself. */
  lemma ParseIdsRoundTrip(ids: seq<int>)
    ensures ParseIds(Join(ShowAll(ids), ",")) == Some(ids)
  {
    var ts := ShowAll(ids);
    if |ids| == 0 {
      assert Split("", ',') == [""];
    } else {
      forall i | 0 <= i < |ts| ensures ',' !in ts[i] && ts[i] != "" {
        ShowIntHasNoComma(ids[i]);
      }
      SplitJoin(ts, ',');
      assert NonEmpty(Split(Join(ts, ","), ',')) == ts;
      forall i | 0 <= i < |ts| ensures PyInt(ts[i]) == Some(ids[i]) {
        PyIntOfShowInt(ids[i]);
      }
      var r := ParseAll(ts);
      assert r.Some?;
      assert r.value == ids;
    }
  }

  lemma ShowIntHasNoComma(i: int)
    ensures ',' !in ShowInt(i)
  {
    var s := ShowInt(i);
    if i < 0 {
      forall k | 1 <= k < |s| ensures IsDigit(s[k]) {
        assert s[k] == s[1..][k - 1];
      }
    }
    assert forall k :: 0 <= k < |s| ==> s[k] != ',';
  }

  /** Empty pieces are dropped and order is kept. */
  lemma ParseIdsDropsEmpty()
    ensures ParseIds("1,,2") == Some([1, 2])
  {
    SplitExample();
    NonEmptyExample();
    ParseAllExample();
  }

  lemma NonEmptyExample()
    ensures NonEmpty(["1", "", "2"]) == ["1", "2"]
  {
    assert ["1", "", "2"][1..] == ["", "2"];
    assert ["", "2"][1..] == ["2"];
  }

  lemma ParseAllExample()
    ensures ParseAll(["1", "2"]) == Some([1, 2])
  {
    OneDigit('1');
    OneDigit('2');
    assert PyInt("2") == Some(2);
    assert PyInt("1") == Some(1);
    var r := ParseAll(["1", "2"]);
    assert r.Some?;
    assert r.value[0] == 1 && r.value[1] == 2;
    assert r.value == [1, 2];
  }

  lemma SplitExample()
    ensures Split("1,,2", ',') == ["1", "", "2"]
  {
    SplitNoSeparator("2", ',');
    SplitAfterPart("", ',', "2");
    assert ",2" == "" + [','] + "2";
    SplitAfterPart("1", ',', ",2");
    assert "1,,2" == "1" + [','] + ",2";
  }

  /** A single digit reads as its value. */
  lemma OneDigit(c: char)
    requires IsDigit(c)
    ensures PyInt([c]) == Some(DigitValue(c))
  {
    assert AllDigits([c]);
    assert DigitsValue([c]) == DigitValue(c) by {
      assert [c][..0] == [];
    }
  }

  /** An empty field gives the empty list (a 400 in the form route). */
  lemma ParseIdsEmpty()
    ensures ParseIds("") == Some([])
  {
    assert Split("", ',') == [""];
  }

  /** A piece that is not a number makes the whole parse fail. */
  lemma ParseIdsRejectsWord()
    ensures ParseIds("1,x") == None
  {
    SplitAfterPart("1", ',', "x");
    SplitNoSeparator("x", ',');
    assert Split("1,x", ',') == ["1", "x"] by {
      assert "1,x" == "1" + [','] + "x";
    }
    assert NonEmpty(["1", "x"]) == ["1", "x"];
    assert !IsDigit("x"[0]);
  }

  // ------------------------------------------------------------ lookups

  /** `table("productos").select("*").in_("id", ids)`: the rows whose id is
      requested. The query fixes no order; the model takes table order. */
  function Matching(ps: seq<ProductoRow>, ids: seq<int>): (r: seq<ProductoRow>)
    ensures forall p :: p in r <==> p in ps && p.id in ids
    ensures |r| <= |ps|
    decreases |ps|
  {
    if |ps| == 0 then []
    else
      assert ps == [ps[0]] + ps[1..];
      (if ps[0].id in ids then [ps[0]] else []) + Matching(ps[1..], ids)
  }

  /** The meal type named in the prompt: the looked-up name when a truthy
      (non-zero) id is given and found, `cualquiera` otherwise. */
  function TipoNombre(tipos: map<int, string>, tipoComidaId: Option<int>): (n: string)
    ensures tipoComidaId.Some? && tipoComidaId.value != 0 && tipoComidaId.value in tipos ==> n == tipos[tipoComidaId.value]
    ensures tipoComidaId.None? || tipoComidaId.value == 0 || tipoComidaId.value !in tipos ==> n == TipoPorDefecto
  {
    match tipoComidaId
    case Some(id) => if id != 0 && id in tipos then tipos[id] else TipoPorDefecto
    case None => TipoPorDefecto
  }

  // ------------------------------------------------------------ storing

  /** `json.dumps` of a list of integers. */
  function JsonIntList(ids: seq<int>): (t: string)
    ensures StartsWith(t, "[") && EndsWith(t, "]")
    ensures forall i :: 0 <= i < |ids| ==> Contains(t, ShowInt(ids[i]))
  {
    var body := Join(ShowAll(ids), ", ");
    var t := "[" + body + "]";
    assert OccursAt(t, body, 1);
    forall i | 0 <= i < |ids| ensures Contains(t, ShowInt(ids[i])) {
      JoinContainsPart(ShowAll(ids), ", ", i);
      ContainsTransitive(t, body, ShowInt(ids[i]));
    }
    t
  }

  /** The relation rows for one recipe: one per requested id, quantity 1. */
  function Relaciones(recetaId: int, ids: seq<int>): (rs: seq<Relacion>)
    ensures |rs| == |ids|
    ensures forall i :: 0 <= i < |ids| ==> rs[i] == Relacion(recetaId, ids[i], 1)
  {
    seq(|ids|, i requires 0 <= i < |ids| => Relacion(recetaId, ids[i], 1))
  }

  /** The recipe row built from the parsed answer. */
  function RecetaDe(id: int, r: Receta, porciones: int, tipoComidaId: Option<int>): (row: RecetaRow)
    ensures row.id == id && row.generadaPorIa
    ensures row.instrucciones == r.textoCompleto && row.promptIa == r.prompt
    ensures row.nombre == r.nombre && row.descripcion == r.descripcion && row.tiempoPreparacion == r.tiempo
  {
    RecetaRow(id, r.nombre, r.descripcion, r.textoCompleto, r.tiempo, porciones, tipoComidaId, true, r.prompt)
  }

  /** Insert the recipe and its relations; the new recipe takes the next id. */
  function Store(db: Db, r: Receta, porciones: int, tipoComidaId: Option<int>, ids: seq<int>): (db': Db)
    ensures db'.productos == db.productos && db'.tipos == db.tipos && db'.recomendaciones == db.recomendaciones
    ensures db'.nextRecetaId == db.nextRecetaId + 1
    ensures db'.recetas == db.recetas + [RecetaDe(db.nextRecetaId, r, porciones, tipoComidaId)]
    ensures |db'.relaciones| == |db.relaciones| + |ids|
    ensures db'.relaciones[..|db.relaciones|] == db.relaciones
    ensures forall i :: 0 <= i < |ids| ==> db'.relaciones[|db.relaciones| + i] == Relacion(db.nextRecetaId, ids[i], 1)
  {
    var id := db.nextRecetaId;
    db.(recetas := db.recetas + [RecetaDe(id, r, porciones, tipoComidaId)],
        relaciones := db.relaciones + Relaciones(id, ids),
        nextRecetaId := id + 1)
  }

  // ------------------------------------------------------------ routes

  /** `POST /generar-receta`. */
  function ProcesarGenerarReceta(db: Db, productosIds: string, tipoComidaId: Option<int>, porciones: Option<int>, ai: AiAnswer): (out: (Reply, Db))
    ensures ParseIds(productosIds).None? ==> out == (Unhandled, db)
    ensures ParseIds(productosIds) == Some([]) ==> out == (HttpError(400, SinProductos), db)
    ensures out.0.HttpError? && out.0.status == 404 <==>
      (match ParseIds(productosIds)
       case Some(ids) => |ids| > 0 && |Matching(db.productos, ids)| == 0
       case None => false)
    ensures out.0.HttpError? && out.0.status == 500 <==>
      (match ParseIds(productosIds)
       case Some(ids) => |ids| > 0 && |Matching(db.productos, ids)| > 0 && ai.AiFails?
       case None => false)
    ensures out.0.HttpError? && out.0.status == 500 ==> out.0.detail == ErrorGenerando + ErrorPrefix + ai.message
    ensures !out.0.Redirect? ==> out.1 == db
    ensures out.0.Redirect? ==>
      ParseIds(productosIds).Some?
      && out.0.url == "/recetas/" + ShowInt(db.nextRecetaId)
      && out.1.recomendaciones == db.recomendaciones + [Recomendacion(JsonIntList(ParseIds(productosIds).value), db.nextRecetaId, Confianza, Modelo)]
      && |out.1.relaciones| == |db.relaciones| + |ParseIds(productosIds).value|
  {
    match ParseIds(productosIds)
    case None => (Unhandled, db)
    case Some(ids) =>
      if |ids| == 0 then (HttpError(400, SinProductos), db)
      else
        var productos := Matching(db.productos, ids);
        if |productos| == 0 then (HttpError(404, NoEncontrados), db)
        else
          var n := porciones.GetOr(PorcionesPorDefecto);
          match GenerarRecetaConIa(productos, TipoNombre(db.tipos, tipoComidaId), n, ai)
          case GenerationError(m) => (HttpError(500, ErrorGenerando + m), db)
          case Generated(r) =>
            var id := db.nextRecetaId;
            var db1 := Store(db, r, n, tipoComidaId, ids);
            var rec := Recomendacion(JsonIntList(ids), id, Confianza, Modelo);
            (Redirect("/recetas/" + ShowInt(id)), db1.(recomendaciones := db1.recomendaciones + [rec]))
  }

  /** `POST /api/recetas/generar`. */
  function ApiGenerarReceta(db: Db, body: ApiBody, ai: AiAnswer): (out: (Reply, Db))
    ensures var ids := body.productosIds.GetOr([]);
      out.0.HttpError? && out.0.status == 404 <==> |Matching(db.productos, ids)| == 0
    ensures out.0.HttpError? && out.0.status == 500 ==> ai.AiFails? && out.0.detail == ErrorGenerando + ErrorPrefix + ai.message
    ensures |Matching(db.productos, body.productosIds.GetOr([]))| > 0 ==>
      && (out.0.RecetaJson? <==> ai.AiText?)
      && (ai.AiFails? ==> out.0 == HttpError(500, ErrorGenerando + ErrorPrefix + ai.message))
    ensures !out.0.RecetaJson? ==> out.1 == db
    ensures out.0.RecetaJson? ==>
      out.1.recomendaciones == db.recomendaciones
      && out.1.recetas == db.recetas + [out.0.receta]
      && out.0.receta.id == db.nextRecetaId && out.0.receta.tipoComidaId.None?
      && out.0.receta.porciones == body.porciones.GetOr(PorcionesPorDefecto)
      && out.0.productosUtilizados == Matching(db.productos, body.productosIds.GetOr([]))
      && ai.AiText? && out.0.textoGenerado == ai.text
  {
    var ids := body.productosIds.GetOr([]);
    var productos := Matching(db.productos, ids);
    if |productos| == 0 then (HttpError(404, NoEncontrados), db)
    else
      var n := body.porciones.GetOr(PorcionesPorDefecto);
      match GenerarRecetaConIa(productos, body.tipoComida.GetOr(TipoPorDefecto), n, ai)
      case GenerationError(m) => (HttpError(500, ErrorGenerando + m), db)
      case Generated(r) =>
        var db1 := Store(db, r, n, None, ids);
        (RecetaJson(RecetaDe(db.nextRecetaId, r, n, None), r.textoCompleto, productos), db1)
  }

  // ------------------------------------------------------------ properties

  /** A redirect happens exactly when the ids parse to a non-empty list,
      one of them names a product and the model answers. */
  lemma RedirectIff(db: Db, productosIds: string, tipoComidaId: Option<int>, porciones: Option<int>, ai: AiAnswer)
    ensures ProcesarGenerarReceta(db, productosIds, tipoComidaId, porciones, ai).0.Redirect? <==>
      (match ParseIds(productosIds)
       case Some(ids) => |ids| > 0 && |Matching(db.productos, ids)| > 0 && ai.AiText?
       case None => false)
  {
  }

  /** Every requested id gets its relation row, even one that names no
      product. */
  lemma UnmatchedIdsStillRelated(db: Db, productosIds: string, tipoComidaId: Option<int>, porciones: Option<int>, ai: AiAnswer, k: nat)
    requires ProcesarGenerarReceta(db, productosIds, tipoComidaId, porciones, ai).0.Redirect?
    requires k < |ParseIds(productosIds).value|
    ensures Relacion(db.nextRecetaId, ParseIds(productosIds).value[k], 1)
      in ProcesarGenerarReceta(db, productosIds, tipoComidaId, porciones, ai).1.relaciones
  {
    var out := ProcesarGenerarReceta(db, productosIds, tipoComidaId, porciones, ai);
    assert out.1.relaciones[|db.relaciones| + k] == Relacion(db.nextRecetaId, ParseIds(productosIds).value[k], 1);
  }

  /** Without a meal type and servings, the form route stores the same
      recipe and relations as the JSON route given the same ids without a
      meal type and servings; only the form route records the request. */
  lemma FormAgreesWithApi(db: Db, ids: seq<int>, ai: AiAnswer)
    requires |ids| > 0
    ensures var form := ProcesarGenerarReceta(db, Join(ShowAll(ids), ","), None, None, ai);
      var api := ApiGenerarReceta(db, ApiBody(Some(ids), None, None), ai);
      form.1.recetas == api.1.recetas && form.1.relaciones == api.1.relaciones
      && (form.0.Redirect? <==> api.0.RecetaJson?)
  {
    ParseIdsRoundTrip(ids);
  }
}

=== FILE: recipe_text.dfy ===
/** The text side of the recipe generator: the product list and the prompt
    sent to the language model, and the parsing of its answer into a name,
    a description and a preparation time. The model call itself is a
    parameter (its answer text, or the failure it raised). */
module RecipeText {
  import opened Values
  import opened Text

  /** A product row as the prompt reads it. */
  datatype ProductoRow = ProductoRow(id: int, nombre: string, cantidadStock: int, fechaCaducidad: string)

  /** The parsed recipe. */
  datatype Receta = Receta(nombre: string, descripcion: string, tiempo: nat, textoCompleto: string, prompt: string)

  /** What the model call did: answered with a text, or raised an error
      whose text is given. */
  datatype AiAnswer = AiText(text: string) | AiFails(message: string)

  datatype Generated = Generated(receta: Receta) | GenerationError(message: string)

  const NombrePorDefecto := "Receta Generada por IA"
  const DescripcionPorDefecto := "Receta creada para reducir " + "desperdicio alimentario"
  const TiempoPorDefecto := 30

  const NombreMarker := "NOMBRE:"
  const DescripcionMarker := "DESCRIPCIÓN:"
  const TiempoMarker := "TIEMPO:"

  const ErrorPrefix := "Error al generar receta con OpenAI: "

  // ------------------------------------------------------------ prompt

  /** One product as the prompt lists it: `nombre (N unidades, vence: F)`. */
  function Entry(p: ProductoRow): (e: string)
    ensures StartsWith(e, p.nombre)
  {
    p.nombre + " (" + ShowInt(p.cantidadStock) + " unidades, vence: " + p.fechaCaducidad + ")"
  }

  function Entries(ps: seq<ProductoRow>): (es: seq<string>)
    ensures |es| == |ps|
    ensures forall i :: 0 <= i < |ps| ==> es[i] == Entry(ps[i])
  {
    seq(|ps|, i requires 0 <= i < |ps| => Entry(ps[i]))
  }

  /** The products joined with ", ". */
  function ProductosTexto(ps: seq<ProductoRow>): (t: string)
    ensures forall i :: 0 <= i < |ps| ==> Contains(t, Entry(ps[i]))
    ensures |ps| == 0 ==> t == ""
  {
    var es := Entries(ps);
    forall i | 0 <= i < |ps| ensures Contains(Join(es, ", "), Entry(ps[i])) {
      JoinContainsPart(es, ", ", i);
    }
    Join(es, ", ")
  }

  /** The prompt is a triple-quoted block: its lines are separated by a
      line break and the four spaces of indentation. */
  const Indent := "\n    "

  /** The template lines before the product list (the block opens with a
      line break, hence the empty first line). */
  const HeadLines: seq<string> := ["", "Eres un chef experto en reducir desperdicio alimentario. ", "",
    "Tengo estos productos que están próximos a vencer:"]

  /** The template lines after the number of servings: the request and the
      answer format the parser relies on (the block closes on an
      indentation-only line, hence the empty last line). */
  const TailLines: seq<string> := ["",
    "Por favor, genera una receta que:",
    "1. Use la mayoría de estos productos",
    "2. Sea deliciosa y nutritiva",
    "3. Ayude a evitar el desperdicio",
    "4. Sea fácil de preparar",
    "",
    "Formato de respuesta:",
    "NOMBRE: [nombre de la receta]",
    "DESCRIPCIÓN: [breve descripción]",
    "TIEMPO: [tiempo en minutos]",
    "INGREDIENTES:",
    "- [ingrediente 1]",
    "- [ingrediente 2]",
    "...",
    "INSTRUCCIONES:",
    "1. [paso 1]",
    "2. [paso 2]",
    "...",
    ""]

  function TipoLine(tipoComida: string): string { "Tipo de comida deseada: " + tipoComida }

  function PorcionesLine(porciones: int): string { "Porciones: " + ShowInt(porciones) }

  /** The lines of the prompt with the product list, the meal type and the
      servings filled in. */
  function PromptLines(productosTexto: string, tipoComida: string, porciones: int): (ls: seq<string>)
    ensures |ls| == |HeadLines| + 4 + |TailLines|
    ensures ls[|HeadLines|] == productosTexto
    ensures ls[|HeadLines| + 2] == TipoLine(tipoComida)
    ensures ls[|HeadLines| + 3] == PorcionesLine(porciones)
  {
    HeadLines + [productosTexto, "", TipoLine(tipoComida), PorcionesLine(porciones)] + TailLines
  }

  /** The prompt; it carries the product list, the meal type and the
      servings, each on a line of its own. */
  function Prompt(productosTexto: string, tipoComida: string, porciones: int): (p: string)
    ensures Contains(p, productosTexto)
    ensures Contains(p, TipoLine(tipoComida))
    ensures Contains(p, PorcionesLine(porciones))
  {
    var ls := PromptLines(productosTexto, tipoComida, porciones);
    JoinContainsPart(ls, Indent, |HeadLines|);
    JoinContainsPart(ls, Indent, |HeadLines| + 2);
    JoinContainsPart(ls, Indent, |HeadLines| + 3);
    Join(ls, Indent)
  }

  // ------------------------------------------------------------ scanning

  /** Past the whitespace starting at `i` (what `\s*` consumes). */
  function SkipSpaces(s: string, i: nat): (k: nat)
    requires i <= |s|
    ensures i <= k <= |s|
    ensures forall j :: i <= j < k ==> IsSpace(s[j])
    ensures k < |s| ==> !IsSpace(s[k])
    decreases |s| - i
  {
    if i < |s| && IsSpace(s[i]) then SkipSpaces(s, i + 1) else i
  }

  /** The end of the line starting at `i` (what `.*` consumes). */
  function LineEnd(s: string, i: nat): (k: nat)
    requires i <= |s|
    ensures i <= k <= |s|
    ensures forall j :: i <= j < k ==> s[j] != '\n'
    ensures k < |s| ==> s[k] == '\n'
    decreases |s| - i
  {
    if i < |s| && s[i] != '\n' then LineEnd(s, i + 1) else i
  }

  /** The end of the run of digits starting at `i` (what `\d+` consumes). */
  function DigitsEnd(s: string, i: nat): (k: nat)
    requires i <= |s|
    ensures i <= k <= |s|
    ensures forall j :: i <= j < k ==> IsDigit(s[j])
    ensures k < |s| ==> !IsDigit(s[k])
    decreases |s| - i
  {
    if i < |s| && IsDigit(s[i]) then DigitsEnd(s, i + 1) else i
  }

  /** `re.search(marker + r"\s*(.*)", s).group(1).strip()`: at the first
      occurrence of the marker, past any whitespace (line breaks included),
      the rest of that line, stripped. */
  function MarkerLine(s: string, marker: string): (r: Option<string>)
    ensures r.Some? <==> Contains(s, marker)
    ensures r.Some? ==> '\n' !in r.value
    ensures r.Some? && |r.value| > 0 ==> !IsSpace(r.value[0]) && !IsSpace(r.value[|r.value| - 1])
  {
    match Find(s, marker)
    case None => None
    case Some(j) => Some(LineValue(s, SkipSpaces(s, j + |marker|)))
  }

  /** The rest of the line from `k`, stripped. */
  function LineValue(s: string, k: nat): (v: string)
    requires k <= |s|
    ensures '\n' !in v
    ensures |v| > 0 ==> !IsSpace(v[0]) && !IsSpace(v[|v| - 1])
  {
    var line := s[k..LineEnd(s, k)];
    assert '\n' !in line;
    var v := Trim(line);
    assert '\n' !in v by {
      if '\n' in v { ContainedChars(line, v, '\n'); }
    }
    v
  }

  /** `re.search(r"TIEMPO:\s*(\d+)", s)` from position `i`: the first
      occurrence of the marker followed (past whitespace) by a digit, and
      the number its digits spell. */
  function TiempoFrom(s: string, i: nat): (r: Option<nat>)
    requires i <= |s|
    ensures r.Some? ==> Contains(s, TiempoMarker)
    decreases |s| - i
  {
    match FindFrom(s, TiempoMarker, i)
    case None => None
    case Some(j) =>
      var k := SkipSpaces(s, j + |TiempoMarker|);
      if k < |s| && IsDigit(s[k]) then
        assert OccursAt(s, TiempoMarker, j);
        Some(DigitsValue(s[k..DigitsEnd(s, k)]))
      else TiempoFrom(s, j + 1)
  }

  /** The parsing step of `generar_receta_con_ia`. */
  function ParseRespuesta(text: string, prompt: string): (r: Receta)
    ensures r.textoCompleto == text && r.prompt == prompt
    ensures !Contains(text, NombreMarker) ==> r.nombre == NombrePorDefecto
    ensures !Contains(text, DescripcionMarker) ==> r.descripcion == DescripcionPorDefecto
    ensures !Contains(text, TiempoMarker) ==> r.tiempo == TiempoPorDefecto
    ensures Contains(text, NombreMarker) ==> '\n' !in r.nombre
    ensures Contains(text, DescripcionMarker) ==> '\n' !in r.descripcion
  {
    Receta(
      MarkerLine(text, NombreMarker).GetOr(NombrePorDefecto),
      MarkerLine(text, DescripcionMarker).GetOr(DescripcionPorDefecto),
      TiempoFrom(text, 0).GetOr(TiempoPorDefecto),
      text,
      prompt)
  }

  /** `generar_receta_con_ia`: the prompt is built, the model answers, the
      answer is parsed; a failure is re-raised with a fixed prefix. */
  function GenerarRecetaConIa(ps: seq<ProductoRow>, tipoComida: string, porciones: int, ai: AiAnswer): (g: Generated)
    ensures ai.AiFails? <==> g.GenerationError?
    ensures ai.AiFails? ==> g.message == ErrorPrefix + ai.message
    ensures ai.AiText? ==> g.receta.textoCompleto == ai.text
  {
    match ai
    case AiFails(m) => GenerationError(ErrorPrefix + m)
    case AiText(t) => Generated(ParseRespuesta(t, Prompt(ProductosTexto(ps), tipoComida, porciones)))
  }

  /** The prompt of a generated recipe lists every product, and names the
      meal type and the servings. */
  lemma GeneratedPromptListsProducts(ps: seq<ProductoRow>, tipoComida: string, porciones: int, ai: AiAnswer)
    requires ai.AiText?
    ensures var p := GenerarRecetaConIa(ps, tipoComida, porciones, ai).receta.prompt;
      (forall i :: 0 <= i < |ps| ==> Contains(p, Entry(ps[i])))
      && Contains(p, TipoLine(tipoComida)) && Contains(p, PorcionesLine(porciones))
  {
    var t := ProductosTexto(ps);
    var p := Prompt(t, tipoComida, porciones);
    assert GenerarRecetaConIa(ps, tipoComida, porciones, ai).receta.prompt == p;
    forall i | 0 <= i < |ps| ensures Contains(p, Entry(ps[i])) {
      ContainsTransitive(p, t, Entry(ps[i]));
    }
  }

  // ------------------------------------------------------------ round trips

  /** A value that reads back unchanged: non-empty, on one line, with
      nothing to strip. */
  predicate LineValueShape(v: string) {
    |v| > 0 && !IsSpace(v[0]) && !IsSpace(v[|v| - 1]) && '\n' !in v
  }

  /** The marker, any whitespace, then a value ending its line gives the
      value back, whatever follows the line. */
  lemma MarkerLineRoundTrip(marker: string, gap: string, value: string, rest: string)
    requires AllSpace(gap) && LineValueShape(value)
    ensures MarkerLine(marker + gap + value + "\n" + rest, marker) == Some(value)
  {
    var s := marker + gap + value + "\n" + rest;
    Pieces(marker, gap, value, "\n", rest);
    assert Find(s, marker) == Some(0) by {
      assert OccursAt(s, marker, 0);
    }
    ValueAfterGap(s, 0, marker, gap, value);
  }

  /** Where the pieces of a five-part concatenation sit. */
  lemma Pieces(a: string, b: string, c: string, d: string, e: string)
    ensures var s := a + b + c + d + e;
      && s[..|a|] == a
      && s[|a|..|a| + |b|] == b
      && s[|a| + |b|..|a| + |b| + |c|] == c
      && s[|a| + |b| + |c|..|a| + |b| + |c| + |d|] == d
      && s[|a| + |b| + |c| + |d|..] == e
  {
  }

  /** The value read after a marker the search found at `j`: past the
      whitespace `gap`, the value up to its line break. */
  lemma ValueAfterGap(s: string, j: nat, marker: string, gap: string, value: string)
    requires AllSpace(gap) && LineValueShape(value)
    requires Find(s, marker) == Some(j)
    requires var k := j + |marker| + |gap|;
      && k + |value| < |s|
      && s[j + |marker|..k] == gap
      && s[k..k + |value|] == value
      && s[k + |value|] == '\n'
    ensures MarkerLine(s, marker) == Some(value)
  {
    var m := j + |marker|;
    var k := m + |gap|;
    assert SkipSpaces(s, m) == k by {
      forall i | m <= i < k ensures IsSpace(s[i]) {
        assert s[i] == s[m..k][i - m];
      }
      assert s[k] == s[k..k + |value|][0];
      SkipSpacesAt(s, m, k);
    }
    assert LineValue(s, k) == value by {
      LineOfValue(s, k, value);
      TrimOfTrimmed(value);
    }
    MarkerValue(s, marker, j, k, value);
  }

  /** `MarkerLine` once the marker, the start of the value and the value
      are known. */
  lemma MarkerValue(s: string, marker: string, j: nat, k: nat, value: string)
    requires Find(s, marker) == Some(j) && j + |marker| <= |s|
    requires SkipSpaces(s, j + |marker|) == k && LineValue(s, k) == value
    ensures MarkerLine(s, marker) == Some(value)
  {
    MarkerLineAt(s, marker, j);
  }

  /** An empty value is not taken: `\s*` runs over the line break and the
      next line is read instead. */
  lemma EmptyValueTakesNextLine(marker: string, value: string, rest: string)
    requires LineValueShape(value)
    ensures MarkerLine(marker + "\n" + value + "\n" + rest, marker) == Some(value)
  {
    MarkerLineRoundTrip(marker, "\n", value, rest);
  }

  /** How `MarkerLine` reads once the marker has been found. */
  lemma MarkerLineAt(s: string, marker: string, j: nat)
    requires Find(s, marker) == Some(j)
    ensures j + |marker| <= |s|
    ensures var k := SkipSpaces(s, j + |marker|);
      MarkerLine(s, marker) == Some(LineValue(s, k))
  {
    assert OccursAt(s, marker, j);
  }

  lemma {:induction false} SkipSpacesAt(s: string, i: nat, k: nat)
    requires i <= k < |s| && !IsSpace(s[k])
    requires forall j :: i <= j < k ==> IsSpace(s[j])
    ensures SkipSpaces(s, i) == k
    decreases k - i
  {
    if i < k {
      SkipSpacesAt(s, i + 1, k);
    }
  }

  lemma LineOfValue(s: string, i: nat, value: string)
    requires '\n' !in value && i + |value| < |s|
    requires s[i..i + |value|] == value && s[i + |value|] == '\n'
    ensures LineEnd(s, i) == i + |value|
    ensures s[i..LineEnd(s, i)] == value
  {
    forall j | i <= j < i + |value| ensures s[j] != '\n' {
      assert s[j] == s[i..i + |value|][j - i];
    }
    LineEndAt(s, i, i + |value|);
  }

  lemma {:induction false} LineEndAt(s: string, i: nat, k: nat)
    requires i <= k < |s| && s[k] == '\n'
    requires forall j :: i <= j < k ==> s[j] != '\n'
    ensures LineEnd(s, i) == k
    decreases k - i
  {
    if i < k {
      LineEndAt(s, i + 1, k);
    }
  }

  /** An answer that opens with the name and the description lines reads
      both back. */
  lemma NombreDescripcionRoundTrip(nombre: string, descripcion: string, rest: string)
    requires LineValueShape(nombre) && LineValueShape(descripcion)
    requires !Contains(nombre, DescripcionMarker)
    ensures var r := ParseRespuesta(NombreMarker + " " + nombre + "\n" + (DescripcionMarker + " " + descripcion + "\n" + rest), "");
      r.nombre == nombre && r.descripcion == descripcion
  {
    var tail := DescripcionMarker + " " + descripcion + "\n" + rest;
    MarkerLineRoundTrip(NombreMarker, " ", nombre, tail);
    DescripcionAfterNombre(nombre, descripcion, rest);
  }

  lemma DescripcionAfterNombre(nombre: string, descripcion: string, rest: string)
    requires LineValueShape(nombre) && LineValueShape(descripcion)
    requires !Contains(nombre, DescripcionMarker)
    ensures var s := NombreMarker + " " + nombre + "\n" + (DescripcionMarker + " " + descripcion + "\n" + rest);
      MarkerLine(s, DescripcionMarker) == Some(descripcion)
  {
    var head := NombreMarker + " " + nombre + "\n";
    var tail := DescripcionMarker + " " + descripcion + "\n" + rest;
    var s := head + tail;
    Pieces(DescripcionMarker, " ", descripcion, "\n", rest);
    assert Find(s, DescripcionMarker) == Some(|head|) by {
      DescripcionFound(head, nombre, tail);
    }
    TailSlices(head, tail, |DescripcionMarker|, |DescripcionMarker| + 1, |DescripcionMarker| + 1 + |descripcion|);
    ValueAfterGap(s, |head|, DescripcionMarker, " ", descripcion);
  }

  /** Slices of the tail of a concatenation are slices of the whole. */
  lemma TailSlices(head: string, tail: string, i: nat, k: nat, e: nat)
    requires i <= k <= e < |tail|
    ensures var s := head + tail;
      && s[|head| + i..|head| + k] == tail[i..k]
      && s[|head| + k..|head| + e] == tail[k..e]
      && s[|head| + e] == tail[e]
  {
  }

  /** `DESCRIPCIÓN:` first occurs right after the name line, when the name
      does not carry it. */
  lemma DescripcionFound(head: string, nombre: string, tail: string)
    requires head == NombreMarker + " " + nombre + "\n"
    requires !Contains(nombre, DescripcionMarker) && StartsWith(tail, DescripcionMarker)
    ensures Find(head + tail, DescripcionMarker) == Some(|head|)
  {
    var s := head + tail;
    var d := DescripcionMarker;
    assert s[|head|..|head| + |d|] == tail[..|d|];
    assert OccursAt(s, d, |head|);
    forall j | 0 <= j < |head| ensures !OccursAt(s, d, j) {
      NoMarkerInHead(head, nombre, tail, j);
    }
    FirstOccurrence(s, d, |head|);
  }

  lemma NoMarkerInHead(head: string, nombre: string, tail: string, j: nat)
    requires head == NombreMarker + " " + nombre + "\n"
    requires !Contains(nombre, DescripcionMarker)
    requires j < |head|
    ensures !OccursAt(head + tail, DescripcionMarker, j)
  {
    var s := head + tail;
    var d := DescripcionMarker;
    var m := |NombreMarker| + 1;
    // the marker starts with 'D' and holds no line break, so it can only
    // occur inside the name
    if j + |d| <= |s| {
      var w := s[j..j + |d|];
      if j < m {
        assert s[j] == (NombreMarker + " ")[j];
        assert w[0] != d[0];
      } else if j + |d| > m + |nombre| {
        var b := m + |nombre| - j;
        assert s[j + b] == '\n';
        assert w[b] != d[b];
      } else {
        assert w == nombre[j - m..j - m + |d|];
        assert !OccursAt(nombre, d, j - m);
      }
    }
  }

  /** A search that finds nothing before a match finds the match. */
  lemma {:induction false} FirstOccurrence(s: string, t: string, k: nat)
    requires k <= |s| && OccursAt(s, t, k)
    requires forall j :: 0 <= j < k ==> !OccursAt(s, t, j)
    ensures Find(s, t) == Some(k)
  {
    FirstFrom(s, t, 0, k);
  }

  lemma {:induction false} FirstFrom(s: string, t: string, i: nat, k: nat)
    requires i <= k <= |s| && OccursAt(s, t, k)
    requires forall j :: i <= j < k ==> !OccursAt(s, t, j)
    ensures FindFrom(s, t, i) == Some(k)
    decreases k - i
  {
    if i < k {
      FirstFrom(s, t, i + 1, k);
    }
  }

  /** `TIEMPO:`, any whitespace and a number read back as the number, when
      no further digit follows. */
  lemma TiempoRoundTrip(gap: string, n: nat, rest: string)
    requires AllSpace(gap)
    requires |rest| == 0 || !IsDigit(rest[0])
    ensures TiempoFrom(TiempoMarker + gap + ShowNat(n) + rest, 0) == Some(n)
  {
    var d := ShowNat(n);
    var s := TiempoMarker + gap + d + rest;
    Pieces(TiempoMarker, gap, d, rest, "");
    assert s + "" == s;
    TiempoAfterGap(s, gap, n, rest);
  }

  lemma TiempoAfterGap(s: string, gap: string, n: nat, rest: string)
    requires AllSpace(gap)
    requires |rest| == 0 || !IsDigit(rest[0])
    requires var m := |TiempoMarker|; var k := m + |gap|; var d := ShowNat(n);
      && k + |d| + |rest| == |s|
      && s[..m] == TiempoMarker
      && s[m..k] == gap
      && s[k..k + |d|] == d
      && s[k + |d|..k + |d| + |rest|] == rest
    ensures TiempoFrom(s, 0) == Some(n)
  {
    var d := ShowNat(n);
    var m := |TiempoMarker|;
    var k := m + |gap|;
    assert FindFrom(s, TiempoMarker, 0) == Some(0) by {
      assert OccursAt(s, TiempoMarker, 0);
    }
    assert SkipSpaces(s, m) == k && IsDigit(s[k]) by {
      forall i | m <= i < k ensures IsSpace(s[i]) {
        assert s[i] == s[m..k][i - m];
      }
      assert s[k] == s[k..k + |d|][0];
      SkipSpacesAt(s, m, k);
    }
    assert k + |d| == |s| || !IsDigit(s[k + |d|]) by {
      if k + |d| < |s| {
        assert s[k + |d|] == s[k + |d|..k + |d| + |rest|][0];
      }
    }
    DigitsRead(s, k, n);
    TiempoValue(s, k, n);
  }

  /** The digits of a rendered number, followed by no further digit, read
      back as the number. */
  lemma DigitsRead(s: string, k: nat, n: nat)
    requires k + |ShowNat(n)| <= |s| && s[k..k + |ShowNat(n)|] == ShowNat(n)
    requires k + |ShowNat(n)| == |s| || !IsDigit(s[k + |ShowNat(n)|])
    ensures DigitsValue(s[k..DigitsEnd(s, k)]) == n
  {
    var d := ShowNat(n);
    forall j | k <= j < k + |d| ensures IsDigit(s[j]) {
      assert s[j] == s[k..k + |d|][j - k];
    }
    DigitsEndAt(s, k, k + |d|);
    DigitsValueOfShowNat(n);
  }

  /** `TiempoFrom` once the marker at the start, the first digit and the
      number are known. */
  lemma TiempoValue(s: string, k: nat, n: nat)
    requires FindFrom(s, TiempoMarker, 0) == Some(0) && |TiempoMarker| <= |s|
    requires SkipSpaces(s, |TiempoMarker|) == k && k < |s| && IsDigit(s[k])
    requires DigitsValue(s[k..DigitsEnd(s, k)]) == n
    ensures TiempoFrom(s, 0) == Some(n)
  {
  }

  lemma {:induction false} DigitsEndAt(s: string, i: nat, k: nat)
    requires i <= k <= |s| && (k == |s| || !IsDigit(s[k]))
    requires forall j :: i <= j < k ==> IsDigit(s[j])
    ensures DigitsEnd(s, i) == k
    decreases k - i
  {
    if i < k {
      DigitsEndAt(s, i + 1, k);
    }
  }
}

=== FILE: report_service.dfy ===
/** The report service of the alerts module: resolved alerts of a period,
    joined with their products, summed into savings statistics with an
    optional congratulation. */
module ReportService {
  import opened Values
  import opened Text
  import opened AlertaModel
  import opened AlertService

  /** One row of the report query: the alert with the product columns of the
      left join (`None` when no product matches or the column is null). */
  datatype ReportRow = ReportRow(alerta: Alerta, precioUnitario: Option<real>, cantidadStock: Option<real>)

  datatype Estadisticas = Estadisticas(productosSalvados: nat, dineroAhorrado: real, kgDesperdicioEvitado: real)

  datatype Recomendacion = Recomendacion(tipo: string, mensaje: string, accion: string)

  datatype Informe = Informe(estadisticas: Estadisticas, recomendaciones: seq<Recomendacion>)

  const EstadoResuelta := "resuelta"

  /** Estimated kilograms of food per stock unit. */
  const KgPerUnit := 0.5

  /** Recommendations are given above this many saved products. */
  const ExitoThreshold := 10

  /** The `WHERE` clause: resolved, created within [inicio, fin] (instants in
      seconds, bounds included). */
  predicate InPeriod(a: Alerta, inicio: int, fin: int) {
    inicio <= a.fechaCreacion <= fin && a.estado == EstadoResuelta
  }

  predicate Matches(p: Producto, a: Alerta) {
    a.productoId == Some(p.id)
  }

  /** The rows of the left join for one alert: one per matching product, or
      one with null product columns when there is none. */
  function JoinAlerta(a: Alerta, ps: seq<Producto>): (rows: seq<ReportRow>)
    ensures |rows| >= 1
    ensures forall r :: r in rows ==> r.alerta == a
    ensures (forall p :: p in ps ==> !Matches(p, a)) ==> rows == [ReportRow(a, None, None)]
  {
    var m := MatchRows(a, ps);
    if |m| == 0 then [ReportRow(a, None, None)] else m
  }

  function MatchRows(a: Alerta, ps: seq<Producto>): (rows: seq<ReportRow>)
    ensures |rows| <= |ps|
    ensures forall r :: r in rows ==> r.alerta == a && r.cantidadStock.Some?
    ensures |rows| == 0 <==> forall p :: p in ps ==> !Matches(p, a)
    ensures forall p :: p in ps && Matches(p, a) ==> ReportRow(a, p.precioUnitario, Some(p.cantidadStock)) in rows
  {
    if |ps| == 0 then []
    else
      (if Matches(ps[0], a) then [ReportRow(a, ps[0].precioUnitario, Some(ps[0].cantidadStock))] else [])
      + MatchRows(a, ps[1..])
  }

  /** `obtenerAlertasResueltas`, in table order. */
  function ObtenerAlertasResueltas(alertas: seq<Alerta>, ps: seq<Producto>, inicio: int, fin: int): (rows: seq<ReportRow>)
    ensures forall r :: r in rows ==> r.alerta in alertas && InPeriod(r.alerta, inicio, fin)
    ensures forall a :: a in alertas && InPeriod(a, inicio, fin) ==> exists r :: r in rows && r.alerta == a
    decreases |alertas|
  {
    if |alertas| == 0 then []
    else
      var rest := ObtenerAlertasResueltas(alertas[1..], ps, inicio, fin);
      var here := if InPeriod(alertas[0], inicio, fin) then JoinAlerta(alertas[0], ps) else [];
      assert forall a :: a in alertas ==> a == alertas[0] || a in alertas[1..];
      assert InPeriod(alertas[0], inicio, fin) ==> here[0] in here + rest;
      here + rest
  }

  /** The product-column defaults of the statistics loop (`?? 0`). */
  function Precio(r: ReportRow): real { r.precioUnitario.GetOr(0.0) }
  function Stock(r: ReportRow): real { r.cantidadStock.GetOr(0.0) }

  /** Reference sums over a list of rows, taken from the end. */
  function MoneySum(rows: seq<ReportRow>): real
    decreases |rows|
  {
    if |rows| == 0 then 0.0 else MoneySum(rows[..|rows| - 1]) + Precio(rows[|rows| - 1]) * Stock(rows[|rows| - 1])
  }

  function StockSum(rows: seq<ReportRow>): real
    decreases |rows|
  {
    if |rows| == 0 then 0.0 else StockSum(rows[..|rows| - 1]) + Stock(rows[|rows| - 1])
  }

  /** `calcularEstadisticas`: one saved product per row, money as price times
      stock, half a kilogram per unit of stock. */
  method CalcularEstadisticas(rows: seq<ReportRow>) returns (e: Estadisticas)
    ensures e.productosSalvados == |rows|
    ensures e.dineroAhorrado == MoneySum(rows)
    ensures e.kgDesperdicioEvitado == KgPerUnit * StockSum(rows)
  {
    var n := 0;
    var dinero := 0.0;
    var kg := 0.0;
    var i := 0;
    while i < |rows|
      invariant 0 <= i <= |rows| && n == i
      invariant dinero == MoneySum(rows[..i])
      invariant kg == KgPerUnit * StockSum(rows[..i])
    {
      var r := rows[i];
      assert rows[..i + 1][..i] == rows[..i];
      n := n + 1;
      dinero := dinero + Precio(r) * Stock(r);
      kg := kg + Stock(r) * KgPerUnit;
      i := i + 1;
    }
    assert rows[..i] == rows;
    e := Estadisticas(n, dinero, kg);
  }

  lemma {:induction false} SumsNonNegative(rows: seq<ReportRow>)
    requires forall r :: r in rows ==> Precio(r) >= 0.0 && Stock(r) >= 0.0
    ensures MoneySum(rows) >= 0.0 && StockSum(rows) >= 0.0
    decreases |rows|
  {
    if |rows| > 0 {
      var init := rows[..|rows| - 1];
      assert forall r :: r in init ==> r in rows;
      SumsNonNegative(init);
      assert rows[|rows| - 1] in rows;
    }
  }

  const ExitoPrefix := "¡Excelente trabajo! Has salvado "
  const ExitoSuffix := " productos del desperdicio."

  /** `generarRecomendaciones`: one `exito` entry, naming the count, exactly
      when more than ten products were saved. */
  function GenerarRecomendaciones(e: Estadisticas): (rs: seq<Recomendacion>)
    ensures |rs| <= 1
    ensures |rs| == 1 <==> e.productosSalvados > ExitoThreshold
    ensures forall r :: r in rs ==> r.tipo == "exito" && Contains(r.mensaje, ShowNat(e.productosSalvados))
  {
    if e.productosSalvados > ExitoThreshold then
      var m := ExitoPrefix + ShowNat(e.productosSalvados) + ExitoSuffix;
      assert OccursAt(m, ShowNat(e.productosSalvados), |ExitoPrefix|);
      [Recomendacion("exito", m, "Continuar con las buenas prácticas")]
    else []
  }

  /** `generarReporte`. The report type is accepted and unused. */
  method GenerarReporte(alertas: seq<Alerta>, ps: seq<Producto>, inicio: int, fin: int, tipoReporte: string)
    returns (inf: Informe)
    ensures var rows := ObtenerAlertasResueltas(alertas, ps, inicio, fin);
      && inf.estadisticas == Estadisticas(|rows|, MoneySum(rows), KgPerUnit * StockSum(rows))
      && inf.recomendaciones == GenerarRecomendaciones(inf.estadisticas)
  {
    var rows := ObtenerAlertasResueltas(alertas, ps, inicio, fin);
    var e := CalcularEstadisticas(rows);
    inf := Informe(e, GenerarRecomendaciones(e));
  }

  /** A period without resolved alerts reports zeros and no recommendation. */
  lemma EmptyPeriod(alertas: seq<Alerta>, ps: seq<Producto>, inicio: int, fin: int)
    requires forall a :: a in alertas ==> !InPeriod(a, inicio, fin)
    ensures ObtenerAlertasResueltas(alertas, ps, inicio, fin) == []
    ensures GenerarRecomendaciones(Estadisticas(0, 0.0, 0.0)) == []
  {
  }

  /** Ten saved products earn no recommendation; eleven do. */
  lemma ThresholdIsStrict()
    ensures GenerarRecomendaciones(Estadisticas(10, 0.0, 0.0)) == []
    ensures |GenerarRecomendaciones(Estadisticas(11, 0.0, 0.0))| == 1
  {
  }

  /** Products are identified by their id. */
  ghost predicate UniqueIds(ps: seq<Producto>) {
    forall i, j :: 0 <= i < |ps| && 0 <= j < |ps| && ps[i].id == ps[j].id ==> i == j
  }

  lemma {:induction false} MatchRowsAtMostOne(a: Alerta, ps: seq<Producto>)
    requires UniqueIds(ps)
    ensures |MatchRows(a, ps)| <= 1
    decreases |ps|
  {
    if |ps| > 0 {
      assert UniqueIds(ps[1..]) by {
        forall i, j | 0 <= i < |ps[1..]| && 0 <= j < |ps[1..]| && ps[1..][i].id == ps[1..][j].id
          ensures i == j
        {
          assert ps[i + 1].id == ps[j + 1].id;
        }
      }
      MatchRowsAtMostOne(a, ps[1..]);
      if Matches(ps[0], a) {
        forall p | p in ps[1..] ensures !Matches(p, a) {
          var j :| 0 <= j < |ps[1..]| && ps[1..][j] == p;
          assert ps[j + 1] == p;
        }
      }
    }
  }

  /** Resolved alerts of the period, counted in the table. */
  function CountInPeriod(alertas: seq<Alerta>, inicio: int, fin: int): (n: nat)
    ensures n <= |alertas|
  {
    if |alertas| == 0 then 0
    else (if InPeriod(alertas[0], inicio, fin) then 1 else 0) + CountInPeriod(alertas[1..], inicio, fin)
  }

  /** With product ids unique (the primary key), the join neither drops nor
      duplicates an alert: the saved-products count is the number of
      resolved alerts of the period. */
  lemma {:induction false} SavedCountIsResolvedCount(alertas: seq<Alerta>, ps: seq<Producto>, inicio: int, fin: int)
    requires UniqueIds(ps)
    ensures |ObtenerAlertasResueltas(alertas, ps, inicio, fin)| == CountInPeriod(alertas, inicio, fin)
    decreases |alertas|
  {
    if |alertas| > 0 {
      SavedCountIsResolvedCount(alertas[1..], ps, inicio, fin);
      MatchRowsAtMostOne(alertas[0], ps);
    }
  }
}

=== FILE: reporte.dfy ===
/** The `Reporte` model object of the alerts module: a waste report whose
    constructor fills every missing or null entry with a default. */
module ReporteModel {
  import opened Values

  /** A report. `createdAt` is an instant in seconds; the period bounds are
      kept as the texts they were given as. */
  datatype Reporte = Reporte(
    id: Option<int>,
    tipoReporte: string,
    fechaInicio: string,
    fechaFin: string,
    datosJson: string,
    productosSalvados: int,
    dineroAhorrado: real,
    kgDesperdicioEvitado: real,
    createdAt: int)

  /** The associative array handed to the constructor: `None` when the key
      is missing or null. */
  datatype ReporteData = ReporteData(
    id: Option<int>,
    tipoReporte: Option<string>,
    fechaInicio: Option<string>,
    fechaFin: Option<string>,
    datosJson: Option<string>,
    productosSalvados: Option<int>,
    dineroAhorrado: Option<real>,
    kgDesperdicioEvitado: Option<real>,
    createdAt: Option<int>)

  const NoData := ReporteData(None, None, None, None, None, None, None, None, None)

  /** The empty JSON object, the default of `datos_json`. */
  const EmptyJson := "{}"

  /** `new Reporte($data)`; `now` is the clock reading used for `date(...)`. */
  function New(data: ReporteData, now: int): (r: Reporte)
    ensures r.id == data.id
    ensures data.tipoReporte.Some? ==> r.tipoReporte == data.tipoReporte.value
    ensures data.tipoReporte.None? ==> r.tipoReporte == ""
    ensures data.fechaInicio.Some? ==> r.fechaInicio == data.fechaInicio.value
    ensures data.fechaInicio.None? ==> r.fechaInicio == ""
    ensures data.fechaFin.Some? ==> r.fechaFin == data.fechaFin.value
    ensures data.fechaFin.None? ==> r.fechaFin == ""
    ensures data.datosJson.Some? ==> r.datosJson == data.datosJson.value
    ensures data.datosJson.None? ==> r.datosJson == EmptyJson
    ensures data.productosSalvados.Some? ==> r.productosSalvados == data.productosSalvados.value
    ensures data.productosSalvados.None? ==> r.productosSalvados == 0
    ensures data.dineroAhorrado.Some? ==> r.dineroAhorrado == data.dineroAhorrado.value
    ensures data.dineroAhorrado.None? ==> r.dineroAhorrado == 0.0
    ensures data.kgDesperdicioEvitado.Some? ==> r.kgDesperdicioEvitado == data.kgDesperdicioEvitado.value
    ensures data.kgDesperdicioEvitado.None? ==> r.kgDesperdicioEvitado == 0.0
    ensures data.createdAt.Some? ==> r.createdAt == data.createdAt.value
    ensures data.createdAt.None? ==> r.createdAt == now
  {
    Reporte(
      data.id,
      data.tipoReporte.GetOr(""),
      data.fechaInicio.GetOr(""),
      data.fechaFin.GetOr(""),
      data.datosJson.GetOr(EmptyJson),
      data.productosSalvados.GetOr(0),
      data.dineroAhorrado.GetOr(0.0),
      data.kgDesperdicioEvitado.GetOr(0.0),
      data.createdAt.GetOr(now))
  }

  /** Every field of a report, as an array with all nine keys present. */
  function Fields(r: Reporte): (d: ReporteData)
    ensures forall now :: New(d, now) == r
  {
    ReporteData(
      r.id, Some(r.tipoReporte), Some(r.fechaInicio), Some(r.fechaFin), Some(r.datosJson),
      Some(r.productosSalvados), Some(r.dineroAhorrado), Some(r.kgDesperdicioEvitado), Some(r.createdAt))
  }

  /** A report built from nothing: null id, empty texts, `{}`, zero
      totals, created now. */
  lemma DefaultsOfEmpty(now: int)
    ensures New(NoData, now) == Reporte(None, "", "", "", EmptyJson, 0, 0.0, 0.0, now)
  {
  }

  /** Rebuilding a report from its own fields, at any later clock reading,
      gives the same report. */
  lemma RebuildIsIdentity(data: ReporteData, now: int, later: int)
    ensures New(Fields(New(data, now)), later) == New(data, now)
  {
  }
}

=== FILE: scorer.dfy ===
/** The expiry-priority scorer of the alerts module: a fixed-weight score
    over days to expiry, stock and stock value, mapped to a priority tier
    1..4 with a fixed classification label and recommendation. */
module Scorer {

  datatype Classification = Classification(prioridad: int, clasificacion: string, recomendacion: string)

  /** Time band: inclusive upper bounds 0, 1, 3, 7, 14. */
  function TimePoints(days: int): (p: int)
    ensures p == 40 <==> days <= 0
    ensures p == 35 <==> days == 1
    ensures p == 25 <==> 2 <= days <= 3
    ensures p == 15 <==> 4 <= days <= 7
    ensures p == 5 <==> 8 <= days <= 14
    ensures p == 0 <==> days > 14
  {
    if days <= 0 then 40
    else if days <= 1 then 35
    else if days <= 3 then 25
    else if days <= 7 then 15
    else if days <= 14 then 5
    else 0
  }

  /** Stock band: strict lower bounds 50, 20, 5. */
  function StockPoints(stock: real): (p: int)
    ensures p == 15 <==> stock > 50.0
    ensures p == 10 <==> 20.0 < stock <= 50.0
    ensures p == 5 <==> 5.0 < stock <= 20.0
    ensures p == 0 <==> stock <= 5.0
  {
    if stock > 50.0 then 15
    else if stock > 20.0 then 10
    else if stock > 5.0 then 5
    else 0
  }

  /** Value band over stock times unit price: strict lower bounds 500, 100, 50. */
  function ValuePoints(value: real): (p: int)
    ensures p == 10 <==> value > 500.0
    ensures p == 5 <==> 100.0 < value <= 500.0
    ensures p == 2 <==> 50.0 < value <= 100.0
    ensures p == 0 <==> value <= 50.0
  {
    if value > 500.0 then 10
    else if value > 100.0 then 5
    else if value > 50.0 then 2
    else 0
  }

  function Score(days: int, stock: real, price: real): (s: int)
    ensures 0 <= s <= 65
  {
    TimePoints(days) + StockPoints(stock) + ValuePoints(stock * price)
  }

  /** Tier by total score: 50 and up is 4, 35 and up is 3, 20 and up is 2. */
  function TierOf(score: int): (t: int)
    ensures 1 <= t <= 4
    ensures t == 4 <==> score >= 50
    ensures t == 3 <==> 35 <= score < 50
    ensures t == 2 <==> 20 <= score < 35
    ensures t == 1 <==> score < 20
  {
    if score >= 50 then 4
    else if score >= 35 then 3
    else if score >= 20 then 2
    else 1
  }

  const Critica := Classification(4, "🔴 CRÍTICA - Acción inmediata requerida",
    "Intervención urgente. " + "Considerar descuento del 70% o donación inmediata.")
  const Alta := Classification(3, "🟠 ALTA - Atención urgente",
    "Aplicar descuento del 50% " + "o usar en recetas de aprovechamiento.")
  const Media := Classification(2, "🟡 MEDIA - Monitorear de cerca",
    "Promocionar con descuento del 30%. " + "Monitorear diariamente.")
  const Baja := Classification(1, "🔵 BAJA - Seguimiento rutinario",
    "Mantener seguimiento regular. " + "Planificar estrategias de venta.")

  /** The fixed row of the tier table. */
  function TierInfo(tier: int): (c: Classification)
    requires 1 <= tier <= 4
    ensures c.prioridad == tier
  {
    if tier == 4 then Critica
    else if tier == 3 then Alta
    else if tier == 2 then Media
    else Baja
  }

  /** `IAService::clasificarPrioridadAlerta`. */
  function ClasificarPrioridadAlerta(diasRestantes: int, cantidadStock: real, precioUnitario: real): (c: Classification)
    ensures 1 <= c.prioridad <= 4
    ensures c == TierInfo(c.prioridad)
    ensures c.prioridad == TierOf(Score(diasRestantes, cantidadStock, precioUnitario))
  {
    TierInfo(TierOf(Score(diasRestantes, cantidadStock, precioUnitario)))
  }

  /** Each tier has its own label and its own recommendation. */
  lemma TierTextsDistinct(t1: int, t2: int)
    requires 1 <= t1 <= 4 && 1 <= t2 <= 4 && t1 != t2
    ensures TierInfo(t1).clasificacion != TierInfo(t2).clasificacion
    ensures TierInfo(t1).recomendacion != TierInfo(t2).recomendacion
  {
    assert TierInfo(t1).clasificacion[0] != TierInfo(t2).clasificacion[0];
    assert TierInfo(t1).recomendacion[0] != TierInfo(t2).recomendacion[0];
  }

  /** Worked examples: (0, 60, 10) scores 40 + 15 + 10 and is critical;
      (10, 3, 1) scores 5 and is low; three days add exactly 25. */
  lemma WorkedExamples()
    ensures Score(0, 60.0, 10.0) == 65 && ClasificarPrioridadAlerta(0, 60.0, 10.0).prioridad == 4
    ensures Score(10, 3.0, 1.0) == 5 && ClasificarPrioridadAlerta(10, 3.0, 1.0).prioridad == 1
    ensures TimePoints(3) == 25
  {
  }

  /** An expired (or expiring today) product is at least of high priority ... */
  lemma ExpiredAtLeastHigh(days: int, stock: real, price: real)
    requires days <= 0
    ensures Score(days, stock, price) >= 40
    ensures ClasificarPrioridadAlerta(days, stock, price).prioridad >= 3
  {
  }

  /** ... but not necessarily critical: no stock and no value scores 40, tier 3. */
  lemma ExpiredNotAlwaysCritical()
    ensures Score(0, 0.0, 0.0) == 40
    ensures ClasificarPrioridadAlerta(0, 0.0, 0.0).prioridad == 3
  {
  }

  /** Beyond two weeks the score is at most 25, hence at most medium priority. */
  lemma DistantExpiryAtMostMedium(days: int, stock: real, price: real)
    requires days > 14
    ensures Score(days, stock, price) <= 25
    ensures ClasificarPrioridadAlerta(days, stock, price).prioridad <= 2
  {
  }

  /** The later the expiry, the lower (or equal) the tier. */
  lemma TierNonIncreasingInDays(d1: int, d2: int, stock: real, price: real)
    requires d1 <= d2
    ensures ClasificarPrioridadAlerta(d2, stock, price).prioridad <= ClasificarPrioridadAlerta(d1, stock, price).prioridad
  {
    assert TimePoints(d2) <= TimePoints(d1);
  }

  /** With a non-negative price, more stock never lowers the tier. */
  lemma TierNonDecreasingInStock(days: int, s1: real, s2: real, price: real)
    requires s1 <= s2 && price >= 0.0
    ensures ClasificarPrioridadAlerta(days, s1, price).prioridad <= ClasificarPrioridadAlerta(days, s2, price).prioridad
  {
    assert s2 * price - s1 * price == (s2 - s1) * price;
    assert s1 * price <= s2 * price;
    assert StockPoints(s1) <= StockPoints(s2);
    assert ValuePoints(s1 * price) <= ValuePoints(s2 * price);
  }
}

=== FILE: stock_movements.dfy ===
/** The stock-movement handlers of the inventory service: recording an
    inbound or outbound movement and updating the product's stock, and
    fetching one movement. The tables are in-memory values; a failing
    database call is a parameter. */
module StockMovements {
  import opened Values
  import opened Http
  import BaseController

  /** The product row as the handler reads it. `cantidad` is a column the
      handler compares against but the table need not have (`None` is
      `undefined`, which compares false against any number). */
  datatype Producto = Producto(cantidad: Option<real>, cantidadStock: real)

  datatype Movimiento = Movimiento(
    id: int,
    productoId: int,
    cantidad: real,
    tipoMovimiento: string,
    motivo: string,
    fechaMovimiento: int)

  /** The request body, with the field types the handler declares. Nothing
      checks them, so a string `cantidad` can reach the handler; the model
      assumes a number. */
  datatype MovBody = MovBody(productoId: int, cantidad: real, tipoMovimiento: string, descripcion: string)

  datatype Store = Store(productos: map<int, Producto>, movimientos: seq<Movimiento>, nextId: int)

  /** The JSON written back. */
  datatype Payload = MovJson(mov: Movimiento) | ErrorJson(error: string)

  /** An error a database call throws: its message, and whether the thrown
      value is an `Error` instance. */
  datatype DbError = DbError(message: string, isError: bool)

  /** Which database call, if any, throws. */
  datatype Fault = NoFault | LookupFails(e: DbError) | CreateFails(e: DbError) | UpdateFails(e: DbError)

  const NoService := "Servicio no inicializado"
  const SinStock := "No hay suficiente stock para realizar la salida"

  /** The body of the 500 answer the handlers' `catch` writes. */
  function Failed(e: DbError): (p: Payload)
    ensures e.isError ==> p == ErrorJson(e.message)
    ensures !e.isError ==> p == ErrorJson(BaseController.UnknownError)
  {
    ErrorJson(BaseController.Reported(e.message, e.isError))
  }

  /** The stock after a movement: `entrada` adds, any other type subtracts. */
  function NuevoStock(actual: real, tipo: string, cantidad: real): (n: real)
    ensures tipo == "entrada" ==> n - actual == cantidad
    ensures tipo != "entrada" ==> actual - n == cantidad
  {
    if tipo == "entrada" then actual + cantidad else actual - cantidad
  }

  /** The outbound guard. It reads `cantidad`, not the stock column. */
  predicate SalidaRejected(p: Producto, b: MovBody) {
    b.tipoMovimiento == "salida" && p.cantidad.Some? && p.cantidad.value < b.cantidad
  }

  /** The movement the handler records, stamped with the current instant. */
  function Registro(b: MovBody, id: int, now: int): Movimiento {
    Movimiento(id, b.productoId, b.cantidad, b.tipoMovimiento, b.descripcion, now)
  }

  /** `create`: the new tables and the response. Every failure is caught and
      answered with 500. The product is fetched with `.single()`, which
      reports a missing row as an error (`noRow`), so the handler's 404
      branch for a missing product is never reached. */
  function Create(st: Store, hasService: bool, b: MovBody, now: int, fault: Fault, noRow: DbError)
    : (r: (Store, Outcome<Payload>))
    ensures r.1.Respond?
    ensures r.0.productos.Keys == st.productos.Keys
    ensures forall k :: k in st.productos && k != b.productoId ==> r.0.productos[k] == st.productos[k]
    ensures r.1.status == 201 <==>
      hasService && fault == NoFault && b.productoId in st.productos && !SalidaRejected(st.productos[b.productoId], b)
    ensures r.1.status == 400 <==>
      hasService && !fault.LookupFails? && b.productoId in st.productos && SalidaRejected(st.productos[b.productoId], b)
    ensures r.1.status in {201, 400, 500}
    ensures hasService && fault.LookupFails? ==> r == (st, Respond(500, Failed(fault.e)))
    ensures hasService && !fault.LookupFails? && b.productoId !in st.productos ==> r == (st, Respond(500, Failed(noRow)))
    ensures r.1.status == 400 ==> r.0 == st
    ensures r.1.status == 201 ==>
      && r.0.movimientos == st.movimientos + [Registro(b, st.nextId, now)]
      && r.1.body == MovJson(Registro(b, st.nextId, now))
      && r.0.productos[b.productoId].cantidadStock
         == NuevoStock(st.productos[b.productoId].cantidadStock, b.tipoMovimiento, b.cantidad)
    ensures !hasService ==> r == (st, Respond(500, ErrorJson(NoService)))
  {
    if !hasService then (st, Respond(500, ErrorJson(NoService)))
    else if fault.LookupFails? then (st, Respond(500, Failed(fault.e)))
    else if b.productoId !in st.productos then (st, Respond(500, Failed(noRow)))
    else
      var p := st.productos[b.productoId];
      if SalidaRejected(p, b) then (st, Respond(400, ErrorJson(SinStock)))
      else if fault.CreateFails? then (st, Respond(500, Failed(fault.e)))
      else
        var mov := Registro(b, st.nextId, now);
        var st1 := st.(movimientos := st.movimientos + [mov], nextId := st.nextId + 1);
        if fault.UpdateFails? then (st1, Respond(500, Failed(fault.e)))
        else
          var p' := p.(cantidadStock := NuevoStock(p.cantidadStock, b.tipoMovimiento, b.cantidad));
          (st1.(productos := st.productos[b.productoId := p']), Respond(201, MovJson(mov)))
  }

  /** A movement for a product that does not exist is answered with 500 and
      the lookup's error, never with 404. */
  lemma MissingProductIs500(st: Store, b: MovBody, now: int, noRow: DbError)
    requires b.productoId !in st.productos
    ensures var r := Create(st, true, b, now, NoFault, noRow);
      r == (st, Respond(500, Failed(noRow))) && r.1.status != 404
  {
  }

  /** The guard and the update read different columns: a product without
      `cantidad` lets any outbound movement through, and the stock goes
      below zero. */
  lemma StockCanGoNegative(noRow: DbError)
    ensures var st := Store(map[1 := Producto(None, 3.0)], [], 1);
      var r := Create(st, true, MovBody(1, 5.0, "salida", ""), 0, NoFault, noRow);
      r.1.status == 201 && r.0.productos[1].cantidadStock == -2.0
  {
  }

  /** A failing stock update leaves the movement recorded and the stock as
      it was: the two writes are not atomic. */
  lemma UpdateFailureLeavesMovement(st: Store, b: MovBody, now: int, e: DbError, noRow: DbError)
    requires b.productoId in st.productos && !SalidaRejected(st.productos[b.productoId], b)
    ensures var r := Create(st, true, b, now, UpdateFails(e), noRow);
      && r.1 == Respond(500, Failed(e))
      && |r.0.movimientos| == |st.movimientos| + 1
      && r.0.productos == st.productos
  {
  }

  /** An inbound movement followed by an outbound one of the same quantity
      restores the stock, when the outbound guard lets it through. */
  lemma EntradaThenSalidaRestores(st: Store, pid: int, c: real, now: int, noRow: DbError)
    requires pid in st.productos && st.productos[pid].cantidad.None?
    ensures var r1 := Create(st, true, MovBody(pid, c, "entrada", ""), now, NoFault, noRow);
      var r2 := Create(r1.0, true, MovBody(pid, c, "salida", ""), now, NoFault, noRow);
      && r1.1.status == 201 && r2.1.status == 201
      && r2.0.productos[pid].cantidadStock == st.productos[pid].cantidadStock
      && |r2.0.movimientos| == |st.movimientos| + 2
  {
    var r1 := Create(st, true, MovBody(pid, c, "entrada", ""), now, NoFault, noRow);
    assert r1.0.productos[pid].cantidad.None?;
  }

  /** `getById`: the movement with that id. `fails` is the error the query
      throws, if any; like the product lookup, the query uses `.single()`,
      so an absent id is the error `noRow` and the handler's 404 branch is
      never reached. */
  function GetById(movs: seq<Movimiento>, hasService: bool, id: int, fails: Option<DbError>, noRow: DbError)
    : (r: Outcome<Payload>)
    ensures r.Respond? && r.status in {200, 500}
    ensures !hasService ==> r == Respond(500, ErrorJson(NoService))
    ensures hasService ==> (r.status == 200 <==> fails.None? && exists m :: m in movs && m.id == id)
    ensures hasService && fails.Some? ==> r == Respond(500, Failed(fails.value))
    ensures hasService && fails.None? && (forall m :: m in movs ==> m.id != id) ==> r == Respond(500, Failed(noRow))
    ensures r.status == 200 ==> r.body.MovJson? && r.body.mov in movs && r.body.mov.id == id
  {
    if !hasService then Respond(500, ErrorJson(NoService))
    else if fails.Some? then Respond(500, Failed(fails.value))
    else
      match FindMovimiento(movs, id)
      case None => Respond(500, Failed(noRow))
      case Some(m) => Respond(200, MovJson(m))
  }

  /** Fetching an id no movement has is answered with 500, never 404. */
  lemma MissingMovimientoIs500(movs: seq<Movimiento>, id: int, noRow: DbError)
    requires forall m :: m in movs ==> m.id != id
    ensures GetById(movs, true, id, None, noRow) == Respond(500, Failed(noRow))
    ensures GetById(movs, true, id, None, noRow).status != 404
  {
  }

  /** The first movement with that id. */
  function FindMovimiento(movs: seq<Movimiento>, id: int): (r: Option<Movimiento>)
    ensures r.None? <==> forall m :: m in movs ==> m.id != id
    ensures r.Some? ==> r.value in movs && r.value.id == id
  {
    if |movs| == 0 then None
    else if movs[0].id == id then Some(movs[0])
    else
      var r := FindMovimiento(movs[1..], id);
      assert forall m :: m in movs ==> m == movs[0] || m in movs[1..];
      r
  }

  /** A movement created by `create` is found again by its id. */
  lemma CreatedIsFound(st: Store, b: MovBody, now: int, noRow: DbError)
    requires forall m :: m in st.movimientos ==> m.id < st.nextId
    requires Create(st, true, b, now, NoFault, noRow).1.status == 201
    ensures GetById(Create(st, true, b, now, NoFault, noRow).0.movimientos, true, st.nextId, None, noRow)
         == Respond(200, MovJson(Registro(b, st.nextId, now)))
  {
    var movs := Create(st, true, b, now, NoFault, noRow).0.movimientos;
    FindAfterFresh(st.movimientos, Registro(b, st.nextId, now));
  }

  lemma {:induction false} FindAfterFresh(movs: seq<Movimiento>, m: Movimiento)
    requires forall x :: x in movs ==> x.id < m.id
    ensures FindMovimiento(movs + [m], m.id) == Some(m)
    decreases |movs|
  {
    if |movs| > 0 {
      assert (movs + [m])[1..] == movs[1..] + [m];
      assert movs[0] in movs;
      assert forall x :: x in movs[1..] ==> x in movs;
      FindAfterFresh(movs[1..], m);
    }
  }
}

=== FILE: storage.dfy ===
/** The storage-location handlers of the inventory service and the service
    calls below them: `create` validates the body and forwards three fields,
    `update` forwards the defined ones; the service drops any `estado` key
    from a copy of what it is given. */
module Storage {
  import opened Values
  import opened Text
  import opened Http

  const Estado := "estado"

  const NoInit := "El servicio no está inicializado"
  const Faltan := "Faltan campos requeridos: " + "nombre, capacidad_maxima y ubicacion " + "son obligatorios"
  const CapacidadInvalida := "La capacidad_maxima debe ser " + "un número mayor a 0"
  const NoEncontrado := "Almacenamiento no encontrado"
  const NombreExiste := "El nombre del almacenamiento ya existe"
  const DatosErroneos := "Error en los datos proporcionados"
  const ErrorCrear := "Error al crear almacenamiento"
  const ErrorActualizar := "Error al actualizar almacenamiento"

  /** The three fields a storage location is created or updated with. */
  const Campos: set<string> := {"nombre", "capacidad_maxima", "ubicacion"}

  // ------------------------------------------------------------ service

  /** A copy of `o` without the `estado` key (present with any value,
      `undefined` included); the caller's object is a value and stays as it
      was. */
  function StripEstado(o: Obj): (r: Obj)
    ensures forall k :: k in r <==> k in o && k != Estado
    ensures forall k :: k in r ==> r[k] == o[k]
  {
    map k | k in o && k != Estado :: o[k]
  }

  lemma StripIdempotent(o: Obj)
    ensures StripEstado(StripEstado(o)) == StripEstado(o)
  {
  }

  lemma StripWithoutEstado(o: Obj)
    requires Estado !in o
    ensures StripEstado(o) == o
  {
  }

  /** What a service call answers: the stored row, or a thrown value with
      its message and whether it is an `Error` instance. */
  datatype Answer = Row(row: Obj) | Raised(message: string, isError: bool)

  /** The message the service wraps a failed insert in. */
  function WrapCreate(message: string, details: string): (w: string)
    ensures Contains(w, message) && Contains(w, details)
  {
    var a := "Error al crear almacenamiento: ";
    var b := " - Details: ";
    var w := a + message + b + details;
    assert OccursAt(w, message, |a|);
    assert OccursAt(w, details, |a| + |message| + |b|);
    w
  }

  /** `AlmacenamientoService.create`: the stripped copy sent to the
      database and the answer. */
  function ServiceCreate(data: Obj, db: DbResult, details: string): (r: (Obj, Answer))
    ensures r.0 == StripEstado(data)
    ensures r.1.Row? <==> db.DbOk?
    ensures db.DbOk? ==> r.1 == Row(db.row)
    ensures db.DbFail? ==> r.1.isError && Contains(r.1.message, db.message)
  {
    match db
    case DbOk(row) => (StripEstado(data), Row(row))
    case DbFail(m, _) => (StripEstado(data), Raised(WrapCreate(m, details), true))
  }

  /** `AlmacenamientoService.update`: the same stripping; errors are
      rethrown as they came. */
  function ServiceUpdate(data: Obj, db: DbResult): (r: (Obj, Answer))
    ensures r.0 == StripEstado(data)
    ensures db.DbOk? ==> r.1 == Row(db.row)
    ensures db.DbFail? ==> r.1 == Raised(db.message, db.isError)
  {
    match db
    case DbOk(row) => (StripEstado(data), Row(row))
    case DbFail(m, e) => (StripEstado(data), Raised(m, e))
  }

  // ------------------------------------------------------------ controller

  /** What a handler hands to the database (if anything) and what it does. */
  datatype Call = Call(sent: Option<Obj>, outcome: Outcome<Obj>)

  /** The body passes both checks of `create`: three truthy fields, and a
      capacity that is a number above zero. */
  predicate ValidBody(body: Obj) {
    && Truthy(Get(body, "nombre"))
    && Truthy(Get(body, "ubicacion"))
    && Get(body, "capacidad_maxima").Num?
    && Get(body, "capacidad_maxima").n > 0.0
  }

  /** The catch of `create`: the two constraint messages give 400, anything
      else 500. */
  function CreateCatch(message: string, isError: bool): (t: Thrown)
    ensures t.ApiError? && t.status in {400, 500}
    ensures t.status == 400 <==> isError && (Contains(message, DuplicateKey) || Contains(message, CheckViolation))
  {
    if isError && Contains(message, DuplicateKey) then ApiError(400, NombreExiste)
    else if isError && Contains(message, CheckViolation) then ApiError(400, DatosErroneos)
    else ApiError(500, ErrorCrear)
  }

  /** The catch of `update`: only the unique-key message gives 400. */
  function UpdateCatch(message: string, isError: bool): (t: Thrown)
    ensures t.ApiError? && t.status in {400, 500}
    ensures t.status == 400 <==> isError && Contains(message, DuplicateKey)
  {
    if isError && Contains(message, DuplicateKey) then ApiError(400, NombreExiste)
    else ApiError(500, ErrorActualizar)
  }

  /** A message without a `k` mentions no constraint violation. */
  lemma NoViolationWithoutK(m: string)
    requires 'k' !in m
    ensures !Contains(m, DuplicateKey) && !Contains(m, CheckViolation)
  {
    assert DuplicateKey[10] == 'k' && CheckViolation[13] == 'k';
    NotContainsMissingChar(m, DuplicateKey, 10);
    NotContainsMissingChar(m, CheckViolation, 13);
  }

  /** The missing-field message matches no constraint violation. */
  lemma FaltanMatchesNothing()
    ensures !Contains(Faltan, DuplicateKey) && !Contains(Faltan, CheckViolation)
  {
    assert 'k' !in Faltan;
    NoViolationWithoutK(Faltan);
  }

  /** The bad-capacity message matches no constraint violation. */
  lemma CapacidadInvalidaMatchesNothing()
    ensures !Contains(CapacidadInvalida, DuplicateKey) && !Contains(CapacidadInvalida, CheckViolation)
  {
    assert 'k' !in CapacidadInvalida;
    NoViolationWithoutK(CapacidadInvalida);
  }

  /** `create`. The 400 errors its own checks throw are caught by its own
      `catch`, where they match neither constraint message, so they reach
      the client as 500. */
  function Create(initialized: bool, body: Obj, db: DbResult, details: string): (r: Call)
    ensures !initialized ==> r == Call(None, Throw(ApiError(500, NoInit)))
    ensures r.sent.Some? <==> initialized && ValidBody(body)
    ensures r.sent.Some? ==>
      && (forall k :: k in r.sent.value <==> k in Campos)
      && (forall k :: k in r.sent.value ==> r.sent.value[k] == Get(body, k))
    ensures initialized && !ValidBody(body) ==> r.outcome == Throw(ApiError(500, ErrorCrear))
    ensures r.outcome.Respond? <==> r.sent.Some? && db.DbOk?
    ensures r.outcome.Respond? ==> r.outcome == Respond(201, db.row)
    ensures r.sent.Some? && db.DbFail? && Contains(db.message, DuplicateKey) ==>
      r.outcome == Throw(ApiError(400, NombreExiste))
    ensures r.sent.Some? && db.DbFail? ==> r.outcome == Throw(CreateCatch(WrapCreate(db.message, details), true))
    ensures r.outcome.Throw? ==> r.outcome.error.ApiError?
  {
    if !initialized then Call(None, Throw(ApiError(500, NoInit)))
    else
      var nombre := Get(body, "nombre");
      var capacidad := Get(body, "capacidad_maxima");
      var ubicacion := Get(body, "ubicacion");
      if !Truthy(nombre) || !Truthy(capacidad) || !Truthy(ubicacion) then
        FaltanMatchesNothing();
        Call(None, Throw(CreateCatch(Faltan, true)))
      else if !capacidad.Num? || capacidad.n <= 0.0 then
        CapacidadInvalidaMatchesNothing();
        Call(None, Throw(CreateCatch(CapacidadInvalida, true)))
      else
        var data := map["nombre" := nombre, "capacidad_maxima" := capacidad, "ubicacion" := ubicacion];
        var (sent, answer) := ServiceCreate(data, db, details);
        assert sent == data;
        match answer
        case Row(row) => Call(Some(sent), Respond(201, row))
        case Raised(m, e) =>
          assert Contains(db.message, DuplicateKey) ==> Contains(m, DuplicateKey) by {
            if Contains(db.message, DuplicateKey) {
              ContainsTransitive(m, db.message, DuplicateKey);
            }
          }
          Call(Some(sent), Throw(CreateCatch(m, e)))
  }

  /** A capacity of zero is falsy and fails the presence check, which is
      reported as a server error. */
  lemma ZeroCapacityIs500(nombre: string, ubicacion: string, db: DbResult)
    requires |nombre| > 0 && |ubicacion| > 0
    ensures var body := map["nombre" := Str(nombre), "capacidad_maxima" := Num(0.0), "ubicacion" := Str(ubicacion)];
      Create(true, body, db, "") == Call(None, Throw(ApiError(500, ErrorCrear)))
  {
  }

  /** An `estado` in the body never reaches the database. */
  lemma EstadoNeverSent(body: Obj, db: DbResult, details: string)
    ensures var r := Create(true, body, db, details);
      r.sent.Some? ==> Estado !in r.sent.value
  {
  }

  /** The update record: exactly the three fields the body defines. */
  function PartialRecord(body: Obj): (rec: Obj)
    ensures forall k :: k in rec <==> k in Campos && Get(body, k) != Undefined
    ensures forall k :: k in rec ==> rec[k] == Get(body, k)
  {
    map k | k in Campos && k in body && body[k] != Undefined :: body[k]
  }

  /** `update`. The lookup's `.single()` fails on a missing row, and the
      `catch` answers that error with 500. */
  function Update(initialized: bool, body: Obj, existing: Lookup, db: DbResult): (r: Call)
    ensures !initialized ==> r == Call(None, Throw(ApiError(500, NoInit)))
    ensures r.sent.Some? <==> initialized && existing.Found?
    ensures r.sent.Some? ==> r.sent.value == PartialRecord(body)
    ensures initialized && existing.Missing? ==> r.outcome == Throw(ApiError(500, ErrorActualizar))
    ensures r.outcome.Respond? <==> r.sent.Some? && db.DbOk?
    ensures r.outcome.Respond? ==> r.outcome == Respond(200, db.row)
    ensures r.sent.Some? && db.DbFail? ==>
      (r.outcome.Throws(400) <==> db.isError && Contains(db.message, DuplicateKey))
    ensures r.outcome.Throw? ==> r.outcome.error.ApiError? && r.outcome.error.status in {400, 500}
  {
    if !initialized then Call(None, Throw(ApiError(500, NoInit)))
    else
      match existing
      case Missing =>
        assert NoEncontrado[0] == 'A';
        assert DuplicateKey[10] == 'k' && 'k' !in NoEncontrado;
        NotContainsMissingChar(NoEncontrado, DuplicateKey, 10);
        Call(None, Throw(UpdateCatch(NoEncontrado, true)))
      case LookupFails(m, e) => Call(None, Throw(UpdateCatch(m, e)))
      case Found(_) =>
        var rec := PartialRecord(body);
        StripWithoutEstado(rec);
        var (sent, answer) := ServiceUpdate(rec, db);
        match answer
        case Row(row) => Call(Some(sent), Respond(200, row))
        case Raised(m, e) => Call(Some(sent), Throw(UpdateCatch(m, e)))
  }

  /** Updating with an empty body sends an empty record. */
  lemma EmptyUpdateSendsNothing(row: Obj, db: DbResult)
    ensures Update(true, map[], Found(row), db).sent == Some(map[])
  {
  }
}

=== FILE: text.dfy ===
/** Text utilities shared by the modules: decimal rendering and reading,
    whitespace trimming, substring search, splitting and joining.
    Whitespace and digits are the ASCII ones throughout. */
module Text {
  import opened Values

  predicate IsDigit(c: char) { '0' <= c <= '9' }

  predicate AllDigits(s: string) {
    forall i :: 0 <= i < |s| ==> IsDigit(s[i])
  }

  /** ASCII whitespace as `String.prototype.trim()` removes it: space, tab,
      line feed, carriage return, vertical tab and form feed. Python's `\s`,
      `str.strip()` and `int()` also count the separators `\x1c`-`\x1f`,
      which this predicate leaves out. */
  predicate IsSpace(c: char) {
    c == ' ' || c == '\t' || c == '\n' || c == '\r' || c == '\U{B}' || c == '\U{C}'
  }

  function DigitChar(d: nat): (c: char)
    requires d < 10
    ensures IsDigit(c)
  {
    "0123456789"[d]
  }

  function DigitValue(c: char): (d: nat)
    requires IsDigit(c)
    ensures d < 10
  {
    c as int - '0' as int
  }

  lemma DigitRoundTrip(d: nat)
    requires d < 10
    ensures DigitValue(DigitChar(d)) == d
  {
  }

  /** Decimal rendering of a natural number, as PHP string interpolation,
      Python's `str` and JavaScript's `String` produce it. */
  function ShowNat(n: nat): (s: string)
    ensures |s| >= 1 && AllDigits(s)
    ensures s[0] == '0' ==> n == 0
    decreases n
  {
    if n < 10 then [DigitChar(n)] else ShowNat(n / 10) + [DigitChar(n % 10)]
  }

  function ShowInt(i: int): (s: string)
    ensures |s| >= 1
    ensures i >= 0 ==> s == ShowNat(i)
    ensures i < 0 ==> s[0] == '-' && s[1..] == ShowNat(-i)
  {
    if i < 0 then "-" + ShowNat(-i) else ShowNat(i)
  }

  /** The value of a run of decimal digits (Python's `int` on such a run). */
  function DigitsValue(s: string): nat
    requires AllDigits(s)
    decreases |s|
  {
    if |s| == 0 then 0 else 10 * DigitsValue(s[..|s| - 1]) + DigitValue(s[|s| - 1])
  }

  /** Reading back a rendered number gives the number. */
  lemma {:induction false} DigitsValueOfShowNat(n: nat)
    ensures DigitsValue(ShowNat(n)) == n
    decreases n
  {
    var s := ShowNat(n);
    if n < 10 {
      DigitRoundTrip(n);
    } else {
      DigitsValueOfShowNat(n / 10);
      assert s[..|s| - 1] == ShowNat(n / 10);
      DigitRoundTrip(n % 10);
    }
  }

  /** Different numbers render differently. */
  lemma ShowNatInjective(m: nat, n: nat)
    requires ShowNat(m) == ShowNat(n)
    ensures m == n
  {
    DigitsValueOfShowNat(m);
    DigitsValueOfShowNat(n);
  }

  // ---------------------------------------------------------------- trimming

  function TrimStart(s: string): (r: string)
    ensures |r| <= |s| && r == s[|s| - |r|..]
    ensures |r| > 0 ==> !IsSpace(r[0])
    ensures forall i :: 0 <= i < |s| - |r| ==> IsSpace(s[i])
    decreases |s|
  {
    if |s| > 0 && IsSpace(s[0]) then TrimStart(s[1..]) else s
  }

  function TrimEnd(s: string): (r: string)
    ensures |r| <= |s| && r == s[..|r|]
    ensures |r| > 0 ==> !IsSpace(r[|r| - 1])
    ensures forall i :: |r| <= i < |s| ==> IsSpace(s[i])
    decreases |s|
  {
    if |s| > 0 && IsSpace(s[|s| - 1]) then TrimEnd(s[..|s| - 1]) else s
  }

  /** Whitespace removed from both ends (`trim()` / `strip()`). */
  function Trim(s: string): (r: string)
    ensures |r| > 0 ==> !IsSpace(r[0]) && !IsSpace(r[|r| - 1])
    ensures Contains(s, r)
  {
    var a := TrimStart(s);
    var r := TrimEnd(a);
    assert OccursAt(s, r, |s| - |a|);
    r
  }

  /** Text that has nothing to trim is left as it is. */
  lemma TrimOfTrimmed(s: string)
    requires |s| > 0 ==> !IsSpace(s[0]) && !IsSpace(s[|s| - 1])
    ensures Trim(s) == s
  {
  }

  /** Whitespace only. */
  predicate AllSpace(s: string) {
    forall i :: 0 <= i < |s| ==> IsSpace(s[i])
  }

  /** Leading whitespace in front of text that starts with no blank is
      removed, and only it. */
  lemma {:induction false} TrimStartSpaces(a: string, x: string)
    requires AllSpace(a) && (|x| == 0 || !IsSpace(x[0]))
    ensures TrimStart(a + x) == x
    decreases |a|
  {
    if |a| == 0 {
      assert a + x == x;
    } else {
      assert (a + x)[1..] == a[1..] + x;
      TrimStartSpaces(a[1..], x);
    }
  }

  /** Trailing whitespace after text that ends with no blank is removed,
      and only it. */
  lemma {:induction false} TrimEndSpaces(x: string, b: string)
    requires AllSpace(b) && (|x| == 0 || !IsSpace(x[|x| - 1]))
    ensures TrimEnd(x + b) == x
    decreases |b|
  {
    if |b| == 0 {
      assert x + b == x;
    } else {
      var s := x + b;
      assert s[..|s| - 1] == x + b[..|b| - 1];
      TrimEndSpaces(x, b[..|b| - 1]);
    }
  }

  /** Trimming padded text gives the text back. */
  lemma TrimPadded(a: string, x: string, b: string)
    requires AllSpace(a) && AllSpace(b)
    requires |x| > 0 && !IsSpace(x[0]) && !IsSpace(x[|x| - 1])
    ensures Trim(a + x + b) == x
  {
    assert a + x + b == a + (x + b);
    TrimStartSpaces(a, x + b);
    TrimEndSpaces(x, b);
  }

  lemma TrimIdempotent(s: string)
    ensures Trim(Trim(s)) == Trim(s)
  {
    TrimOfTrimmed(Trim(s));
  }

  // ---------------------------------------------------------------- searching

  predicate StartsWith(s: string, p: string) {
    |p| <= |s| && s[..|p|] == p
  }

  predicate EndsWith(s: string, p: string) {
    |p| <= |s| && s[|s| - |p|..] == p
  }

  predicate OccursAt(s: string, t: string, j: int) {
    0 <= j && j + |t| <= |s| && s[j..j + |t|] == t
  }

  /** JavaScript `s.includes(t)`. */
  predicate Contains(s: string, t: string) {
    exists j :: 0 <= j <= |s| && OccursAt(s, t, j)
  }

  /** A text that lacks one of the characters of `t` cannot contain `t`. */
  lemma NotContainsMissingChar(s: string, t: string, k: nat)
    requires k < |t| && t[k] !in s
    ensures !Contains(s, t)
  {
    forall j | 0 <= j <= |s|
      ensures !OccursAt(s, t, j)
    {
      if j + |t| <= |s| {
        assert s[j..j + |t|][k] in s;
      }
    }
  }

  /** Containment is transitive. */
  lemma ContainsTransitive(a: string, b: string, c: string)
    requires Contains(a, b) && Contains(b, c)
    ensures Contains(a, c)
  {
    var i :| 0 <= i <= |a| && OccursAt(a, b, i);
    var j :| 0 <= j <= |b| && OccursAt(b, c, j);
    assert a[i..i + |b|] == b;
    forall k | 0 <= k < |c| ensures a[i + j + k] == c[k] {
      assert a[i + j + k] == a[i..i + |b|][j + k] == b[j + k] == b[j..j + |c|][k];
    }
    assert a[i + j..i + j + |c|] == c;
    assert OccursAt(a, c, i + j);
  }

  /** The first position at or after `i` where `t` occurs. */
  function FindFrom(s: string, t: string, i: nat): (r: Option<nat>)
    requires i <= |s|
    ensures r.Some? ==> i <= r.value && OccursAt(s, t, r.value)
    ensures r.Some? ==> forall j :: i <= j < r.value ==> !OccursAt(s, t, j)
    ensures r.None? ==> forall j :: i <= j ==> !OccursAt(s, t, j)
    decreases |s| - i
  {
    if OccursAt(s, t, i) then Some(i)
    else if i == |s| then None
    else FindFrom(s, t, i + 1)
  }

  /** Python's `str.find` / the start of the first match of a literal. */
  function Find(s: string, t: string): (r: Option<nat>)
    ensures r.Some? <==> Contains(s, t)
    ensures r.Some? ==> OccursAt(s, t, r.value) && forall j :: 0 <= j < r.value ==> !OccursAt(s, t, j)
  {
    FindFrom(s, t, 0)
  }

  // ---------------------------------------------------------- split and join

  /** `sep.join(parts)`. */
  function Join(parts: seq<string>, sep: string): string
    decreases |parts|
  {
    if |parts| == 0 then ""
    else if |parts| == 1 then parts[0]
    else parts[0] + sep + Join(parts[1..], sep)
  }

  /** `s.split(sep)` for a one-character separator. */
  function Split(s: string, sep: char): (parts: seq<string>)
    ensures |parts| >= 1
    ensures forall i :: 0 <= i < |parts| ==> sep !in parts[i]
    ensures Join(parts, [sep]) == s
    decreases |s|
  {
    if |s| == 0 then [""]
    else
      var rest := Split(s[1..], sep);
      if s[0] == sep then
        [""] + rest
      else
        JoinConsFirst(s[0], rest, [sep]);
        [[s[0]] + rest[0]] + rest[1..]
  }

  lemma JoinConsFirst(c: char, parts: seq<string>, sep: string)
    requires |parts| >= 1
    ensures Join([[c] + parts[0]] + parts[1..], sep) == [c] + Join(parts, sep)
  {
    var ps := [[c] + parts[0]] + parts[1..];
    if |parts| > 1 {
      assert ps[1..] == parts[1..];
    }
  }

  /** Joining with a separator and splitting on it gives the parts back,
      when no part contains the separator. */
  lemma {:induction false} SplitJoin(parts: seq<string>, sep: char)
    requires |parts| >= 1
    requires forall i :: 0 <= i < |parts| ==> sep !in parts[i]
    ensures Split(Join(parts, [sep]), sep) == parts
    decreases |parts|
  {
    if |parts| == 1 {
      SplitNoSeparator(parts[0], sep);
    } else {
      SplitJoin(parts[1..], sep);
      SplitAfterPart(parts[0], sep, Join(parts[1..], [sep]));
      assert parts == [parts[0]] + parts[1..];
    }
  }

  /** A part followed by the separator splits off as the first piece. */
  lemma {:induction false} SplitAfterPart(a: string, sep: char, rest: string)
    requires sep !in a
    ensures Split(a + [sep] + rest, sep) == [a] + Split(rest, sep)
    decreases |a|
  {
    var s := a + [sep] + rest;
    if |a| == 0 {
      assert s[0] == sep && s[1..] == rest;
    } else {
      assert s[1..] == a[1..] + [sep] + rest;
      SplitAfterPart(a[1..], sep, rest);
      assert [a[0]] + a[1..] == a;
    }
  }

  /** Every part occurs in the joined text. */
  lemma {:induction false} JoinContainsPart(parts: seq<string>, sep: string, i: nat)
    requires i < |parts|
    ensures Contains(Join(parts, sep), parts[i])
    decreases |parts|
  {
    var j := Join(parts, sep);
    if |parts| == 1 {
      assert OccursAt(j, parts[0], 0);
    } else if i == 0 {
      assert j[..|parts[0]|] == parts[0];
      assert OccursAt(j, parts[0], 0);
    } else {
      var tail := Join(parts[1..], sep);
      JoinContainsPart(parts[1..], sep, i - 1);
      assert OccursAt(j, tail, |parts[0]| + |sep|);
      ContainsTransitive(j, tail, parts[i]);
    }
  }

  /** Every character of a contained text occurs in the containing text. */
  lemma ContainedChars(s: string, t: string, c: char)
    requires Contains(s, t) && c in t
    ensures c in s
  {
    var j :| 0 <= j <= |s| && OccursAt(s, t, j);
    var k :| 0 <= k < |t| && t[k] == c;
    assert s[j..j + |t|][k] == s[j + k];
  }

  /** Splitting text that has no separator gives the text itself. */
  lemma SplitNoSeparator(s: string, sep: char)
    requires sep !in s
    ensures Split(s, sep) == [s]
    decreases |s|
  {
    if |s| > 0 {
      SplitNoSeparator(s[1..], sep);
    }
  }
}

=== FILE: validators.dfy ===
/** The declarative request validators of the inventory service: one chain
    per field, each yielding its failed checks' messages in chain order, and
    the middleware that answers 400 when any check failed. A chain sees the
    field through `Field`: whether it is defined, whether it is a string,
    and the text the validators test (its string form). */
module Validators {
  import opened Text

  /** How a validator chain sees one request field. */
  datatype Field = Field(present: bool, isString: bool, text: string)

  /** A field the request does not carry: undefined, which the string checks read as "". */
  const Absent := Field(false, false, "")

  /** One entry of the error list: the field and the message. */
  datatype FieldError = FieldError(path: string, msg: string)

  /** One check of a chain: its message when it fails, nothing otherwise. */
  function Check(path: string, passed: bool, msg: string): (es: seq<FieldError>)
    ensures es == [] <==> passed
    ensures !passed ==> es == [FieldError(path, msg)]
  {
    if passed then [] else [FieldError(path, msg)]
  }

  // ------------------------------------------------------------ number texts

  predicate IsSign(c: char) { c == '+' || c == '-' }

  /** The text after an optional leading sign. */
  function Unsigned(s: string): (u: string)
    ensures |u| <= |s| && u == s[|s| - |u|..]
  {
    if |s| > 0 && IsSign(s[0]) then s[1..] else s
  }

  predicate Negative(s: string) { |s| > 0 && s[0] == '-' }

  predicate HasNonZeroDigit(s: string) {
    exists i :: 0 <= i < |s| && '1' <= s[i] <= '9'
  }

  /** `isInt` (leading zeros allowed): an optional sign, then one or more
      digits. */
  predicate IntText(s: string) {
    var u := Unsigned(s);
    |u| >= 1 && AllDigits(u)
  }

  /** `isInt({ min: 0 })`: an integer text whose number is not below zero
      (`-0` is zero). */
  predicate NonNegIntText(s: string) {
    IntText(s) && !(Negative(s) && HasNonZeroDigit(Unsigned(s)))
  }

  function CountChar(s: string, c: char): (n: nat)
    ensures n <= |s|
    ensures n == 0 <==> c !in s
  {
    if |s| == 0 then 0
    else
      assert forall x :: x in s ==> x == s[0] || x in s[1..];
      (if s[0] == c then 1 else 0) + CountChar(s[1..], c)
  }

  /** Digits with at most one decimal point. */
  predicate MantissaShape(m: string) {
    (forall i :: 0 <= i < |m| ==> IsDigit(m[i]) || m[i] == '.') && CountChar(m, '.') <= 1
  }

  predicate IsExpMark(c: char) { c == 'e' || c == 'E' }

  /** Where the exponent mark is (or the end of the text). */
  function ExpAt(u: string): (i: nat)
    ensures i <= |u|
    ensures forall j :: 0 <= j < i ==> !IsExpMark(u[j])
    ensures i < |u| ==> IsExpMark(u[i])
  {
    if |u| == 0 then 0
    else if IsExpMark(u[0]) then 0
    else 1 + ExpAt(u[1..])
  }

  /** The float pattern: sign, mantissa, and an exponent of an optional sign
      and at least one digit. */
  predicate FloatShape(s: string) {
    var u := Unsigned(s);
    var i := ExpAt(u);
    MantissaShape(u[..i]) && (i < |u| ==> IntText(u[i + 1..]))
  }

  /** `isFloat({ min: 0 })`: the float pattern, not one of the texts the
      check rejects outright, a mantissa with a digit (otherwise the number
      is NaN) and not below zero. */
  predicate NonNegFloatText(s: string) {
    var u := Unsigned(s);
    var m := u[..ExpAt(u)];
    && s !in {"", ".", ",", "-", "+"}
    && FloatShape(s)
    && (exists i :: 0 <= i < |m| && IsDigit(m[i]))
    && !(Negative(s) && HasNonZeroDigit(m))
  }

  /** Every non-negative integer text is also a non-negative float text. */
  lemma IntTextIsFloatText(s: string)
    requires NonNegIntText(s)
    ensures NonNegFloatText(s)
  {
    var u := Unsigned(s);
    assert forall j :: 0 <= j < |u| ==> !IsExpMark(u[j]);
    assert ExpAt(u) == |u|;
    assert u[..|u|] == u;
    assert '.' !in u;
    assert IsDigit(u[0]);
  }

  /** A rendered natural number passes both number checks. */
  lemma ShowNatPassesNumberChecks(n: nat)
    ensures NonNegIntText(ShowNat(n)) && NonNegFloatText(ShowNat(n))
  {
    var s := ShowNat(n);
    assert IsDigit(s[0]);
    assert Unsigned(s) == s;
    IntTextIsFloatText(s);
  }

  /** `-0` is a valid stock. */
  lemma MinusZeroIsStock()
    ensures NonNegIntText("-0")
  {
    assert Unsigned("-0") == "0";
  }

  /** A digit, an exponent mark and a digit (`1e3`) is a valid price but not
      a valid stock. */
  lemma ExponentIsPriceNotStock(s: string)
    requires |s| == 3 && IsDigit(s[0]) && IsExpMark(s[1]) && IsDigit(s[2])
    ensures NonNegFloatText(s) && !IntText(s)
  {
    ExponentShape(s);
    assert IsDigit(s[..1][0]);
    assert s !in {"", ".", ",", "-", "+"} by {
      assert |s| == 3;
    }
    assert !IntText(s) by {
      assert !IsDigit(s[1]);
    }
  }

  /** The float pattern holds for a digit, a mark and a digit. */
  lemma ExponentShape(s: string)
    requires |s| == 3 && IsDigit(s[0]) && IsExpMark(s[1]) && IsDigit(s[2])
    ensures Unsigned(s) == s && ExpAt(s) == 1 && FloatShape(s)
  {
    ExpMarkSecond(s);
    OneDigitMantissa(s[..1]);
    DigitIsIntText(s[2..]);
  }

  lemma DigitIsIntText(t: string)
    requires |t| == 1 && IsDigit(t[0])
    ensures IntText(t)
  {
    assert Unsigned(t) == t;
  }

  lemma ExpMarkSecond(s: string)
    requires |s| >= 2 && !IsExpMark(s[0]) && IsExpMark(s[1])
    ensures ExpAt(s) == 1
  {
    assert ExpAt(s[1..]) == 0;
  }

  lemma OneDigitMantissa(m: string)
    requires |m| == 1 && IsDigit(m[0])
    ensures MantissaShape(m)
  {
    assert m[1..] == [];
    assert CountChar(m, '.') == 0;
  }

  /** `-1` is neither a valid stock nor a valid price. */
  lemma MinusOneRejected()
    ensures !NonNegIntText("-1") && !NonNegFloatText("-1")
  {
    var u := Unsigned("-1");
    assert u == "1";
    assert ExpAt(u) == 1 by {
      assert u[1..] == "";
    }
    assert u[..1] == "1";
    assert '1' <= u[0] <= '9';
  }

  // ------------------------------------------------------------ messages

  const NombreRequerido := "El nombre es requerido"
  const NombreLongitud := "El nombre debe tener " + "entre 2 y 100 caracteres"
  const DescripcionTexto := "La descripción debe ser un texto"
  const DescripcionLongitud := "La descripción no puede " + "exceder 500 caracteres"
  const PrecioPositivo := "El precio debe ser un número positivo"
  const PrecioRequerido := "El precio es requerido"
  const StockEntero := "El stock debe ser un " + "número entero positivo"
  const StockRequerido := "El stock es requerido"
  const CategoriaRequerida := "La categoría es requerida"
  const CategoriaTexto := "La categoría debe ser un texto"
  const CategoriaLongitud := "La categoría debe tener " + "entre 2 y 50 caracteres"
  const ProveedorEntero := "El ID del proveedor debe " + "ser un número entero"
  const ProveedorRequerido := "El ID del proveedor es requerido"
  const TelefonoTexto := "El teléfono debe ser un texto"
  const TelefonoLongitud := "El teléfono no puede " + "exceder 20 caracteres"
  const EmailInvalido := "El email debe ser un email válido"
  const DireccionTexto := "La dirección debe ser un texto"
  const DireccionLongitud := "La dirección no puede " + "exceder 200 caracteres"

  // ------------------------------------------------------------ chains

  /** `nombre`: trimmed, then non-empty and 2..100 characters long. */
  function NombreErrors(f: Field): (es: seq<FieldError>)
    ensures es == [] <==> 2 <= |Trim(f.text)| <= 100
    ensures FieldError("nombre", NombreRequerido) in es <==> |Trim(f.text)| == 0
  {
    var t := Trim(f.text);
    Check("nombre", |t| > 0, NombreRequerido) + Check("nombre", 2 <= |t| <= 100, NombreLongitud)
  }

  /** An optional text of bounded length: skipped when undefined. */
  function OptionalText(path: string, f: Field, max: nat, notText: string, tooLong: string): (es: seq<FieldError>)
    ensures es == [] <==> !f.present || (f.isString && |f.text| <= max)
    ensures !f.present ==> es == []
  {
    if !f.present then []
    else Check(path, f.isString, notText) + Check(path, |f.text| <= max, tooLong)
  }

  /** `descripcion`: optional; a string of at most 500 characters. */
  function DescripcionErrors(f: Field): (es: seq<FieldError>)
    ensures es == [] <==> !f.present || (f.isString && |f.text| <= 500)
  {
    OptionalText("descripcion", f, 500, DescripcionTexto, DescripcionLongitud)
  }

  /** `precio`: a float of at least zero, non-empty. */
  function PrecioErrors(f: Field): (es: seq<FieldError>)
    ensures es == [] <==> NonNegFloatText(f.text)
  {
    Check("precio", NonNegFloatText(f.text), PrecioPositivo) + Check("precio", |f.text| > 0, PrecioRequerido)
  }

  /** `stock`: an integer of at least zero, non-empty. */
  function StockErrors(f: Field): (es: seq<FieldError>)
    ensures es == [] <==> NonNegIntText(f.text)
  {
    Check("stock", NonNegIntText(f.text), StockEntero) + Check("stock", |f.text| > 0, StockRequerido)
  }

  /** `categoria`: a non-empty string of 2..50 characters. */
  function CategoriaErrors(f: Field): (es: seq<FieldError>)
    ensures es == [] <==> f.isString && 2 <= |f.text| <= 50
  {
    Check("categoria", |f.text| > 0, CategoriaRequerida) + Check("categoria", f.isString, CategoriaTexto)
      + Check("categoria", 2 <= |f.text| <= 50, CategoriaLongitud)
  }

  /** `proveedorId`: an integer, non-empty. */
  function ProveedorIdErrors(f: Field): (es: seq<FieldError>)
    ensures es == [] <==> IntText(f.text)
  {
    Check("proveedorId", IntText(f.text), ProveedorEntero) + Check("proveedorId", |f.text| > 0, ProveedorRequerido)
  }

  /** What `validarErrores` does: answer 400 with the list, or pass on. */
  datatype Verdict = Reject(status: int, ok: bool, errors: seq<FieldError>) | Next

  /** `validarErrores`. */
  function ValidarErrores(errors: seq<FieldError>): (v: Verdict)
    ensures v.Reject? <==> |errors| > 0
    ensures v.Reject? ==> v == Reject(400, false, errors)
  {
    if |errors| > 0 then Reject(400, false, errors) else Next
  }

  /** The fields of a product request. */
  datatype ProductoFields = ProductoFields(
    nombre: Field, descripcion: Field, precio: Field, stock: Field, categoria: Field, proveedorId: Field)

  predicate ProductoValid(p: ProductoFields) {
    && 2 <= |Trim(p.nombre.text)| <= 100
    && (!p.descripcion.present || (p.descripcion.isString && |p.descripcion.text| <= 500))
    && NonNegFloatText(p.precio.text)
    && NonNegIntText(p.stock.text)
    && p.categoria.isString && 2 <= |p.categoria.text| <= 50
    && IntText(p.proveedorId.text)
  }

  /** `productoValidator`: the six chains in order, then the middleware. */
  function ProductoValidator(p: ProductoFields): (v: Verdict)
    ensures v == Next <==> ProductoValid(p)
    ensures v.Reject? ==> v.status == 400 && !v.ok
  {
    ValidarErrores(NombreErrors(p.nombre) + DescripcionErrors(p.descripcion) + PrecioErrors(p.precio)
      + StockErrors(p.stock) + CategoriaErrors(p.categoria) + ProveedorIdErrors(p.proveedorId))
  }

  /** The fields of a supplier request. `emailOk` is the verdict of the
      e-mail format check, which is library behaviour. */
  datatype ProveedorFields = ProveedorFields(nombre: Field, telefono: Field, email: Field, emailOk: bool, direccion: Field)

  predicate ProveedorValid(p: ProveedorFields) {
    && 2 <= |Trim(p.nombre.text)| <= 100
    && (!p.telefono.present || (p.telefono.isString && |p.telefono.text| <= 20))
    && (!p.email.present || p.emailOk)
    && (!p.direccion.present || (p.direccion.isString && |p.direccion.text| <= 200))
  }

  /** `proveedorValidator`. */
  function ProveedorValidator(p: ProveedorFields): (v: Verdict)
    ensures v == Next <==> ProveedorValid(p)
    ensures v.Reject? ==> v.status == 400 && !v.ok
  {
    var emailErrors := if p.email.present && !p.emailOk then [FieldError("email", EmailInvalido)] else [];
    ValidarErrores(NombreErrors(p.nombre)
      + OptionalText("telefono", p.telefono, 20, TelefonoTexto, TelefonoLongitud)
      + emailErrors
      + OptionalText("direccion", p.direccion, 200, DireccionTexto, DireccionLongitud))
  }

  /** Surrounding blanks do not count toward the name's length: a padded
      one-letter name is still too short. */
  lemma PaddedShortNameRejected(before: string, c: char, after: string)
    requires AllSpace(before) && AllSpace(after) && !IsSpace(c)
    ensures NombreErrors(Field(true, true, before + [c] + after)) == [FieldError("nombre", NombreLongitud)]
  {
    TrimPadded(before, [c], after);
  }

  /** A missing name reports both of its messages. */
  lemma MissingNameTwoErrors()
    ensures NombreErrors(Absent) == [FieldError("nombre", NombreRequerido), FieldError("nombre", NombreLongitud)]
  {
  }
}

=== FILE: values.dfy ===
/** Dynamic values as they travel through the untyped layers of the system:
    JSON request bodies of the Express controllers and PHP associative arrays. */
module Values {

  /** The conventional optional value. */
  datatype Option<+T> = None | Some(value: T) {
    function GetOr(default: T): T {
      match this
      case Some(v) => v
      case None => default
    }
  }

  /** `f` applied to every element, failing as soon as one application
      fails. */
  function Traverse<T, U>(f: T -> Option<U>, xs: seq<T>): (r: Option<seq<U>>)
    ensures r.Some? <==> forall i :: 0 <= i < |xs| ==> f(xs[i]).Some?
    ensures r.Some? ==> |r.value| == |xs|
    ensures r.Some? ==> forall i :: 0 <= i < |xs| ==> f(xs[i]) == Some(r.value[i])
    decreases |xs|
  {
    if |xs| == 0 then Some([])
    else
      match f(xs[0])
      case None => None
      case Some(v) =>
        match Traverse(f, xs[1..])
        case None => None
        case Some(vs) => Some([v] + vs)
  }

  /** One JSON/JavaScript value. `Undefined` is what a property read yields
      for a key the object does not have. */
  datatype Value = Undefined | Null | Bool(b: bool) | Num(n: real) | Str(s: string)

  /** A JavaScript object or a decoded JSON body: only its own keys. */
  type Obj = map<string, Value>

  /** `o[k]` in JavaScript: a missing key reads as `undefined`. */
  function Get(o: Obj, k: string): Value {
    if k in o then o[k] else Undefined
  }

  /** JavaScript truthiness (`!v` is false exactly for these). NaN is not modelled. */
  predicate Truthy(v: Value) {
    match v
    case Undefined => false
    case Null => false
    case Bool(b) => b
    case Num(n) => n != 0.0
    case Str(s) => |s| > 0
  }

  /** The keys of `o` whose value is not `undefined`. */
  function DefinedKeys(o: Obj): (ks: set<string>)
    ensures forall k :: k in ks <==> Get(o, k) != Undefined
  {
    set k | k in o && o[k] != Undefined
  }
}
